=== FILE: README.md ===
# EatWise text pipeline, in Dafny

EatWise reads a photographed nutrition label and says whether the food is
healthy. The backend runs OCR on the photo and lays the detected text blocks
out as lines. It cleans that text. It then asks a zero-shot classifier for a
verdict and a language model for explanation bullets, a health-impact line and
a consumption line. Everything goes into a fixed ten-line analysis text, or
into one of two eight-line fallback texts. The React frontend reads the
analysis text back in three places. It also keeps a history of responses that
the user can select from and delete.

This project models the deterministic part of that pipeline, with the network
and OCR calls taken as inputs:

- `ImageProcessing` (backend/utils/image_processing.py) keeps the confident
  OCR detections, sorts them by height, and groups them into rows with a
  chained threshold of 10. It sorts each row left to right, writes each row as
  one line with the value–unit rule, and cleans the result.
- `TextCleaning` (backend/utils/text_cleaning.py) collapses the whitespace of
  every line. It then applies the 21 OCR corrections in order and counts the
  nutrition keywords for the warning.
- `AnalysisText` (backend/utils/analysis.py) turns the model's reply into
  exactly three "• " bullets and picks the impact and consumption lines or
  their defaults. It lays out the ten-line text and runs the three-attempt
  retry loop with its two fallback texts.
- `ResultParser` (AnalysisResult.jsx) is the marker-based reader.
  `PositionalParser` (Analysis.jsx) is the positional reader. `HistoryView`
  (History.jsx) reads only the verdict.
- `RoundTrip` proves three things about the readers:
  - The positional reader recovers every field of every success text.
  - The marker-based reader recovers every field of a success text under
    three conditions on the model's reply: no explanation line mentions
    "Health Impact:" or "Recommended Consumption:"; neither the impact nor the
    consumption line starts with '•' once trimmed; and the impact line does
    not mention "Recommended Consumption:".
  - Both components show every text the retry loop returns, without
    throwing.
- `HomePage` is the `Home` page state as a class: the record on show, the
  loading and error flags, and the history, with the upload, select and delete
  handlers.
- `Strings` gives Python's and JavaScript's string operations as definitions:
  split, join, strip, lstrip, replace, find and lower. `Seqs` gives the
  filter and the map that make up a Python list comprehension. `Opt` and
  `Payload` hold the option type and the response record.

backend/reference.py repeats the code of the three backend files, except for
the token source (line 177) and the warning calls (lines 345 and 348). It is
modelled once, and the rows below cite it next to the original.

## Model

| member | source | states |
|---|---|---|
| Strings.Trim | frontend/src/components/AnalysisResult.jsx:25-26 | the trimmed text is a slice of the input with only whitespace cut off on either side, and it is empty or starts and ends with a non-whitespace character |
| Strings.LStrip | backend/utils/analysis.py:89 | `lstrip(cs)` removes a prefix made only of characters of `cs` and leaves a text that does not start with one |
| Strings.RStrip | backend/utils/analysis.py:89 | `rstrip(cs)` removes a suffix made only of characters of `cs` and leaves a text that does not end with one |
| Strings.TrimTrimmed | backend/utils/analysis.py:89 | stripping an already stripped text changes nothing |
| Strings.TrimPadded | frontend/src/components/AnalysisResult.jsx:25 | a stripped value behind one space strips back to the value |
| Strings.IndexOf | frontend/src/components/AnalysisResult.jsx:34-35 | the result is the first position where the pattern occurs, or -1 exactly when it occurs nowhere |
| Strings.ReplaceFirst | frontend/src/components/AnalysisResult.jsx:25-26 | JavaScript `replace` with a string pattern leaves the text unchanged when the pattern is absent; otherwise it puts the replacement in place of the pattern's first occurrence and keeps the text before and after |
| Strings.ReplaceAll | backend/utils/text_cleaning.py:38 | Python `replace` leaves a text shorter than the pattern unchanged; `ReplaceAllFirst` says that every occurrence is replaced |
| Strings.ReplaceAllFirst | backend/utils/text_cleaning.py:38 | a text without the pattern comes back unchanged; otherwise the text before the first occurrence is kept, that occurrence becomes the replacement, and the rest is replaced in the same way |
| Strings.ReplaceAllAt | backend/utils/text_cleaning.py:38 | when the first occurrence starts at `k`, the first `k` characters are kept, then come the replacement and the replaced rest |
| Strings.ReplaceAllAbsent | backend/utils/text_cleaning.py:38 | a text in which the pattern occurs nowhere is returned unchanged |
| Strings.ReplaceAllExcludes | backend/utils/text_cleaning.py:37-38 | a character in neither the text nor the replacement, or one that is the whole pattern and not in the replacement, is absent from the result |
| Strings.ReplaceAllSelf | backend/utils/text_cleaning.py:23 | replacing a pattern by itself is the identity |
| Strings.ReplaceAllUnmatched | backend/utils/text_cleaning.py:38 | a pattern whose first character does not occur leaves the text unchanged |
| Strings.ReplaceAllKeepsCount | backend/utils/text_cleaning.py:37-38 | a character in neither the pattern nor the replacement keeps its number of occurrences |
| Strings.Split | backend/utils/text_cleaning.py:9 | splitting gives at least one piece, and no piece holds the delimiter |
| Strings.SplitJoin | backend/utils/text_cleaning.py:9-10 | splitting what was joined on the delimiter gives the pieces back, when no piece holds it |
| Strings.JoinSplit | backend/utils/text_cleaning.py:9-10 | joining the pieces of a split on the delimiter gives the text back |
| Strings.SplitCount | frontend/src/components/AnalysisResult.jsx:24 | the number of lines is one more than the number of line breaks |
| Strings.SplitFirstLine | frontend/src/components/AnalysisResult.jsx:24-25 | the first line of `a + "\n" + b` is `a` when `a` holds no line break |
| Strings.JoinAppend | backend/utils/analysis.py:167-174 | joining two non-empty groups is joining each and putting the separator between |
| Strings.JoinFlatten | backend/utils/analysis.py:100 | a joined group placed among other lines joins to the same text as its pieces placed there |
| Strings.JoinExcludes | backend/utils/image_processing.py:102 | a joined text holds no character that the pieces and the separator lack |
| Strings.ToLower | frontend/src/components/AnalysisResult.jsx:47 | lower-casing keeps the length, maps each letter 'A'-'Z' to its lower-case letter and keeps every other character |
| Strings.Decimal | backend/utils/analysis.py:168 | the rendering of a whole number is a non-empty string of decimal digits |
| ResultParser.StripLabel | frontend/src/components/AnalysisResult.jsx:25-26 | the verdict or confidence is stripped, and it is the trimmed line itself when the label is absent |
| ResultParser.StripLabelled | frontend/src/components/AnalysisResult.jsx:25-26 | a label, a space and a stripped value give back exactly the value |
| ResultParser.Pick | frontend/src/components/AnalysisResult.jsx:30 | every kept line starts with '•' and is one of the input lines |
| ResultParser.Bullets | frontend/src/components/AnalysisResult.jsx:29-31 | every point starts with '•' and is stripped, and there are no more points than lines |
| ResultParser.BulletsMembers | frontend/src/components/AnalysisResult.jsx:29-31 | a text is a point exactly when it is the trimmed form of some line that starts with '•' once trimmed |
| ResultParser.BulletsAppend | frontend/src/components/AnalysisResult.jsx:29-31 | the points of two blocks of lines are the points of the first followed by those of the second, so source order is kept |
| ResultParser.AllBullets | frontend/src/components/AnalysisResult.jsx:29-31 | lines that are already stripped points come back unchanged |
| ResultParser.NoBullets | frontend/src/components/AnalysisResult.jsx:30 | lines whose trimmed form does not start with '•' give no points |
| ResultParser.BulletsBetween | frontend/src/components/AnalysisResult.jsx:29-31 | points framed by lines that are not points are exactly the middle lines |
| ResultParser.FindFrom | frontend/src/components/AnalysisResult.jsx:34-35 | the result is the first line from `from` on that mentions the marker, or -1 when none does |
| ResultParser.FindLine | frontend/src/components/AnalysisResult.jsx:34-35 | `findIndex` gives the first line that mentions the marker, and -1 exactly when no line does |
| ResultParser.At | frontend/src/components/AnalysisResult.jsx:37-38 | an index past the end reads as absent (JavaScript `undefined`) |
| ResultParser.LineAfter | frontend/src/components/AnalysisResult.jsx:37-40 | the line after the first one that mentions the marker, absent when that line is the last, and `''` when no line mentions the marker |
| ResultParser.Parse | frontend/src/components/AnalysisResult.jsx:24-40 | the extraction throws exactly when the text has no line break, that is, when `sections[1]` is undefined |
| ResultParser.VerdictLine | frontend/src/components/AnalysisResult.jsx:25 | a text whose first line is "Verdict:", a space and a stripped verdict shows that verdict |
| ResultParser.InnerText | frontend/src/components/AnalysisResult.jsx:22 | `analysis.analysis` is truthy exactly for a record whose analysis text is present and non-empty |
| ResultParser.Render | frontend/src/components/AnalysisResult.jsx:22-40 | the component returns null exactly when the prop or its text is falsy, and throws exactly when the text is a single line; otherwise it shows the parse of the text |
| ResultParser.HealthyExamples | frontend/src/components/AnalysisResult.jsx:47 | the healthy check `IsHealthy` ignores case ("healthy", "Healthy", "HEALTHY") and nothing else (" healthy", "Unhealthy" and "" fail) |
| ResultParser.HealthyLetters | frontend/src/components/AnalysisResult.jsx:47 | for every verdict, `IsHealthy` holds exactly when the verdict is seven letters spelling "healthy", each in either case |
| PositionalParser.Slice | frontend/src/components/Analysis.jsx:24 | `slice` clamps to the length: empty past the end, otherwise the lines from `from` up to `to` or the end |
| PositionalParser.Parse | frontend/src/components/Analysis.jsx:21-26 | the extraction throws exactly when the text has no line break |
| PositionalParser.Render | frontend/src/components/Analysis.jsx:5-26 | null exactly for a missing record; the fixed failure message exactly when `success` is false; a TypeError exactly for a success without a multi-line analysis text |
| PositionalParser.StricterThanResultView | frontend/src/components/Analysis.jsx:30 | the exact "Healthy" test (`PositionalParser.IsHealthy`) accepts only what the case-insensitive test accepts, and "HEALTHY" shows the difference |
| HistoryView.GetVerdict | frontend/src/components/History.jsx:19-26 | "Unknown" when the record has no analysis text; otherwise a stripped verdict |
| HistoryView.VerdictAgrees | frontend/src/components/History.jsx:21-22 | the verdict in the history list is the verdict the result view shows |
| HistoryView.ProductLabel | frontend/src/components/History.jsx:101 | the label is never empty, and it is either the item's own product name or "Food Item"; the name is used exactly when it is present and non-empty |
| HistoryView.Render | frontend/src/components/History.jsx:52-72 | the chip counts the entries; row `i` shows entry `i`, its verdict, and the healthy colour exactly when that verdict is "healthy" in any case; its delete action reports `i` |
| HistoryView.FailedEntryRow | frontend/src/components/History.jsx:20-25 | a failed response in the history shows "Unknown", in the warning colour |
| HomePage.Stamped | frontend/src/pages/Home.jsx:46-50 | the history item is the response with the timestamp and image URL set, and every other field unchanged |
| HomePage.WithoutIndex | frontend/src/pages/Home.jsx:64 | the filter drops one entry when the index is in range and none otherwise |
| HomePage.WithoutIndexSplice | frontend/src/pages/Home.jsx:64 | the filter removes exactly the entry at the index and keeps the rest in order, and an out-of-range index changes nothing |
| HomePage.DeleteRow | frontend/src/pages/Home.jsx:129-133 | the delete button of history row `i` removes the entry that row shows and keeps the others in order |
| HomePage.ResultPanelAsWritten | frontend/src/pages/Home.jsx:152-155 | as written, the result panel never shows anything |
| HomePage.ResultPanel | frontend/src/pages/Home.jsx:152-155 | as intended, the panel shows the record exactly when it reports success with a multi-line analysis text, and then its verdict is the one the history list gives; it throws exactly for a success with a non-empty single-line text, and is empty otherwise |
| HomePage.ResultPanelDiscrepancy | frontend/src/pages/Home.jsx:152-155 | for every successful record whose text opens with a verdict line, the panel as written is empty while the intended one shows the verdict |
| HomePage.Home.constructor | frontend/src/pages/Home.jsx:22-28 | nothing on show, not loading, no error; the history is the saved list, or empty when nothing is saved |
| HomePage.Home.BeginUpload | frontend/src/pages/Home.jsx:38-39 | the spinner goes up and the error is cleared; the record on show and the history are unchanged |
| HomePage.Home.Settle | frontend/src/pages/Home.jsx:41-56 | a response, successful or not, goes on show and, stamped, to the front of the history; a rejection sets only the error; the spinner comes down either way |
| HomePage.Home.HandleImageSelect | frontend/src/pages/Home.jsx:37-57 | after the handler, a resolved request has grown the history by exactly its stamped item at the front with the error cleared, and a rejected one has set the error and left the history and the record on show alone; the error alert of line 144 then shows exactly when the request was rejected with a non-empty message |
| HomePage.Home.HandleSelectHistory | frontend/src/pages/Home.jsx:59-61 | the chosen record goes on show and nothing else changes |
| HomePage.Home.HandleDeleteHistory | frontend/src/pages/Home.jsx:63-65 | the history loses exactly the entry at the index and keeps the rest in order; an out-of-range index changes nothing, and no other field changes |
| HomePage.Home.Panel | frontend/src/pages/Home.jsx:152-158 | the panel of the page state, as intended: it shows the record on show exactly when that record reports success with a multi-line analysis text, with the verdict the history list gives, and is empty when the record does not report success |
| HomePage.Home.HistoryPanel | frontend/src/pages/Home.jsx:129-133 | the history list counts every entry |
| TextCleaning.RunFrom | backend/utils/text_cleaning.py:9 | the run of non-whitespace that starts at `i` ends at the first whitespace or at the end |
| TextCleaning.Words | backend/utils/text_cleaning.py:9 | `split()` gives non-empty runs of non-whitespace |
| TextCleaning.JoinedWordsTidy | backend/utils/text_cleaning.py:9 | words joined by single spaces form a line without leading, trailing or repeated whitespace |
| TextCleaning.Collapse | backend/utils/text_cleaning.py:9 | `' '.join(line.split())` keeps the words of the line, in order |
| TextCleaning.CollapseTidy | backend/utils/text_cleaning.py:9 | every collapsed line is tidy |
| TextCleaning.WordsJoin | backend/utils/text_cleaning.py:9 | splitting words joined by single spaces gives the words back |
| TextCleaning.CollapseIdempotent | backend/utils/text_cleaning.py:9 | collapsing twice is collapsing once |
| TextCleaning.Normalize | backend/utils/text_cleaning.py:9-10 | the lines of the normalised text are the input's lines, each collapsed, in order |
| TextCleaning.NormalizeLines | backend/utils/text_cleaning.py:9-10 | normalising keeps the lines in order, each one collapsed and tidy |
| TextCleaning.LinesJoinTidy | backend/utils/text_cleaning.py:10 | tidy lines joined by line breaks give tidy text |
| TextCleaning.NormalizeTidy | backend/utils/text_cleaning.py:9-10 | no line of the normalised text has leading, trailing or repeated whitespace |
| TextCleaning.ReplaceAllSpaced | backend/utils/text_cleaning.py:38 | replacing every occurrence by a fitting value keeps the whitespace tidy, and empties the text only when it was empty |
| TextCleaning.ApplyRowsSplit | backend/utils/text_cleaning.py:37-38 | applying the table (`ApplyRows`) in two parts is applying it whole |
| TextCleaning.ApplyRowsKeepsCount | backend/utils/text_cleaning.py:37-38 | a character in no pattern and no value keeps its number of occurrences |
| TextCleaning.ApplyRowsExcludes | backend/utils/text_cleaning.py:37-38 | a character missing from the text and from every value stays missing |
| TextCleaning.RowRemoves | backend/utils/text_cleaning.py:37-38 | once the row for a one-character pattern has run, no later row whose value lacks that character brings it back |
| TextCleaning.ApplyRowsTidy | backend/utils/text_cleaning.py:37-38 | values that fit keep tidy text tidy |
| TextCleaning.IdentityRow | backend/utils/text_cleaning.py:37-38 | a row whose value is its pattern changes nothing |
| TextCleaning.CorrectionsWellFormed | backend/utils/text_cleaning.py:13-35 | the table has 21 rows in insertion order, with "|", "O", "q" and ("qg", "g") at positions 0, 1, 5 and 7; its patterns are printable and its values fit and are free of '|', 'O', 'q' and line breaks |
| TextCleaning.UnitRowsWellFormed | backend/utils/text_cleaning.py:14-22 | the unit rows have printable patterns and settled, fitting values |
| TextCleaning.Found | backend/utils/text_cleaning.py:45 | the count is at most the number of keywords; it is 0 exactly when no keyword occurs and full exactly when all do; `FoundCounts` gives the exact count |
| TextCleaning.FoundCounts | backend/utils/text_cleaning.py:45 | the count is exactly the number of keyword positions whose lower-cased keyword occurs in the text |
| TextCleaning.KeywordCount | backend/utils/text_cleaning.py:41-45 | at most nine keywords are found; `KeywordCountCounts` gives the exact count |
| TextCleaning.KeywordCountCounts | backend/utils/text_cleaning.py:41-45 | `found_keywords` is the number of the nine nutrition keywords that occur in the lower-cased text |
| TextCleaning.Correct | backend/utils/text_cleaning.py:37-38 | the loop leaves the text with every row applied, in table order |
| TextCleaning.CleanNutritionText | backend/utils/text_cleaning.py:3-51 | `None` and the empty text come back unchanged without a warning; any other text comes back normalised and corrected, and the warning is raised exactly when fewer than 4 keywords occur in the result |
| TextCleaning.ApplyRowsEmpty | backend/utils/text_cleaning.py:37-38 | the corrections leave empty text empty |
| TextCleaning.CleanedEmpty | backend/utils/text_cleaning.py:5-6 | cleaning "" gives "", so the falsy-input guard changes nothing for it |
| TextCleaning.CleanedLineCount | backend/reference.py:127-132 | cleaning (`Cleaned`) keeps the number of lines |
| TextCleaning.CleanedTidy | backend/utils/text_cleaning.py:9-38 | no line of the result has leading, trailing or repeated whitespace, even after the corrections |
| TextCleaning.CleanedExcludes | backend/utils/text_cleaning.py:14-38 | the result holds no '\|', 'O' or 'q' |
| TextCleaning.QgRowDead | backend/utils/text_cleaning.py:19-21 | the "qg" row never matches: applying the first eight rows is applying the first seven |
| TextCleaning.IdentityRowsInert | backend/utils/text_cleaning.py:23-33 | each row whose value is its own pattern changes nothing |
| ImageProcessing.BlockOf | backend/utils/image_processing.py:53-61 | the block keeps the text and the left edge, and its height lies between the box's top and bottom |
| ImageProcessing.Confident | backend/utils/image_processing.py:51 | a block is collected exactly when it comes from a detection whose confidence exceeds 0.5 |
| ImageProcessing.CollectBlocks | backend/utils/image_processing.py:44-61 | no page result gives no blocks; otherwise the blocks of the confident detections, in order |
| ImageProcessing.InsertSorted | backend/utils/image_processing.py:64 | inserting into a sorted sequence keeps it sorted |
| ImageProcessing.InsertPermutes | backend/utils/image_processing.py:64 | inserting adds the element and nothing else |
| ImageProcessing.SortByOrders | backend/utils/image_processing.py:64 | the sorted blocks are ordered by the key |
| ImageProcessing.SortByPermutes | backend/utils/image_processing.py:64 | the sort keeps every block, as often as it occurs |
| ImageProcessing.SortBySorted | backend/utils/image_processing.py:64 | the sort (`SortBy`) orders by the key and permutes its input |
| ImageProcessing.WithKeyAppend | backend/utils/image_processing.py:64 | the elements with a given key, taken from two blocks, are those of the first block followed by those of the second |
| ImageProcessing.InsertWithKey | backend/utils/image_processing.py:64 | inserting places the element after the elements with its own key and leaves every other key's elements in order |
| ImageProcessing.SortStable | backend/utils/image_processing.py:64 | the sort is stable: the elements with any one key keep their relative order |
| ImageProcessing.Chunks | backend/utils/image_processing.py:72-85 | there are rows exactly when there are blocks, and every row is non-empty |
| ImageProcessing.ChunksPartition | backend/utils/image_processing.py:72-85 | the rows before their sort concatenate to the sorted blocks; neighbours within a row differ in height by at most 10; the first block of a row and the last block of the row before differ by more than 10 |
| ImageProcessing.Extend | backend/utils/image_processing.py:73-74 | adding a near block to the open row keeps the partition good |
| ImageProcessing.Open | backend/utils/image_processing.py:75-80 | opening a row with a far block keeps the partition good |
| ImageProcessing.SortRows | backend/utils/image_processing.py:78 | one sorted row per row |
| ImageProcessing.RowsSorted | backend/utils/image_processing.py:78-84 | each row of `Rows` is ordered left to right and is a permutation of its chunk's blocks |
| ImageProcessing.GroupedJoin | backend/utils/image_processing.py:73-74 | a block near the one before joins the open row |
| ImageProcessing.GroupedOpen | backend/utils/image_processing.py:75-80 | a far block closes the open row, sorted, and opens a new one |
| ImageProcessing.GroupedLast | backend/utils/image_processing.py:83-85 | closing the open row after the last block gives the rows |
| ImageProcessing.GroupRows | backend/utils/image_processing.py:67-85 | the grouping loop yields exactly the rows of the specification: the chunks in order, each sorted left to right |
| ImageProcessing.UnitLikeLast | backend/utils/image_processing.py:94 | the "mg" test adds nothing: `UnitLike` holds of a text exactly when it ends in 'g', 'G' or '%' |
| ImageProcessing.FormatRowWords | backend/utils/image_processing.py:89-99 | for block texts without spaces, a two-block row whose second text ends like a unit reads back as the words "t1:" and "t2"; every other row reads back as its texts, in order |
| ImageProcessing.FormatRowSingleLine | backend/utils/image_processing.py:89-99 | a row whose texts hold no line break is written on one line |
| ImageProcessing.FormatRows | backend/utils/image_processing.py:88-99 | one formatted line per row, in order |
| ImageProcessing.LayoutLines | backend/utils/image_processing.py:102 | the laid-out text has exactly one line per row when no block text holds a line break |
| ImageProcessing.ExtractText | backend/utils/image_processing.py:31-111 | no text exactly when the OCR call fails; otherwise the cleaned layout of the sorted confident blocks, which holds no '\|', 'O' or 'q' and has one line per row when no block text holds a line break |
| AnalysisText.Label.Title | backend/utils/analysis.py:167 | the title-cased label is a non-empty stripped word |
| AnalysisText.PercentText | backend/utils/analysis.py:168 | the percentage is a non-empty stripped single line |
| AnalysisText.Points | backend/utils/analysis.py:82-83 | there are no more points than lines, every point is non-empty and stripped, and single lines give single-line points |
| AnalysisText.PointsMembers | backend/utils/analysis.py:82-83 | a text is a point exactly when it is the stripped form of a kept line: non-blank and not starting with '[' |
| AnalysisText.PointsFilterMap | backend/utils/analysis.py:82-83 | the comprehension is the kept lines, in order, each stripped |
| AnalysisText.PointsAppend | backend/utils/analysis.py:82-83 | the points of two runs of lines are the points of the first run followed by those of the second, so the lines' order is kept |
| AnalysisText.CleanPoint | backend/utils/analysis.py:89 | the cleaned point is stripped, no longer than the point, and adds no line break |
| AnalysisText.CleanPointStrips | backend/utils/analysis.py:89 | the cleaned point is the point with its longest leading run of '-', ' ' and '•' removed, then stripped of whitespace at both ends |
| AnalysisText.Kept | backend/utils/analysis.py:90-91 | no more bullets than cleaned points; `KeptMembers` and `KeptAppend` give which bullets and in what order |
| AnalysisText.KeptMembers | backend/utils/analysis.py:90-91 | a text is a bullet exactly when it is "• " in front of some cleaned point longer than ten characters |
| AnalysisText.KeptAppend | backend/utils/analysis.py:86-91 | the bullets of two runs of cleaned points are those of the first run followed by those of the second, so the points' order is kept |
| AnalysisText.Keep | backend/utils/analysis.py:90-91 | a cleaned point gives one bullet exactly when it is longer than ten characters, and that bullet is "• " in front of it |
| AnalysisText.Bulleted | backend/utils/analysis.py:86-91 | no more formatted points than points; `BulletedMembers` and `BulletedAppend` give which and in what order |
| AnalysisText.BulletedMembers | backend/utils/analysis.py:86-91 | a text is a formatted point exactly when it is "• " in front of the cleaned form of some point whose cleaned form is longer than ten characters |
| AnalysisText.BulletedAppend | backend/utils/analysis.py:86-91 | formatting two runs of points gives the first run's bullets followed by the second run's |
| AnalysisText.FormatPoints | backend/utils/analysis.py:86-91 | the append loop builds exactly the bulleted points, in order |
| AnalysisText.KeptAt | backend/utils/analysis.py:90-91 | every kept point is "• " and a stripped text of more than ten characters |
| AnalysisText.BulletedShape | backend/utils/analysis.py:86-91 | every formatted point is "• " and a stripped text longer than ten characters, on one line when the model's lines are single lines |
| AnalysisText.Padded | backend/utils/analysis.py:94-100 | exactly three explanation lines |
| AnalysisText.PadToThree | backend/utils/analysis.py:94-100 | exactly three lines: the first formatted points in order, then the filler chosen by the verdict |
| AnalysisText.Filler | backend/utils/analysis.py:95-98 | the filler starts with "• ", and it is the healthy filler exactly when the verdict is "healthy" |
| AnalysisText.FillerShape | backend/utils/analysis.py:95-98 | both fillers start with "• ", are stripped and hold no line break |
| AnalysisText.ExplanationShape | backend/reference.py:248-266 | the explanation is exactly three stripped single-line "• " lines: the kept points first, then the filler |
| AnalysisText.DefaultConsumption | backend/utils/analysis.py:129 | the default advice is a single line |
| AnalysisText.DefaultConsumptionChoice | backend/utils/analysis.py:129 | the default advice is "Moderate consumption recommended" exactly for an unhealthy first verdict, and "Can be included in regular diet" otherwise |
| AnalysisText.ConclusionPoints | backend/utils/analysis.py:139-140 | no more points than lines, and single lines give single-line points; `ConclusionPointsMembers` and `ConclusionPointsAppend` give which points and in what order |
| AnalysisText.ConclusionPointsMembers | backend/utils/analysis.py:139-140 | a text is a conclusion point exactly when it is some kept line, stripped, with its leading dashes, spaces and bullets removed |
| AnalysisText.ConclusionPointsAppend | backend/utils/analysis.py:139-140 | the points of two runs of lines are the first run's points followed by the second run's, so the lines' order is kept |
| AnalysisText.ReplyPoints | backend/utils/analysis.py:131-140 | every conclusion point is a single line; `ReplyPointsMembers` gives which points there are |
| AnalysisText.ReplyPointsMembers | backend/utils/analysis.py:131-140 | a text is a point of the reply exactly when the reply has a non-empty text and the point is a kept line of that text, stripped and with its leading dashes, spaces and bullets removed; a missing or empty reply gives none |
| AnalysisText.Conclude | backend/utils/analysis.py:127-161 | the impact is the first conclusion point or the default; the consumption is the second point or the default chosen by the first verdict; the final classification replaces the first only when the reply had points and the classifier answered |
| AnalysisText.ConclusionOf | backend/utils/analysis.py:127-146 | the impact and consumption lines hold no line break |
| AnalysisText.TemplateSingleLines | backend/utils/analysis.py:167-174 | the template lines hold no line break of their own |
| AnalysisText.LayoutReadBack | backend/utils/analysis.py:167-174 | read back line by line, the f-string (`Layout`) gives the verdict and confidence lines, "Explanation:", the explanation's lines, the impact marker, the impact's lines, the consumption marker and the consumption's lines, whatever line breaks the inserted values hold |
| AnalysisText.LayoutJoin | backend/utils/analysis.py:167-174 | the f-string is its ten lines joined by line breaks |
| AnalysisText.LayoutSplit | backend/utils/analysis.py:167-174 | splitting the layout gives the ten lines back when the explanation lines, impact and consumption are single lines |
| AnalysisText.ExplanationLines | backend/utils/analysis.py:82-100 | three explanation lines |
| AnalysisText.Respond | backend/utils/analysis.py:82-176 | the success path returns the laid-out text of the attempt |
| AnalysisText.SuccessShape | backend/utils/analysis.py:167-174 | a successful text (`SuccessText`) is exactly ten lines: verdict, confidence, "Explanation:", three bullets, the impact marker, the impact, the consumption marker and the consumption |
| AnalysisText.FirstDecisive | backend/utils/analysis.py:33 | the first attempt from `i` on that ends the loop, or 3 when none does |
| AnalysisText.OutcomeCases | backend/utils/analysis.py:33-204 | the outcome (`Outcome`) is the success text of the first attempt that completes; when none does, it is the "Unable to analyze" text if the third attempt raised and the "Analysis failed" text otherwise |
| AnalysisText.AnalyzeText | backend/utils/analysis.py:33-204 | the returned text is the outcome of the attempts, and at most three attempts are made |
| AnalysisText.Intended | backend/utils/analysis.py:163-165 | with the conclusion's defaults kept, an attempt raises only on its own exception; attempts that complete or raise are unchanged |
| AnalysisText.IntendedOutcome | backend/utils/analysis.py:163-165 | with the intended conclusion step, the outcome is the success text of the first attempt that got its list of points; when none did, it is the "Unable to analyze" text if the third attempt raised and the "Analysis failed" text otherwise |
| AnalysisText.ConclusionRaiseDiscrepancy | backend/utils/analysis.py:124-129 | when the conclusion request raises and the retries fail, the code returns the "Analysis failed" text, while the intended step returns the success text with the default impact and consumption |
| RoundTrip.TemplatePlain | backend/utils/analysis.py:167-174 | the template lines are stripped, non-empty and not points, and the markers are told apart by their letters |
| RoundTrip.TenBullets | frontend/src/components/AnalysisResult.jsx:29-31 | the points of a ten-line layout are its three explanation lines |
| RoundTrip.TenMarkers | frontend/src/components/AnalysisResult.jsx:34-40 | in a ten-line layout, the lines after the markers are the impact and the consumption |
| RoundTrip.MarkerFacts | frontend/src/components/AnalysisResult.jsx:34-35 | the readers' markers are the producer's |
| RoundTrip.LayoutTemplate | backend/utils/analysis.py:167-169 | the producer's first lines are "Verdict: " and "Confidence: " labels with stripped values |
| RoundTrip.TemplateLabels | frontend/src/components/AnalysisResult.jsx:25-26 | the labels strip back to the title-cased verdict and the percentage |
| RoundTrip.ReadLayout | frontend/src/components/AnalysisResult.jsx:24-40 | the marker-based reader recovers the verdict, confidence, three bullets, impact and consumption of a ten-line layout, provided the three explanation lines are points that mention neither marker, the impact and consumption lines are not points once trimmed, and the impact line does not mention "Recommended Consumption:" |
| RoundTrip.PositionalLayout | frontend/src/components/Analysis.jsx:21-26 | the positional reader recovers the verdict, confidence, explanation, impact and consumption of a ten-line layout |
| RoundTrip.ReadersAgree | frontend/src/components/Analysis.jsx:21-26 | on a layout both readers can read, they show the same verdict, confidence, explanation, impact and consumption |
| RoundTrip.SuccessRead | frontend/src/components/AnalysisResult.jsx:24-40 | the marker-based reader gets back exactly what the producer formatted into a successful text, provided no explanation line mentions "Health Impact:" or "Recommended Consumption:", neither the impact nor the consumption line starts with '•' once trimmed, and the impact line does not mention "Recommended Consumption:" |
| RoundTrip.SuccessPositional | frontend/src/components/Analysis.jsx:21-26 | the positional reader gets back exactly what the producer formatted, with no condition |
| RoundTrip.FallbackLines | backend/utils/analysis.py:186-204 | a fallback text's lines are three plain template lines, three plain points and the two closing lines |
| RoundTrip.EightBullets | frontend/src/components/AnalysisResult.jsx:29-31 | the points of a fallback text are its three bullet lines |
| RoundTrip.EightMarkers | frontend/src/components/AnalysisResult.jsx:37-40 | in a fallback text the "impact" read is the consumption line and the consumption is absent |
| RoundTrip.EightRead | frontend/src/components/AnalysisResult.jsx:24-40 | the marker-based reader on a fallback text: its label values, its three points, the consumption line as impact and no consumption |
| RoundTrip.EightPositional | frontend/src/components/Analysis.jsx:21-26 | the positional reader on a fallback text: its label values, lines 3 to 5 joined, line 7 as impact and no line 9 |
| RoundTrip.ImpactClosing | backend/utils/analysis.py:193 | the fallback impact line starts with the impact marker and is a stripped single line |
| RoundTrip.ConsumptionClosing | backend/utils/analysis.py:194 | the fallback consumption line starts with the consumption marker and is a stripped single line |
| RoundTrip.UnableRead | backend/utils/analysis.py:187-194 | both readers read the "Unable to analyze" text: verdict, "N/A", its three points, the consumption line in the impact field, and no consumption |
| RoundTrip.FailedRead | backend/utils/analysis.py:197-204 | both readers read the "Analysis failed" text the same way |
| RoundTrip.OutcomeReadable | backend/utils/analysis.py:33-204 | whatever the three attempts answered, both components show the returned text and never throw |
| RoundTrip.DecidedReadable | frontend/src/components/AnalysisResult.jsx:24-40 | the text of an attempt that completes reads back in both components without throwing |
| RoundTrip.IntendedOutcomeReadable | backend/utils/analysis.py:163-165 | the same holds with the intended conclusion step |
| RoundTrip.ConclusionRaiseShown | backend/reference.py:290-295 | when the conclusion request raises and the retries fail, the user sees "Analysis failed"; with the intended step, the first verdict and the default impact |

## Left out

- The Hugging Face requests, their status codes, JSON decoding, `time.sleep`
  and the API tokens are left out. Each attempt's outcome is an input
  (`AnalysisText.Attempt`).
- The FastAPI endpoint (backend/main.py) and the axios client
  (frontend/src/services/api.js) are not part of this model. The response is
  the `Payload.Entry` record.
- PaddleOCR, the PIL preprocessing and the numpy conversion are foreign
  libraries. The OCR result is an input (`ImageProcessing.OcrResult`).
- Floating point is left out. Coordinates and confidences are exact reals, so
  the height midpoint `(y1 + y3) / 2` is exact.
- `{confidence:.0%}` formatting is left out. The classifier's score is an
  already-rounded whole percentage rendered as digits and '%'.
- The classifier's label is one of its two candidate labels
  (`AnalysisText.Label`). A label outside them is left out, and so
  `str.title()` is needed only on "healthy" and "unhealthy".
- Whitespace is these six characters only: space, tab, line feed, carriage
  return, vertical tab and form feed. This holds for Python's `strip`/`split`
  and JavaScript's `trim` alike. The characters \x1c-\x1f and Unicode
  whitespace are left out. Upper and lower case are ASCII only.
- localStorage and JSON persistence of the history are left out. The saved
  history is an optional input to the constructor, and saving is left out.
- `handleImageSelect` is one sequential step. The pending promise is the
  `Home.Settle` half, and no interleaving is modelled.
- Presentation is left out: the `showDetails` toggle, icons, the date-fns
  timestamp, ImageUpload, LoadingSpinner, ExtractedText, UserProfileForm, App.js
  and the Streamlit UI of backend/reference.py.
- Logging is left out. Only the keyword warning's decision is kept, as the
  `warned` result of `TextCleaning.CleanNutritionText`.
- Exceptions other than the modelled ones are left out. The exception
  raised by the conclusion request is the `PostRaised` reply. Every other
  exception in an attempt is the `Raised` attempt. An exception inside
  `extract_text_from_image` is the `OcrFailed` result.
- RoundTrip.SuccessRead: when the model's reply breaks one of its three
  conditions, only the weaker fact that the result view shows something is
  proved (`RoundTrip.OutcomeReadable`), not which fields it shows. A reply
  line such as "- Health Impact: high in sugar content" becomes an
  explanation bullet, and the result view then takes the line after that
  bullet as the health impact.
- ImageProcessing.SortBySorted: Python's `list.sort` is modelled by a stable
  insertion sort on sequences, not by Timsort in place. It has the same
  result, because a stable sort by a key is unique.
- ImageProcessing.ExtractText: the preprocessing step and the OCR engine's
  own ordering of detections are inputs.

## Findings

| source | as written | input that shows it | evidently intended | confidence | as-written member | corrected member |
|---|---|---|---|---|---|---|
| frontend/src/pages/Home.jsx:155 | the page hands `analysis.analysis`, the bare text, to `AnalysisResult`, which reads its `.analysis` field, finds it undefined, and returns null | any successful response, e.g. one whose text starts "Verdict: Healthy\n" | the record itself is handed over, and the panel shows the verdict, points, impact and consumption | not executed | HomePage.ResultPanelAsWritten, HomePage.ResultPanelDiscrepancy | HomePage.ResultPanel, HomePage.Home.Panel |
| backend/utils/analysis.py:124-129 (also backend/reference.py:290-295) | when the conclusion request raises, the handler at line 163 keeps "the default values", but they are assigned only after the request at 128-129, so the f-string at 167 raises `UnboundLocalError`; the attempt is retried and may end in a fallback text | the first attempt classifies and gets the bullets, its conclusion request raises, and the two retries fail with status 500: the result is the "Analysis failed" text | the default impact and consumption are used and the laid-out success text is returned | not executed | AnalysisText.AnalyzeText, RoundTrip.ConclusionRaiseShown | AnalysisText.IntendedOutcome, AnalysisText.ConclusionRaiseDiscrepancy, RoundTrip.IntendedOutcomeReadable |

=== FILE: AnalysisText.dfy ===
/**
 * The text producer of backend/utils/analysis.py (`analyze_text`; the same
 * code is repeated in backend/reference.py). The three model calls and the
 * two classifier calls are inputs: what each attempt's requests answered.
 * What the module computes from them is the part the frontend depends on:
 * the three explanation bullets, the health-impact and consumption lines,
 * and the fixed layout of the analysis text, or one of two fallback texts.
 */
module AnalysisText {
  import opened Opt
  import opened Strings
  import opened Seqs

  /** The zero-shot classifier is asked to choose between the candidate labels
      "healthy" and "unhealthy", so its top label is one of the two. */
  datatype Label = Healthy | Unhealthy
  {
    /** The label as the classifier spells it. */
    function Name(): string { if Healthy? then "healthy" else "unhealthy" }

    /** Python's `str.title()` of `Name()`. */
    function Title(): (t: string)
      ensures t != [] && Trimmed(t)
    {
      if Healthy? then "Healthy" else "Unhealthy"
    }
  }

  /** The top label and its score, the score already rounded to the whole
      percentage that `{confidence:.0%}` prints. */
  datatype Classification = Classification(verdict: Label, percent: nat)

  /** `{confidence:.0%}`: the rounded percentage and a percent sign. */
  function PercentText(p: nat): (r: string)
    ensures r != [] && Trimmed(r) && '\n' !in r
  {
    Decimal(p) + "%"
  }

  // ----------------------------------------------------- explanation bullets

  /** A raw model line is kept when it is not blank and does not start with '['. */
  predicate KeptLine(line: string)
  {
    Trim(line) != [] && !StartsWith(line, "[")
  }

  /** The comprehension that turns the model's lines into stripped points. */
  function Points(lines: seq<string>): (ps: seq<string>)
    ensures |ps| <= |lines|
    ensures forall p | p in ps :: p != [] && Trimmed(p)
    ensures (forall l | l in lines :: '\n' !in l) ==> forall p | p in ps :: '\n' !in p
  {
    if lines == [] then []
    else
      var rest := Points(lines[1..]);
      if KeptLine(lines[0]) then TrimmedPoint(lines[0]) + rest else rest
  }

  /** The stripped form of one kept line, as a one-element sequence. */
  function TrimmedPoint(line: string): (ps: seq<string>)
    requires KeptLine(line)
    ensures |ps| == 1 && ps[0] != [] && Trimmed(ps[0])
    ensures '\n' !in line ==> '\n' !in ps[0]
  {
    TrimWithout(line, '\n');
    [Trim(line)]
  }

  /** A point is exactly the stripped form of some kept line. */
  lemma {:induction false} PointsMembers(lines: seq<string>, p: string)
    ensures p in Points(lines) <==> exists l :: l in lines && KeptLine(l) && Trim(l) == p
  {
    if lines != [] {
      PointsMembers(lines[1..], p);
      assert forall l :: l in lines <==> l == lines[0] || l in lines[1..];
    }
  }

  /** The comprehension as a filter followed by a map. */
  lemma {:induction false} PointsFilterMap(lines: seq<string>)
    ensures Points(lines) == Map(Filter(lines, KeptLine), Trim)
  {
    if lines != [] {
      PointsFilterMap(lines[1..]);
      var head := if KeptLine(lines[0]) then [lines[0]] else [];
      assert Filter(lines, KeptLine) == head + Filter(lines[1..], KeptLine);
      MapAppend(head, Filter(lines[1..], KeptLine), Trim);
    }
  }

  /** The points of two runs of lines, one after the other: the comprehension
      keeps the lines' order. */
  lemma PointsAppend(a: seq<string>, b: seq<string>)
    ensures Points(a + b) == Points(a) + Points(b)
  {
    PointsFilterMap(a + b);
    PointsFilterMap(a);
    PointsFilterMap(b);
    FilterAppend(a, b, KeptLine);
    MapAppend(Filter(a, KeptLine), Filter(b, KeptLine), Trim);
  }

  /** The characters `lstrip('- •')` removes. */
  const BulletChars: set<char> := {'-', ' ', '•'}

  /** One point with its leading dashes, spaces and bullets removed, then stripped. */
  function CleanPoint(point: string): (c: string)
    ensures Trimmed(c) && |c| <= |point|
    ensures '\n' !in point ==> '\n' !in c
  {
    var l := LStrip(point, BulletChars);
    assert '\n' !in point ==> '\n' !in l by {
      if '\n' in l { var i :| 0 <= i < |l| && l[i] == '\n'; assert point[|point| - |l| + i] == '\n'; }
    }
    Trim(l)
  }

  /** What `lstrip('- •').strip()` cuts: the longest run of dashes, spaces and
      bullets in front, then whitespace at both ends of what is left. */
  lemma CleanPointStrips(point: string)
    ensures exists k ::
              && 0 <= k <= |point|
              && (forall j :: 0 <= j < k ==> point[j] in BulletChars)
              && (k < |point| ==> point[k] !in BulletChars)
              && CleanPoint(point) == Trim(point[k..])
  {
    var l := LStrip(point, BulletChars);
    var k := |point| - |l|;
    assert l == point[k..];
    assert k < |point| ==> point[k] == l[0];
  }

  /** The points after the per-point cleaning of the append loop. */
  function Cleaned(points: seq<string>): (cs: seq<string>)
    ensures |cs| == |points|
    ensures forall i :: 0 <= i < |cs| ==> cs[i] == CleanPoint(points[i])
  {
    seq(|points|, i requires 0 <= i < |points| => CleanPoint(points[i]))
  }

  /** One cleaned point behind "• " when it is longer than ten characters. */
  function Keep(c: string): (bs: seq<string>)
    ensures |bs| <= 1
    ensures bs != [] <==> |c| > 10
    ensures |bs| == 1 ==> StartsWith(bs[0], "• ") && bs[0][2..] == c
  {
    if |c| > 10 then ["• " + c] else []
  }

  /** Every cleaned point longer than ten characters, in order, behind "• ". */
  function Kept(cleaned: seq<string>): (bs: seq<string>)
    ensures |bs| <= |cleaned|
  {
    if cleaned == [] then [] else Kept(cleaned[..|cleaned| - 1]) + Keep(cleaned[|cleaned| - 1])
  }

  /** What the append loop over the points builds. */
  function Bulleted(points: seq<string>): (bs: seq<string>)
    ensures |bs| <= |points|
  {
    Kept(Cleaned(points))
  }

  /** "• " in front of a stripped text of more than ten characters. */
  predicate IsBullet(b: string)
  {
    StartsWith(b, "• ") && |b| > 12 && Trimmed(b[2..]) && Trimmed(b)
  }

  lemma BulletOf(c: string)
    requires |c| > 10 && Trimmed(c)
    ensures IsBullet("• " + c) && ("• " + c)[2..] == c
  {
    assert ("• " + c)[|"• " + c| - 1] == c[|c| - 1];
  }

  lemma KeptStep(cleaned: seq<string>, i: nat)
    requires i < |cleaned|
    ensures Kept(cleaned[..i + 1]) == Kept(cleaned[..i]) + Keep(cleaned[i])
  {
    assert cleaned[..i + 1][..i] == cleaned[..i];
  }

  /** The loop of analysis.py:86-91. */
  method FormatPoints(points: seq<string>) returns (formatted: seq<string>)
    ensures formatted == Bulleted(points)
  {
    ghost var cleaned := Cleaned(points);
    formatted := [];
    for i := 0 to |points|
      invariant formatted == Kept(cleaned[..i])
    {
      var point := CleanPoint(points[i]);
      assert point == cleaned[i];
      KeptStep(cleaned, i);
      if point != [] && |point| > 10 {
        formatted := formatted + ["• " + point];
      } else {
        assert Keep(point) == [];
      }
    }
    assert cleaned[..|points|] == cleaned;
  }

  /** Every kept point is "• " and a stripped text of more than ten characters. */
  lemma {:induction false} KeptAt(cleaned: seq<string>, i: nat)
    requires forall j :: 0 <= j < |cleaned| ==> Trimmed(cleaned[j])
    requires i < |Kept(cleaned)|
    ensures IsBullet(Kept(cleaned)[i])
  {
    var n := |cleaned| - 1;
    var init := cleaned[..n];
    if i < |Kept(init)| {
      KeptAt(init, i);
    } else {
      assert Keep(cleaned[n]) == ["• " + cleaned[n]];
      BulletOf(cleaned[n]);
    }
  }

  /** A kept point holds no line break when the cleaned points hold none. */
  lemma {:induction false} KeptSingleLine(cleaned: seq<string>, i: nat)
    requires forall j :: 0 <= j < |cleaned| ==> '\n' !in cleaned[j]
    requires i < |Kept(cleaned)|
    ensures '\n' !in Kept(cleaned)[i]
  {
    var n := |cleaned| - 1;
    var init := cleaned[..n];
    if i < |Kept(init)| {
      KeptSingleLine(init, i);
    } else {
      assert Keep(cleaned[n]) == ["• " + cleaned[n]];
    }
  }

  /** Every formatted point is "• " and a stripped text of more than ten
      characters, on one line when the model's points are. */
  lemma BulletedShape(points: seq<string>, i: nat)
    requires i < |Bulleted(points)|
    ensures IsBullet(Bulleted(points)[i])
    ensures (forall j :: 0 <= j < |points| ==> '\n' !in points[j]) ==> '\n' !in Bulleted(points)[i]
  {
    var cleaned := Cleaned(points);
    KeptAt(cleaned, i);
    if forall j :: 0 <= j < |points| ==> '\n' !in points[j] {
      KeptSingleLine(cleaned, i);
    }
  }

  /** A kept bullet is "• " in front of a cleaned point of more than ten
      characters, and every such point gives one. */
  lemma {:induction false} KeptMembers(cleaned: seq<string>, b: string)
    ensures b in Kept(cleaned) <==>
              exists j :: 0 <= j < |cleaned| && |cleaned[j]| > 10 && b == "• " + cleaned[j]
    decreases |cleaned|
  {
    if cleaned != [] {
      var n := |cleaned| - 1;
      var init := cleaned[..n];
      KeptMembers(init, b);
      assert forall j :: 0 <= j < n ==> init[j] == cleaned[j];
      if b in Kept(cleaned) && b !in Kept(init) {
        assert b in Keep(cleaned[n]);
      }
    }
  }

  /** The bullets of two runs of points, one after the other: the loop keeps
      the points' order. */
  lemma {:induction false} KeptAppend(a: seq<string>, b: seq<string>)
    ensures Kept(a + b) == Kept(a) + Kept(b)
    decreases |b|
  {
    if b == [] {
      assert a + b == a;
    } else {
      var n := |b| - 1;
      KeptAppend(a, b[..n]);
      assert (a + b)[..|a + b| - 1] == a + b[..n];
      var last := Keep(b[n]);
      assert Kept(a + b) == Kept(a + b[..n]) + last;
      assert (Kept(a) + Kept(b[..n])) + last == Kept(a) + (Kept(b[..n]) + last);
    }
  }

  /** A formatted bullet is "• " in front of the cleaned form of some point
      whose cleaned form is longer than ten characters, and every such point
      gives one. */
  lemma BulletedMembers(points: seq<string>, b: string)
    ensures b in Bulleted(points) <==>
              exists j :: 0 <= j < |points| && |CleanPoint(points[j])| > 10 && b == "• " + CleanPoint(points[j])
  {
    var cleaned := Cleaned(points);
    KeptMembers(cleaned, b);
    if b in Bulleted(points) {
      var j :| 0 <= j < |cleaned| && |cleaned[j]| > 10 && b == "• " + cleaned[j];
      assert cleaned[j] == CleanPoint(points[j]);
    }
    if exists j :: 0 <= j < |points| && |CleanPoint(points[j])| > 10 && b == "• " + CleanPoint(points[j]) {
      var j :| 0 <= j < |points| && |CleanPoint(points[j])| > 10 && b == "• " + CleanPoint(points[j]);
      assert cleaned[j] == CleanPoint(points[j]);
    }
  }

  /** Formatting two runs of points, one after the other, formats each in turn. */
  lemma BulletedAppend(p: seq<string>, q: seq<string>)
    ensures Bulleted(p + q) == Bulleted(p) + Bulleted(q)
  {
    assert Cleaned(p + q) == Cleaned(p) + Cleaned(q);
    KeptAppend(Cleaned(p), Cleaned(q));
  }

  // Long literals are written in pieces of about twenty characters or fewer:
  // facts about the characters of a literal cost the verifier more than
  // linearly in its length.
  const HealthyReason := "Contains balanced " + "nutritional profile " + "with good macro " + "distribution"
  const UnhealthyReason := "Exceeds recommended " + "values for certain " + "nutrients"
  const HealthyFiller := "• " + HealthyReason
  const UnhealthyFiller := "• " + UnhealthyReason

  /** The padding line, chosen by `verdict == "healthy"`: the healthy
      reason for a healthy label, the unhealthy one otherwise, each as a
      bullet. */
  function Filler(verdict: Label): (f: string)
    ensures StartsWith(f, "• ")
    ensures f == HealthyFiller <==> verdict.Healthy?
  {
    if verdict.Name() == "healthy" then HealthyFiller else UnhealthyFiller
  }

  /** The first three formatted points, padded with the filler to exactly three. */
  function Padded(formatted: seq<string>, verdict: Label): (three: seq<string>)
    ensures |three| == 3
  {
    seq(3, i requires 0 <= i < 3 => if i < |formatted| then formatted[i] else Filler(verdict))
  }

  /** The padding loop and the `[:3]` slice of analysis.py:94-100. */
  method PadToThree(formatted: seq<string>, verdict: Label) returns (three: seq<string>)
    ensures three == Padded(formatted, verdict)
    ensures |three| == 3
    ensures forall i :: 0 <= i < 3 && i < |formatted| ==> three[i] == formatted[i]
    ensures forall i :: |formatted| <= i < 3 ==> three[i] == Filler(verdict)
  {
    var fp := formatted;
    while |fp| < 3
      invariant |formatted| <= |fp|
      invariant |fp| > 3 ==> fp == formatted
      invariant fp[..|formatted|] == formatted
      invariant forall j :: |formatted| <= j < |fp| ==> fp[j] == Filler(verdict)
      decreases 3 - |fp|
    {
      if verdict.Name() == "healthy" {
        fp := fp + [HealthyFiller];
      } else {
        fp := fp + [UnhealthyFiller];
      }
    }
    three := fp[..3];
  }

  /** The filler lines start with "• ", are stripped and hold no line break. */
  lemma FillerShape(verdict: Label)
    ensures StartsWith(Filler(verdict), "• ") && Trimmed(Filler(verdict)) && '\n' !in Filler(verdict)
  {
    if verdict.Healthy? {
      ReasonShape(HealthyReason, "Contains balanced " + "nutritional profile " + "with good macro ", "distribution");
    } else {
      ReasonShape(UnhealthyReason, "Exceeds recommended " + "values for certain ", "nutrients");
    }
  }

  lemma ReasonShape(reason: string, front: string, back: string)
    requires reason == front + back && front != [] && back != []
    requires Solid(front[0]) && Solid(back[|back| - 1])
    requires '\n' !in front && '\n' !in back
    ensures StartsWith("• " + reason, "• ") && Trimmed("• " + reason) && '\n' !in "• " + reason
  {
    StartsWithAppend("• ", reason);
    TrimmedConcat(front, back);
    TrimmedConcat("• ", reason);
  }

  /** The explanation is exactly three stripped "• " lines without line
      breaks: the formatted points first, in order, then the verdict's filler. */
  lemma ExplanationShape(verdict: Label, generated: string)
    ensures var three := ExplanationLines(verdict, generated);
      var formatted := Bulleted(Points(Split(generated, '\n')));
      && |three| == 3
      && (forall i :: 0 <= i < 3 ==> StartsWith(three[i], "• ") && Trimmed(three[i]) && '\n' !in three[i])
      && (forall i :: 0 <= i < 3 && i < |formatted| ==> three[i] == formatted[i])
      && (forall i :: |formatted| <= i < 3 ==> three[i] == Filler(verdict))
  {
    var lines := Split(generated, '\n');
    var points := Points(lines);
    var formatted := Bulleted(points);
    assert forall l | l in lines :: '\n' !in l;
    forall j | 0 <= j < |points| ensures '\n' !in points[j] {
      assert points[j] in points;
    }
    forall i | 0 <= i < |formatted|
      ensures StartsWith(formatted[i], "• ") && Trimmed(formatted[i]) && '\n' !in formatted[i]
    {
      BulletedShape(points, i);
    }
    PaddedLines(formatted, verdict);
  }

  /** Padding stripped "• " lines with the filler keeps every line so. */
  lemma PaddedLines(formatted: seq<string>, verdict: Label)
    requires forall i :: 0 <= i < |formatted| ==>
               StartsWith(formatted[i], "• ") && Trimmed(formatted[i]) && '\n' !in formatted[i]
    ensures var three := Padded(formatted, verdict);
            forall i :: 0 <= i < 3 ==> StartsWith(three[i], "• ") && Trimmed(three[i]) && '\n' !in three[i]
  {
    FillerShape(verdict);
  }

  // ---------------------------------------------------- conclusion and verdict

  const DefaultImpact := "Impact depends on " + "overall diet and " + "individual " + "nutritional needs"
  const ModerateAdvice := "Moderate consumption " + "recommended"
  const RegularAdvice := "Can be included " + "in regular diet"

  /** The default lines hold no line break. */
  lemma DefaultsSingleLine()
    ensures '\n' !in DefaultImpact && '\n' !in ModerateAdvice && '\n' !in RegularAdvice
  {
    PiecesSingleLine("Impact depends on ", "overall diet and ", "individual ", "nutritional needs");
    PiecesSingleLine("Moderate consumption ", "recommended", "", "");
    PiecesSingleLine("Can be included ", "in regular diet", "", "");
  }

  lemma PiecesSingleLine(a: string, b: string, c: string, d: string)
    requires forall k :: 0 <= k < |a| ==> a[k] != '\n'
    requires forall k :: 0 <= k < |b| ==> b[k] != '\n'
    requires forall k :: 0 <= k < |c| ==> c[k] != '\n'
    requires forall k :: 0 <= k < |d| ==> d[k] != '\n'
    ensures '\n' !in a + b + c + d && '\n' !in a + b
  {
  }

  /** The two default recommendations are different texts. */
  lemma AdviceDiffers()
    ensures ModerateAdvice != RegularAdvice
  {
    assert ModerateAdvice[0] != RegularAdvice[0];
  }

  /** The default recommendation, chosen by `verdict == "unhealthy"`. */
  function DefaultConsumption(verdict: Label): (r: string)
    ensures '\n' !in r
  {
    DefaultsSingleLine();
    if verdict.Name() == "unhealthy" then ModerateAdvice else RegularAdvice
  }

  /** The default recommendation is one of the two advice lines: the
      moderate one exactly for an unhealthy first verdict. */
  lemma DefaultConsumptionChoice(verdict: Label)
    ensures DefaultConsumption(verdict) == ModerateAdvice || DefaultConsumption(verdict) == RegularAdvice
    ensures DefaultConsumption(verdict) == ModerateAdvice <==> verdict.Unhealthy?
  {
    AdviceDiffers();
  }

  /** The comprehension of analysis.py:139-140: kept lines, stripped, then
      leading dashes, spaces and bullets removed. */
  function ConclusionPoints(lines: seq<string>): (cs: seq<string>)
    ensures |cs| <= |lines|
    ensures (forall i :: 0 <= i < |lines| ==> '\n' !in lines[i]) ==>
              forall i :: 0 <= i < |cs| ==> '\n' !in cs[i]
  {
    UnbulletedSingleLine(Points(lines));
    Map(Points(lines), Unbullet)
  }

  /** One point with its leading dashes, spaces and bullets removed. */
  function Unbullet(point: string): string
  {
    LStrip(point, BulletChars)
  }

  lemma UnbulletedSingleLine(points: seq<string>)
    ensures (forall p | p in points :: '\n' !in p) ==>
              forall i :: 0 <= i < |points| ==> '\n' !in Map(points, Unbullet)[i]
  {
    forall i | 0 <= i < |points| && '\n' !in points[i] {
      LStripWithout(points[i], BulletChars, '\n');
    }
  }

  /** A conclusion point is a kept line, stripped and with its leading dashes,
      spaces and bullets removed, and every kept line gives one. */
  lemma ConclusionPointsMembers(lines: seq<string>, c: string)
    ensures c in ConclusionPoints(lines) <==>
              exists j :: 0 <= j < |lines| && KeptLine(lines[j]) && c == LStrip(Trim(lines[j]), BulletChars)
  {
    var ps := Points(lines);
    MapMembers(ps, Unbullet, c);
    if c in ConclusionPoints(lines) {
      var i :| 0 <= i < |ps| && c == Unbullet(ps[i]);
      PointsMembers(lines, ps[i]);
      var l :| l in lines && KeptLine(l) && Trim(l) == ps[i];
      var j :| 0 <= j < |lines| && lines[j] == l;
    }
    if exists j :: 0 <= j < |lines| && KeptLine(lines[j]) && c == LStrip(Trim(lines[j]), BulletChars) {
      var j :| 0 <= j < |lines| && KeptLine(lines[j]) && c == LStrip(Trim(lines[j]), BulletChars);
      PointsMembers(lines, Trim(lines[j]));
      var i :| 0 <= i < |ps| && ps[i] == Trim(lines[j]);
      assert Unbullet(ps[i]) == c;
    }
  }

  /** The points of two runs of lines, one after the other: the comprehension
      keeps the lines' order. */
  lemma ConclusionPointsAppend(a: seq<string>, b: seq<string>)
    ensures ConclusionPoints(a + b) == ConclusionPoints(a) + ConclusionPoints(b)
  {
    PointsAppend(a, b);
    MapAppend(Points(a), Points(b), Unbullet);
  }

  /** The conclusion points of the second model reply, when it had a non-empty
      `generated_text`; otherwise none. */
  function ReplyPoints(reply: Option<string>): (cs: seq<string>)
    ensures forall i :: 0 <= i < |cs| ==> '\n' !in cs[i]
  {
    if reply.Some? && reply.value != [] then ConclusionPoints(Split(reply.value, '\n')) else []
  }

  /** A point of the reply is a kept line of its text, stripped and with its
      leading dashes, spaces and bullets removed; a missing or empty reply has
      none. */
  lemma ReplyPointsMembers(reply: Option<string>, c: string)
    ensures c in ReplyPoints(reply) <==>
              && reply.Some? && reply.value != []
              && exists l :: l in Split(reply.value, '\n') && KeptLine(l) && c == LStrip(Trim(l), BulletChars)
  {
    if reply.Some? && reply.value != [] {
      var lines := Split(reply.value, '\n');
      ConclusionPointsMembers(lines, c);
      if c in ReplyPoints(reply) {
        var j :| 0 <= j < |lines| && KeptLine(lines[j]) && c == LStrip(Trim(lines[j]), BulletChars);
        assert lines[j] in lines;
      }
      if exists l :: l in lines && KeptLine(l) && c == LStrip(Trim(l), BulletChars) {
        var l :| l in lines && KeptLine(l) && c == LStrip(Trim(l), BulletChars);
        var j := MemberAt(lines, l);
      }
    }
  }

  /** What the conclusion step leaves behind: the two lines and the final verdict. */
  datatype Conclusion = Conclusion(impact: string, consumption: string, classification: Classification)

  /** analysis.py:127-161: defaults first, overwritten by the reply's first and
      second points; the final classification replaces the first one only when
      the reply had points. `reply` is `None` when the request failed, raised or
      answered without text; `final` is `None` when the last classifier call
      failed, raised or answered without labels. */
  method Conclude(first: Classification, reply: Option<string>, final: Option<Classification>)
    returns (c: Conclusion)
    ensures var cs := ReplyPoints(reply);
      && c.impact == (if |cs| > 0 then cs[0] else DefaultImpact)
      && c.consumption == (if |cs| > 1 then cs[1] else DefaultConsumption(first.verdict))
      && c.classification == (if |cs| > 0 && final.Some? then final.value else first)
  {
    var impact := DefaultImpact;
    var consumption := if first.verdict.Name() == "unhealthy" then ModerateAdvice else RegularAdvice;
    var verdict := first;
    if reply.Some? && reply.value != [] {
      var points := ConclusionPoints(Split(reply.value, '\n'));
      if |points| > 0 {
        impact := points[0];
        if |points| > 1 {
          consumption := points[1];
        }
        if final.Some? {
          verdict := final.value;
        }
      }
    }
    c := Conclusion(impact, consumption, verdict);
  }

  /** The conclusion as a value, for the lemmas. */
  function ConclusionOf(first: Classification, reply: Option<string>, final: Option<Classification>): (c: Conclusion)
    ensures '\n' !in c.impact && '\n' !in c.consumption
  {
    var cs := ReplyPoints(reply);
    DefaultsSingleLine();
    Conclusion(if |cs| > 0 then cs[0] else DefaultImpact,
               if |cs| > 1 then cs[1] else DefaultConsumption(first.verdict),
               if |cs| > 0 && final.Some? then final.value else first)
  }

  // ------------------------------------------------------------------- layout

  const ImpactMarker := "Health Impact:"
  const ConsumptionMarker := "Recommended Consumption:"

  /** The first template line, `Verdict: {verdict.title()}`. */
  function VerdictLine(top: Classification): string
  {
    "Verdict: " + top.verdict.Title()
  }

  /** The second template line, `Confidence: {confidence:.0%}`. */
  function ConfidenceLine(top: Classification): string
  {
    "Confidence: " + PercentText(top.percent)
  }

  /** The f-string of analysis.py:167-174, one element per template line. */
  function Layout(top: Classification, explanation: string, impact: string, consumption: string): string
  {
    Join([VerdictLine(top), ConfidenceLine(top), "Explanation:", explanation,
          ImpactMarker, impact, ConsumptionMarker, consumption], "\n")
  }

  /** Read back line by line, the layout gives the verdict and confidence
      lines, "Explanation:", the explanation's lines, the impact marker, the
      impact's lines, the consumption marker and the consumption's lines,
      whatever line breaks the explanation, impact and consumption hold. */
  lemma LayoutReadBack(top: Classification, explanation: string, impact: string, consumption: string)
    ensures Split(Layout(top, explanation, impact, consumption), '\n') ==
              [VerdictLine(top), ConfidenceLine(top), "Explanation:"] + (Split(explanation, '\n') +
              ([ImpactMarker] + (Split(impact, '\n') + ([ConsumptionMarker] + Split(consumption, '\n')))))
  {
    var parts := [VerdictLine(top), ConfidenceLine(top), "Explanation:", explanation,
                  ImpactMarker, impact, ConsumptionMarker, consumption];
    TemplateSingleLines(top);
    LayoutRead(parts);
  }

  /** The line-by-line reading of eight parts joined by line breaks, when
      the first three, the fifth and the seventh are single lines. */
  lemma LayoutRead(parts: seq<string>)
    requires |parts| == 8
    requires '\n' !in parts[0] && '\n' !in parts[1] && '\n' !in parts[2]
    requires '\n' !in parts[4] && '\n' !in parts[6]
    ensures Split(Join(parts, "\n"), '\n') == [parts[0], parts[1], parts[2]] + (Split(parts[3], '\n') +
                                           ([parts[4]] + (Split(parts[5], '\n') + ([parts[6]] + Split(parts[7], '\n')))))
  {
    LayoutReadHead(parts);
    LayoutReadTail(parts);
  }

  /** The reading of the three template lines in front. */
  lemma LayoutReadHead(parts: seq<string>)
    requires |parts| > 3
    requires '\n' !in parts[0] && '\n' !in parts[1] && '\n' !in parts[2]
    ensures Split(Join(parts, "\n"), '\n') == [parts[0], parts[1], parts[2]] + Split(Join(parts[3..], "\n"), '\n')
  {
    var d := '\n';
    var r3 := Split(Join(parts[3..], "\n"), d);
    LayoutReadStep(parts, 2);
    SplitUndelimited(parts[2], d);
    LayoutReadStep(parts, 1);
    SplitUndelimited(parts[1], d);
    LayoutReadStep(parts, 0);
    SplitUndelimited(parts[0], d);
    assert parts[0..] == parts;
    ConsThree(parts[0], parts[1], parts[2], r3);
  }

  /** The reading from the explanation on. */
  lemma LayoutReadTail(parts: seq<string>)
    requires |parts| == 8
    requires '\n' !in parts[4] && '\n' !in parts[6]
    ensures Split(Join(parts[3..], "\n"), '\n') == Split(parts[3], '\n') +
              ([parts[4]] + (Split(parts[5], '\n') + ([parts[6]] + Split(parts[7], '\n'))))
  {
    var d := '\n';
    assert parts[7..] == [parts[7]];
    LayoutReadStep(parts, 6);
    SplitUndelimited(parts[6], d);
    LayoutReadStep(parts, 5);
    LayoutReadStep(parts, 4);
    SplitUndelimited(parts[4], d);
    LayoutReadStep(parts, 3);
  }

  lemma ConsThree(a: string, b: string, c: string, r: seq<string>)
    ensures [a] + ([b] + ([c] + r)) == [a, b, c] + r
  {
  }

  lemma LayoutReadStep(parts: seq<string>, i: nat)
    requires i + 1 < |parts|
    ensures Split(Join(parts[i..], "\n"), '\n') == Split(parts[i], '\n') + Split(Join(parts[i + 1..], "\n"), '\n')
  {
    assert parts[i..] == [parts[i]] + parts[i + 1..];
    SplitJoinFirst(parts[i], parts[i + 1..], '\n');
  }

  /** The ten lines of a laid-out response whose explanation is three lines. */
  function LayoutLines(top: Classification, three: seq<string>, impact: string, consumption: string): seq<string>
  {
    [VerdictLine(top), ConfidenceLine(top), "Explanation:"] + three +
    [ImpactMarker, impact, ConsumptionMarker, consumption]
  }

  /** The template lines hold no line break of their own. */
  lemma TemplateSingleLines(top: Classification)
    ensures '\n' !in VerdictLine(top) && '\n' !in ConfidenceLine(top)
    ensures '\n' !in "Explanation:" && '\n' !in ImpactMarker && '\n' !in ConsumptionMarker
  {
  }

  /** The layout is the ten lines joined, when the explanation is three lines. */
  lemma LayoutJoin(top: Classification, three: seq<string>, impact: string, consumption: string)
    requires |three| == 3
    ensures Layout(top, Join(three, "\n"), impact, consumption) == Join(LayoutLines(top, three, impact, consumption), "\n")
  {
    var head := [VerdictLine(top), ConfidenceLine(top), "Explanation:"];
    var tail := [ImpactMarker, impact, ConsumptionMarker, consumption];
    assert [VerdictLine(top), ConfidenceLine(top), "Explanation:", Join(three, "\n"),
            ImpactMarker, impact, ConsumptionMarker, consumption] == head + [Join(three, "\n")] + tail;
    JoinFlatten(head, three, tail, "\n");
  }

  /** Splitting the layout on line breaks gives the ten lines back, when the
      three explanation lines, the impact and the consumption are single lines. */
  lemma LayoutSplit(top: Classification, three: seq<string>, impact: string, consumption: string)
    requires |three| == 3 && forall i :: 0 <= i < 3 ==> '\n' !in three[i]
    requires '\n' !in impact && '\n' !in consumption
    ensures Split(Layout(top, Join(three, "\n"), impact, consumption), '\n') == LayoutLines(top, three, impact, consumption)
  {
    LayoutJoin(top, three, impact, consumption);
    var lines := LayoutLines(top, three, impact, consumption);
    TemplateSingleLines(top);
    forall i | 0 <= i < |lines| ensures '\n' !in lines[i] {
      if 3 <= i < 6 { assert lines[i] == three[i - 3]; }
    }
    SplitJoin(lines, '\n');
  }

  /** The three explanation lines for a first label and the first model reply. */
  function ExplanationLines(verdict: Label, generated: string): (three: seq<string>)
    ensures |three| == 3
  {
    Padded(Bulleted(Points(Split(generated, '\n'))), verdict)
  }

  /** The analysis text of a successful attempt. */
  function SuccessText(first: Classification, generated: string, reply: Option<string>,
                       final: Option<Classification>): string
  {
    var c := ConclusionOf(first, reply, final);
    Layout(c.classification, Join(ExplanationLines(first.verdict, generated), "\n"), c.impact, c.consumption)
  }

  /** The success path of one attempt: bullets, padding, conclusion, layout. */
  method Respond(first: Classification, generated: string, reply: Option<string>,
                 final: Option<Classification>) returns (text: string)
    ensures text == SuccessText(first, generated, reply, final)
  {
    var points := Points(Split(generated, '\n'));
    var formatted := FormatPoints(points);
    var three := PadToThree(formatted, first.verdict);
    var explanation := Join(three, "\n");
    var c := Conclude(first, reply, final);
    text := Layout(c.classification, explanation, c.impact, c.consumption);
  }

  /** A successful response is ten lines: the verdict and confidence lines,
      "Explanation:", the three explanation lines, the impact marker, the
      impact, the consumption marker and the consumption. */
  lemma SuccessShape(first: Classification, generated: string, reply: Option<string>,
                     final: Option<Classification>)
    ensures var c := ConclusionOf(first, reply, final);
      Split(SuccessText(first, generated, reply, final), '\n')
        == LayoutLines(c.classification, ExplanationLines(first.verdict, generated), c.impact, c.consumption)
  {
    ExplanationShape(first.verdict, generated);
    var c := ConclusionOf(first, reply, final);
    LayoutSplit(c.classification, ExplanationLines(first.verdict, generated), c.impact, c.consumption);
  }

  // ------------------------------------------------------- fallbacks, retries

  /** The first three lines of a fallback text. */
  function FallbackHead(verdict: string): seq<string>
  {
    ["Verdict: " + verdict, "Confidence: N/A", "Explanation:"]
  }

  const UnablePoints := ["• Could not process " + "the ingredients",
                         "• Please try with " + "a clearer image",
                         "• Ensure text " + "is readable"]

  const FailedPoints := ["• Analysis " + "unavailable",
                         "• Please try again " + "with clearer text",
                         "• Make sure " + "ingredients are visible"]

  /** The health-impact and consumption lines both fallback texts end with. */
  const FallbackClosing := [ImpactMarker + " Unable to determine",
                            ConsumptionMarker + " Consult with " + "healthcare provider"]

  /** Returned when the third attempt raises. */
  const UnableLines := FallbackHead("Unable to analyze") + UnablePoints + FallbackClosing

  /** Returned when no attempt produced a text. */
  const FailedLines := FallbackHead("Analysis failed") + FailedPoints + FallbackClosing

  function UnableText(): string { Join(UnableLines, "\n") }

  function FailedText(): string { Join(FailedLines, "\n") }

  const MaxAttempts := 3

  /** How the conclusion request of analysis.py:124 went: it raised, before
      the defaults of lines 128-129 were assigned, or it answered; `text` is
      `None` when it failed, its body did not parse or it had no text. */
  datatype Reply = PostRaised | Answered(text: Option<string>)

  /** What one attempt's requests answered. */
  datatype Attempt =
    | Classified(first: Classification, generated: Option<string>,
                 reply: Reply, final: Option<Classification>)
                   // labels came back; `generated` is `None` when the first
                   // model call failed or answered no list, and the loop goes on
    | Unlabelled   // status 200 without labels or scores
    | Loading      // status 503
    | Failed       // any other status
    | Raised       // an exception reached the retry loop

  /** Whether the attempt gets to the layout with both model replies. */
  predicate Completes(a: Attempt)
  {
    a.Classified? && a.generated.Some? && a.reply.Answered?
  }

  /** Whether the attempt classifies and its first model call answers a
      list of points. */
  predicate Listed(a: Attempt)
  {
    a.Classified? && a.generated.Some?
  }

  /** The success text of an attempt that got its list, as the intended
      conclusion step makes it: a conclusion request that raised counts as
      one that answered no text. */
  function ListedText(a: Attempt): string
    requires Listed(a)
  {
    SuccessText(a.first, a.generated.value, if a.reply.Answered? then a.reply.text else None, a.final)
  }

  /** Whether an exception reaches the retry loop: one of its own, or the
      conclusion request's. That one is caught at analysis.py:163, but
      `health_impact` is then unbound and the layout at line 167 raises. */
  predicate Raises(a: Attempt)
  {
    a.Raised? || (a.Classified? && a.generated.Some? && a.reply.PostRaised?)
  }

  /** Whether attempt `i` ends the loop: it completes, or it is the last one
      and raises. */
  predicate Decides(attempts: seq<Attempt>, i: nat)
    requires |attempts| == MaxAttempts && i < MaxAttempts
  {
    Completes(attempts[i]) || (Raises(attempts[i]) && i == MaxAttempts - 1)
  }

  /** The first attempt at or after `i` that ends the loop, or `MaxAttempts`. */
  function FirstDecisive(attempts: seq<Attempt>, i: nat): (k: nat)
    requires |attempts| == MaxAttempts && i <= MaxAttempts
    ensures i <= k <= MaxAttempts
    ensures k < MaxAttempts ==> Decides(attempts, k)
    ensures forall j :: i <= j < k ==> !Decides(attempts, j)
    decreases MaxAttempts - i
  {
    if i == MaxAttempts || Decides(attempts, i) then i else FirstDecisive(attempts, i + 1)
  }

  /** The text a deciding attempt returns. */
  function DecidedText(attempt: Attempt): string
  {
    match attempt
    case Classified(first, Some(generated), Answered(reply), final) => SuccessText(first, generated, reply, final)
    case _ => UnableText()
  }

  /** Which attempt decides, in terms of the attempts alone: the first that
      completes, or else the last one when it raises. */
  lemma DecidingAttempt(attempts: seq<Attempt>)
    requires |attempts| == MaxAttempts
    ensures forall i | 0 <= i < MaxAttempts && Completes(attempts[i]) &&
                       (forall j | 0 <= j < i :: !Completes(attempts[j])) ::
              FirstDecisive(attempts, 0) == i
    ensures (forall i | 0 <= i < MaxAttempts :: !Completes(attempts[i])) ==>
              FirstDecisive(attempts, 0) == if Raises(attempts[MaxAttempts - 1]) then MaxAttempts - 1 else MaxAttempts
  {
    var k := FirstDecisive(attempts, 0);
    forall i | 0 <= i < MaxAttempts && Completes(attempts[i]) && (forall j | 0 <= j < i :: !Completes(attempts[j]))
      ensures k == i
    {
      assert Decides(attempts, i);
    }
    if forall i | 0 <= i < MaxAttempts :: !Completes(attempts[i]) {
      assert !Decides(attempts, 0) && !Decides(attempts, 1);
    }
  }

  /** The analysis text the attempts produce: the deciding attempt's text, or
      the "Analysis failed" text when none decides. */
  function Outcome(attempts: seq<Attempt>): string
    requires |attempts| == MaxAttempts
  {
    var k := FirstDecisive(attempts, 0);
    if k == MaxAttempts then FailedText() else DecidedText(attempts[k])
  }

  /** The outcome attempt by attempt: the first attempt that completes gives
      the success text; when none does, an exception on the last attempt gives
      the "Unable to analyze" text and anything else the "Analysis failed"
      text. */
  lemma OutcomeCases(attempts: seq<Attempt>)
    requires |attempts| == MaxAttempts
    ensures Completes(attempts[0]) ==> Outcome(attempts) == DecidedText(attempts[0])
    ensures !Completes(attempts[0]) && Completes(attempts[1]) ==> Outcome(attempts) == DecidedText(attempts[1])
    ensures !Completes(attempts[0]) && !Completes(attempts[1]) ==>
              Outcome(attempts) == if Completes(attempts[2]) then DecidedText(attempts[2])
                                   else if Raises(attempts[2]) then UnableText() else FailedText()
  {
    DecidingAttempt(attempts);
  }

  /** When attempt `i` is the first to end the loop, or no attempt does and
      `i` is `MaxAttempts`, the outcome is what attempt `i` decides. */
  lemma DecidedAt(attempts: seq<Attempt>, i: nat)
    requires |attempts| == MaxAttempts && i <= MaxAttempts
    requires forall j :: 0 <= j < i ==> !Decides(attempts, j)
    requires i < MaxAttempts ==> Decides(attempts, i)
    ensures FirstDecisive(attempts, 0) == i
    ensures Outcome(attempts) == if i == MaxAttempts then FailedText() else DecidedText(attempts[i])
  {
  }

  /** The retry loop of analysis.py:33-204: at most three attempts; the first
      that classifies and gets a model reply returns the laid-out text, an
      exception on the last attempt returns the "Unable to analyze" text, and
      running out of attempts returns the "Analysis failed" text. */
  method AnalyzeText(attempts: seq<Attempt>) returns (text: string, made: nat)
    requires |attempts| == MaxAttempts
    ensures text == Outcome(attempts)
    ensures made == (if FirstDecisive(attempts, 0) < MaxAttempts then FirstDecisive(attempts, 0) + 1 else MaxAttempts)
  {
    for attempt := 0 to MaxAttempts
      invariant forall j :: 0 <= j < attempt ==> !Decides(attempts, j)
    {
      match attempts[attempt]
      case Classified(first, Some(generated), Answered(reply), final) =>
        DecidedAt(attempts, attempt);
        text := Respond(first, generated, reply, final);
        made := attempt + 1;
        return;
      case Classified(_, Some(_), PostRaised, _) | Raised =>
        if attempt == MaxAttempts - 1 {
          DecidedAt(attempts, attempt);
          text := UnableText();
          made := attempt + 1;
          return;
        }
      case _ =>
    }
    DecidedAt(attempts, MaxAttempts);
    text := FailedText();
    made := MaxAttempts;
  }

  // ------------------------------------- the conclusion request, as intended

  /** The attempt as the comment at analysis.py:165 intends it: a conclusion
      request that raises keeps the default lines, as one without text does. */
  function Intended(a: Attempt): (b: Attempt)
    ensures Raises(b) <==> b.Raised?
    ensures Completes(b) <==> Listed(a)
    ensures Completes(a) || a.Raised? ==> b == a
  {
    if a.Classified? && a.reply.PostRaised? then a.(reply := Answered(None)) else a
  }

  /** The analysis text the attempts would produce with the intended
      conclusion step. */
  function IntendedOutcome(attempts: seq<Attempt>): (t: string)
    requires |attempts| == MaxAttempts
    ensures Listed(attempts[0]) ==> t == ListedText(attempts[0])
    ensures !Listed(attempts[0]) && Listed(attempts[1]) ==> t == ListedText(attempts[1])
    ensures !Listed(attempts[0]) && !Listed(attempts[1]) ==>
              t == if Listed(attempts[2]) then ListedText(attempts[2])
                   else if attempts[2].Raised? then UnableText() else FailedText()
  {
    var bs := IntendedAttempts(attempts);
    IntendedText(attempts[0]);
    IntendedText(attempts[1]);
    IntendedText(attempts[2]);
    OutcomeCases(bs);
    Outcome(bs)
  }

  /** One attempt under the intended conclusion step: it completes exactly
      when it got its list, and then returns that list's success text. */
  lemma IntendedText(a: Attempt)
    ensures Completes(Intended(a)) <==> Listed(a)
    ensures Raises(Intended(a)) <==> a.Raised?
    ensures Listed(a) ==> DecidedText(Intended(a)) == ListedText(a)
  {
  }

  function IntendedAttempts(attempts: seq<Attempt>): (bs: seq<Attempt>)
    requires |attempts| == MaxAttempts
    ensures |bs| == MaxAttempts && forall i :: 0 <= i < MaxAttempts ==> bs[i] == Intended(attempts[i])
  {
    [Intended(attempts[0]), Intended(attempts[1]), Intended(attempts[2])]
  }

  /** A first attempt whose conclusion request raises, followed by two
      failed ones: as written the response is the "Analysis failed" text; as
      intended it is the success layout with the default impact and
      consumption lines and the first verdict. */
  lemma ConclusionRaiseDiscrepancy(first: Classification, generated: string, final: Option<Classification>)
    ensures var attempts := [Classified(first, Some(generated), PostRaised, final), Failed, Failed];
      && Outcome(attempts) == FailedText()
      && IntendedOutcome(attempts) == SuccessText(first, generated, None, final)
    ensures ConclusionOf(first, None, final) == Conclusion(DefaultImpact, DefaultConsumption(first.verdict), first)
  {
    var attempts := [Classified(first, Some(generated), PostRaised, final), Failed, Failed];
    assert !Decides(attempts, 0) && !Decides(attempts, 1) && !Decides(attempts, 2);
    assert FirstDecisive(attempts, 0) == MaxAttempts;
    var bs := IntendedAttempts(attempts);
    assert Decides(bs, 0);
    assert FirstDecisive(bs, 0) == 0;
  }
}

=== FILE: HistoryView.dfy ===
/**
 * The history list of frontend/src/components/History.jsx: a count chip and
 * one row per saved response, each with the product label, the verdict read
 * from the first line of the analysis text, the verdict's colour, and a
 * delete action that reports the row's index.
 */
module HistoryView {
  import opened Opt
  import opened Strings
  import opened Payload
  import ResultParser

  /** `getVerdict`: the first line without its "Verdict:" label, trimmed, or
      "Unknown" when reading `item.analysis.split` throws because the record
      has no analysis text (a failed response, for one). */
  function GetVerdict(item: Entry): (v: string)
    ensures item.analysis.None? ==> v == "Unknown"
    ensures item.analysis.Some? ==> Trimmed(v)
  {
    match item.analysis
    case None => "Unknown"
    case Some(t) => ResultParser.StripLabel(Split(t, '\n')[0], ResultParser.VerdictLabel)
  }

  /** The verdict shown in the list is the one the result view shows. */
  lemma VerdictAgrees(item: Entry)
    requires ResultParser.Render(ResultParser.Record(item)).Shows?
    ensures GetVerdict(item) == ResultParser.Render(ResultParser.Record(item)).fields.verdict
  {
  }

  /** `item.productName || 'Food Item'`: a row is never left without a
      label, and the label is either the entry's own name or the default. */
  function ProductLabel(item: Entry): (s: string)
    ensures s != []
    ensures item.productName == Some(s) || s == "Food Item"
    ensures item.productName.Some? && item.productName.value != [] ==> s == item.productName.value
    ensures item.productName.None? || item.productName.value == [] ==> s == "Food Item"
  {
    if item.productName.Some? && item.productName.value != [] then item.productName.value else "Food Item"
  }

  /** One rendered row: its product label, its verdict chip, the verdict's colour, the
      entry a click selects, and the index its delete button reports. */
  datatype Row = Row(productLabel: string, verdict: string, healthy: bool, item: Entry, deleteIndex: nat)

  /** The count chip and the rows. */
  datatype Panel = Panel(count: nat, rows: seq<Row>)

  function RowFor(item: Entry, index: nat): Row
  {
    var verdict := GetVerdict(item);
    Row(ProductLabel(item), verdict, ResultParser.IsHealthy(verdict), item, index)
  }

  /** `history.map((item, index) => ...)` under the "`n` items" chip. */
  function Render(history: seq<Entry>): (p: Panel)
    ensures p.count == |history| && |p.rows| == |history|
    ensures forall i :: 0 <= i < |history| ==>
              p.rows[i].item == history[i] && p.rows[i].deleteIndex == i &&
              p.rows[i].verdict == GetVerdict(history[i]) &&
              (p.rows[i].healthy <==> ResultParser.IsHealthy(GetVerdict(history[i])))
  {
    Panel(|history|, seq(|history|, i requires 0 <= i < |history| => RowFor(history[i], i)))
  }

  /** A failed response in the history shows "Unknown", in the warning colour. */
  lemma FailedEntryRow(history: seq<Entry>, i: nat)
    requires i < |history| && history[i].analysis.None?
    ensures Render(history).rows[i].verdict == "Unknown"
    ensures !Render(history).rows[i].healthy
  {
    assert |ToLower("Unknown")| == 7;
    assert ToLower("Unknown")[0] == 'u';
  }
}

=== FILE: HomePage.dfy ===
/**
 * The page state of frontend/src/pages/Home.jsx: the analysis on show, the
 * loading and error flags, and the history of responses, newest first, with
 * the handlers that change them and the panels the page shows from them.
 */
module HomePage {
  import opened Opt
  import opened Strings
  import opened Payload
  import ResultParser
  import HistoryView

  /** What the `analyzeImage` promise settles to: the response record, or a
      rejection with its message. */
  datatype Settled = Resolved(result: Entry) | Rejected(message: string)

  /** `{...result, timestamp, imageUrl}`: the response with the two fields
      the handler adds, replacing any the response had. */
  function Stamped(result: Entry, timestamp: string, imageUrl: string): (e: Entry)
    ensures e.timestamp == Some(timestamp) && e.imageUrl == Some(imageUrl)
    ensures e.success == result.success && e.analysis == result.analysis && e.error == result.error
    ensures e.extractedText == result.extractedText && e.productName == result.productName
  {
    result.(timestamp := Some(timestamp), imageUrl := Some(imageUrl))
  }

  /** `prev.filter((_, i) => i !== index)`: every entry whose position is not
      `index`, in order. */
  function WithoutIndex(entries: seq<Entry>, index: int): (r: seq<Entry>)
    ensures |r| == if 0 <= index < |entries| then |entries| - 1 else |entries|
    decreases |entries|
  {
    if entries == [] then []
    else
      var n := |entries| - 1;
      WithoutIndex(entries[..n], index) + (if n != index then [entries[n]] else [])
  }

  /** The filter removes exactly the entry at `index`, and nothing when the
      index is out of range. */
  lemma {:induction false} WithoutIndexSplice(entries: seq<Entry>, index: int)
    ensures WithoutIndex(entries, index) ==
            if 0 <= index < |entries| then entries[..index] + entries[index + 1..] else entries
    decreases |entries|
  {
    if entries != [] {
      var n := |entries| - 1;
      WithoutIndexSplice(entries[..n], index);
      assert entries == entries[..n] + [entries[n]];
      if 0 <= index < n {
        assert entries[..n][..index] == entries[..index];
        assert entries[index + 1..] == entries[..n][index + 1..] + [entries[n]];
      }
    }
  }

  /** The delete button of row `i` of the history list removes the entry that
      row shows and keeps the others in order. */
  lemma DeleteRow(history: seq<Entry>, i: nat)
    requires i < |history|
    ensures WithoutIndex(history, HistoryView.Render(history).rows[i].deleteIndex) ==
            history[..i] + history[i + 1..]
    ensures HistoryView.Render(history).rows[i].item == history[i]
  {
    WithoutIndexSplice(history, i);
  }

  /** What the result panel shows, as written: Home.jsx:152-155 shows it for
      a successful analysis but passes the bare text `analysis.analysis`, which
      has no `analysis` field of its own. */
  function ResultPanelAsWritten(analysis: Option<Entry>): (v: ResultParser.View)
    ensures v.Nothing?
  {
    if analysis.Some? && analysis.value.success then
      var prop := if analysis.value.analysis.Some? then ResultParser.Text(analysis.value.analysis.value)
                  else ResultParser.Missing;
      ResultParser.Render(prop)
    else ResultParser.Nothing
  }

  /** The result panel as intended: the record itself handed to the
      component, so that it reads the record's analysis text. */
  function ResultPanel(analysis: Option<Entry>): (v: ResultParser.View)
    ensures analysis.None? || !analysis.value.success ==> v.Nothing?
    ensures analysis.Some? && analysis.value.success ==>
              v == ResultParser.Render(ResultParser.Record(analysis.value))
    ensures v.Shows? <==> analysis.Some? && analysis.value.success &&
                          analysis.value.analysis.Some? && '\n' in analysis.value.analysis.value
    ensures v.Throws? <==> analysis.Some? && analysis.value.success && analysis.value.analysis.Some? &&
                           analysis.value.analysis.value != [] && '\n' !in analysis.value.analysis.value
    ensures v.Shows? ==> v.fields.verdict == HistoryView.GetVerdict(analysis.value)
  {
    if analysis.Some? && analysis.value.success then
      ResultParser.Render(ResultParser.Record(analysis.value))
    else ResultParser.Nothing
  }

  /** For every successful record whose analysis text opens with a verdict
      line, the panel as written shows nothing while the intended panel shows
      that verdict. */
  lemma ResultPanelDiscrepancy(e: Entry, verdict: string, rest: string)
    requires e.success && Trimmed(verdict) && '\n' !in verdict
    requires e.analysis == Some(ResultParser.VerdictLabel + " " + verdict + "\n" + rest)
    ensures ResultPanelAsWritten(Some(e)).Nothing?
    ensures ResultPanel(Some(e)).Shows? && ResultPanel(Some(e)).fields.verdict == verdict
  {
    ResultParser.VerdictLine(e.analysis.value, verdict, rest);
  }

  class Home {
    /** The record on show (the `analysis` state). */
    var analysis: Option<Entry>
    /** Whether the spinner is up. */
    var loading: bool
    /** The message of the last failed request. */
    var error: Option<string>
    /** The responses, newest first. */
    var history: seq<Entry>

    /** The `useState` initialisers of Home.jsx:22-28; `saved` is the parsed
        stored history, `None` when nothing (or the empty string) is stored. */
    constructor(saved: Option<seq<Entry>>)
      ensures analysis == None && !loading && error == None
      ensures history == if saved.Some? then saved.value else []
    {
      analysis := None;
      loading := false;
      error := None;
      history := if saved.Some? then saved.value else [];
    }

    /** The first two steps of `handleImageSelect`: spinner up, error cleared. */
    method BeginUpload()
      modifies this
      ensures loading && error == None
      ensures analysis == old(analysis) && history == old(history)
    {
      loading := true;
      error := None;
    }

    /** The rest of `handleImageSelect` once the request settles: a response,
        whether it reports success or not, goes on show and, stamped, to the
        front of the history; a rejection only sets the error. The spinner
        comes down either way. */
    method Settle(outcome: Settled, timestamp: string, imageUrl: string)
      modifies this
      ensures !loading
      ensures outcome.Resolved? ==>
                analysis == Some(outcome.result) && error == old(error) &&
                history == [Stamped(outcome.result, timestamp, imageUrl)] + old(history)
      ensures outcome.Rejected? ==>
                error == Some(outcome.message) && analysis == old(analysis) && history == old(history)
    {
      if outcome.Resolved? {
        analysis := Some(outcome.result);
        var item := Stamped(outcome.result, timestamp, imageUrl);
        history := [item] + history;
      } else {
        error := Some(outcome.message);
      }
      loading := false;
    }

    /** `handleImageSelect` as one step: the history grows by one exactly when
        the request resolves, and the error is set exactly when it rejects. */
    method HandleImageSelect(outcome: Settled, timestamp: string, imageUrl: string)
      modifies this
      ensures !loading
      ensures outcome.Resolved? ==>
                analysis == Some(outcome.result) && error == None &&
                history == [Stamped(outcome.result, timestamp, imageUrl)] + old(history)
      ensures outcome.Rejected? ==>
                error == Some(outcome.message) && analysis == old(analysis) && history == old(history)
      ensures ErrorShown() <==> outcome.Rejected? && outcome.message != []
    {
      BeginUpload();
      Settle(outcome, timestamp, imageUrl);
    }

    /** `handleSelectHistory`: the chosen record goes on show. */
    method HandleSelectHistory(item: Entry)
      modifies this
      ensures analysis == Some(item)
      ensures loading == old(loading) && error == old(error) && history == old(history)
    {
      analysis := Some(item);
    }

    /** `handleDeleteHistory`: the entry at `index` leaves the history. */
    method HandleDeleteHistory(index: int)
      modifies this
      ensures history == WithoutIndex(old(history), index)
      ensures 0 <= index < |old(history)| ==> history == old(history)[..index] + old(history)[index + 1..]
      ensures !(0 <= index < |old(history)|) ==> history == old(history)
      ensures analysis == old(analysis) && loading == old(loading) && error == old(error)
    {
      WithoutIndexSplice(history, index);
      history := WithoutIndex(history, index);
    }

    /** Whether the error alert shows: `error &&` needs a non-empty message. */
    function ErrorShown(): (shown: bool)
      reads this
      ensures shown <==> error.Some? && error.value != []
    {
      error.Some? && error.value != []
    }

    /** The result panel of Home.jsx:152-158, as intended. */
    function Panel(): (v: ResultParser.View)
      reads this
      ensures analysis.None? || !analysis.value.success ==> v.Nothing?
      ensures analysis.Some? && analysis.value.success ==>
                v == ResultParser.Render(ResultParser.Record(analysis.value))
      ensures v.Shows? <==> analysis.Some? && analysis.value.success &&
                            analysis.value.analysis.Some? && '\n' in analysis.value.analysis.value
      ensures v.Shows? ==> v.fields.verdict == HistoryView.GetVerdict(analysis.value)
    {
      ResultPanel(analysis)
    }

    /** The history list of Home.jsx:129-133. */
    function HistoryPanel(): (p: HistoryView.Panel)
      reads this
      ensures p.count == |history|
    {
      HistoryView.Render(history)
    }
  }
}

=== FILE: ImageProcessing.dfy ===
/**
 * The text layout step of `extract_text_from_image` in
 * backend/utils/image_processing.py (repeated in backend/reference.py): the
 * OCR detections are filtered by confidence, sorted top to bottom, grouped
 * into rows of blocks whose heights lie close together, each row ordered
 * left to right, and each row written as one line; the lines are then
 * cleaned by `clean_nutrition_text`.
 */
module ImageProcessing {
  import opened Opt
  import opened Strings
  import TextCleaning

  /** An image coordinate. */
  datatype Point = Point(x: real, y: real)

  /** One OCR detection: the first and third corners of its box (the only ones
      read), the recognised text and its confidence. */
  datatype Detection = Detection(topLeft: Point, bottomRight: Point, text: string, confidence: real)

  /** What the OCR engine gives back: a failure (an exception), or a page whose
      detection list may be missing (`result[0]` is `None`). */
  datatype OcrResult = OcrFailed | Page(detections: Option<seq<Detection>>)

  /** A text block: its text, left edge and vertical middle. */
  datatype Block = Block(text: string, x: real, y: real)

  /** The confidence a detection must exceed to be kept. */
  const MinConfidence: real := 0.5

  /** The largest height difference between neighbouring blocks of a row. */
  const Threshold: real := 10.0

  /** The block made from a detection (image_processing.py:53-61). */
  function BlockOf(d: Detection): (b: Block)
    ensures b.text == d.text && b.x == d.topLeft.x
    ensures d.topLeft.y <= d.bottomRight.y ==> d.topLeft.y <= b.y <= d.bottomRight.y
  {
    Block(d.text, d.topLeft.x, (d.topLeft.y + d.bottomRight.y) / 2.0)
  }

  // ------------------------------------------------------------- filtering

  /** The blocks of the confident detections, in detection order. */
  function Confident(ds: seq<Detection>): (bs: seq<Block>)
    ensures |bs| <= |ds|
    ensures forall b :: b in bs <==> exists d :: d in ds && d.confidence > MinConfidence && b == BlockOf(d)
    decreases |ds|
  {
    if ds == [] then []
    else
      var init := ds[..|ds| - 1];
      var d := ds[|ds| - 1];
      assert ds == init + [d];
      Confident(init) + (if d.confidence > MinConfidence then [BlockOf(d)] else [])
  }

  /** image_processing.py:44-61: every detection of a present, non-empty list
      whose confidence exceeds one half becomes a block. */
  method CollectBlocks(detections: Option<seq<Detection>>) returns (blocks: seq<Block>)
    ensures detections.None? ==> blocks == []
    ensures detections.Some? ==> blocks == Confident(detections.value)
  {
    blocks := [];
    if detections.Some? && detections.value != [] {
      var ds := detections.value;
      for k := 0 to |ds|
        invariant blocks == Confident(ds[..k])
      {
        assert ds[..k + 1][..k] == ds[..k];
        if ds[k].confidence > MinConfidence {
          blocks := blocks + [BlockOf(ds[k])];
        }
      }
      assert ds[..|ds|] == ds;
    }
  }

  // --------------------------------------------------------------- sorting

  /** The two sort keys: `x['y']` for the page, `x['x']` within a row. */
  datatype Axis = Vertical | Horizontal

  function Key(b: Block, axis: Axis): real
  {
    match axis
    case Vertical => b.y
    case Horizontal => b.x
  }

  predicate SortedBy(s: seq<Block>, axis: Axis)
  {
    forall i, j :: 0 <= i < j < |s| ==> Key(s[i], axis) <= Key(s[j], axis)
  }

  /** `b` placed after every leading element whose key is at most its own. */
  function Insert(b: Block, s: seq<Block>, axis: Axis): seq<Block>
    decreases |s|
  {
    if s == [] || Key(b, axis) < Key(s[0], axis) then [b] + s
    else [s[0]] + Insert(b, s[1..], axis)
  }

  /** Python's `list.sort(key=...)`: a stable sort, here by insertion of each
      element in turn. */
  function SortBy(s: seq<Block>, axis: Axis): seq<Block>
    decreases |s|
  {
    if s == [] then [] else Insert(s[|s| - 1], SortBy(s[..|s| - 1], axis), axis)
  }

  /** Inserting into a sorted sequence keeps it sorted, and the result starts
      with `b` or with the old first element. */
  lemma {:induction false} InsertSorted(b: Block, s: seq<Block>, axis: Axis)
    requires SortedBy(s, axis)
    ensures SortedBy(Insert(b, s, axis), axis)
    ensures Insert(b, s, axis)[0] == b || (s != [] && Insert(b, s, axis)[0] == s[0])
    decreases |s|
  {
    var r := Insert(b, s, axis);
    if s == [] || Key(b, axis) < Key(s[0], axis) {
      forall i, j | 0 <= i < j < |r| ensures Key(r[i], axis) <= Key(r[j], axis) {
        if i > 0 {
          assert r[i] == s[i - 1] && r[j] == s[j - 1];
        } else {
          assert r[j] == s[j - 1];
        }
      }
    } else {
      var rest := Insert(b, s[1..], axis);
      InsertSorted(b, s[1..], axis);
      assert r == [s[0]] + rest;
      forall i, j | 0 <= i < j < |r| ensures Key(r[i], axis) <= Key(r[j], axis) {
        if i == 0 {
          assert Key(s[0], axis) <= Key(rest[0], axis);
          assert Key(rest[0], axis) <= Key(rest[j - 1], axis);
        } else {
          assert r[i] == rest[i - 1] && r[j] == rest[j - 1];
        }
      }
    }
  }

  /** Inserting adds `b` and nothing else. */
  lemma {:induction false} InsertPermutes(b: Block, s: seq<Block>, axis: Axis)
    ensures multiset(Insert(b, s, axis)) == multiset(s) + multiset{b}
    decreases |s|
  {
    if s != [] && Key(s[0], axis) <= Key(b, axis) {
      InsertPermutes(b, s[1..], axis);
      assert s == [s[0]] + s[1..];
    }
  }

  /** The sort orders by the key. */
  lemma {:induction false} SortByOrders(s: seq<Block>, axis: Axis)
    ensures SortedBy(SortBy(s, axis), axis)
    decreases |s|
  {
    if s != [] {
      SortByOrders(s[..|s| - 1], axis);
      InsertSorted(s[|s| - 1], SortBy(s[..|s| - 1], axis), axis);
    }
  }

  /** The sort permutes its input. */
  lemma {:induction false} SortByPermutes(s: seq<Block>, axis: Axis)
    ensures multiset(SortBy(s, axis)) == multiset(s)
    decreases |s|
  {
    if s != [] {
      var init, b := s[..|s| - 1], s[|s| - 1];
      var t := SortBy(init, axis);
      assert SortBy(s, axis) == Insert(b, t, axis);
      SortByPermutes(init, axis);
      InsertPermutes(b, t, axis);
      assert s == init + [b];
      assert multiset(s) == multiset(init) + multiset{b};
    }
  }

  /** The sort orders by the key and permutes its input. */
  lemma SortBySorted(s: seq<Block>, axis: Axis)
    ensures SortedBy(SortBy(s, axis), axis)
    ensures multiset(SortBy(s, axis)) == multiset(s)
  {
    SortByOrders(s, axis);
    SortByPermutes(s, axis);
  }

  /** The elements whose key is `k`, in order. */
  function WithKey(s: seq<Block>, axis: Axis, k: real): seq<Block>
    decreases |s|
  {
    if s == [] then []
    else (if Key(s[0], axis) == k then [s[0]] else []) + WithKey(s[1..], axis, k)
  }

  /** The key filter on a sequence with one element in front. */
  lemma WithKeyCons(x: Block, s: seq<Block>, axis: Axis, k: real)
    ensures WithKey([x] + s, axis, k) == (if Key(x, axis) == k then [x] else []) + WithKey(s, axis, k)
  {
    assert ([x] + s)[0] == x && ([x] + s)[1..] == s;
  }

  lemma {:induction false} WithKeyAppend(a: seq<Block>, b: seq<Block>, axis: Axis, k: real)
    ensures WithKey(a + b, axis, k) == WithKey(a, axis, k) + WithKey(b, axis, k)
    decreases |a|
  {
    if a == [] {
      assert a + b == b;
    } else {
      assert a + b == [a[0]] + (a[1..] + b) && a == [a[0]] + a[1..];
      WithKeyCons(a[0], a[1..] + b, axis, k);
      WithKeyCons(a[0], a[1..], axis, k);
      WithKeyAppend(a[1..], b, axis, k);
    }
  }

  /** No element of a sorted sequence whose first key exceeds `k` has key `k`. */
  lemma {:induction false} NoKey(s: seq<Block>, axis: Axis, k: real)
    requires SortedBy(s, axis) && s != [] && k < Key(s[0], axis)
    ensures WithKey(s, axis, k) == []
    decreases |s|
  {
    if |s| > 1 {
      assert Key(s[0], axis) <= Key(s[1], axis);
      NoKey(s[1..], axis, k);
    }
  }

  lemma SortedTail(s: seq<Block>, axis: Axis)
    requires SortedBy(s, axis) && s != []
    ensures SortedBy(s[1..], axis)
  {
    forall i, j | 0 <= i < j < |s| - 1 ensures Key(s[1..][i], axis) <= Key(s[1..][j], axis) {
      assert s[1..][i] == s[i + 1] && s[1..][j] == s[j + 1];
    }
  }

  /** Inserting adds `b` after the elements of its own key and changes the
      order of no other key. */
  lemma {:induction false} InsertWithKey(b: Block, s: seq<Block>, axis: Axis, k: real)
    requires SortedBy(s, axis)
    ensures WithKey(Insert(b, s, axis), axis, k) ==
            WithKey(s, axis, k) + (if Key(b, axis) == k then [b] else [])
    decreases |s|
  {
    if s == [] || Key(b, axis) < Key(s[0], axis) {
      InsertFrontWithKey(b, s, axis, k);
    } else {
      var rest := Insert(b, s[1..], axis);
      var h := if Key(s[0], axis) == k then [s[0]] else [];
      var t := if Key(b, axis) == k then [b] else [];
      SortedTail(s, axis);
      calc {
        WithKey(Insert(b, s, axis), axis, k);
        WithKey([s[0]] + rest, axis, k);
        { WithKeyCons(s[0], rest, axis, k); }
        h + WithKey(rest, axis, k);
        { InsertWithKey(b, s[1..], axis, k); }
        h + (WithKey(s[1..], axis, k) + t);
        (h + WithKey(s[1..], axis, k)) + t;
        { WithKeyCons(s[0], s[1..], axis, k); assert [s[0]] + s[1..] == s; }
        WithKey(s, axis, k) + t;
      }
    }
  }

  /** `b` in front of a sorted sequence whose first key exceeds its own comes
      after every element of its key, of which there are none. */
  lemma InsertFrontWithKey(b: Block, s: seq<Block>, axis: Axis, k: real)
    requires SortedBy(s, axis) && (s == [] || Key(b, axis) < Key(s[0], axis))
    ensures WithKey(Insert(b, s, axis), axis, k) ==
            WithKey(s, axis, k) + (if Key(b, axis) == k then [b] else [])
  {
    assert Insert(b, s, axis) == [b] + s;
    WithKeyCons(b, s, axis, k);
    if Key(b, axis) == k && s != [] {
      NoKey(s, axis, k);
    }
  }

  /** The sort is stable: the elements of any one key keep their order. */
  lemma {:induction false} SortStable(s: seq<Block>, axis: Axis, k: real)
    ensures WithKey(SortBy(s, axis), axis, k) == WithKey(s, axis, k)
    decreases |s|
  {
    if s != [] {
      var init, b := s[..|s| - 1], s[|s| - 1];
      var sorted := SortBy(init, axis);
      var t := if Key(b, axis) == k then [b] else [];
      SortByOrders(init, axis);
      calc {
        WithKey(SortBy(s, axis), axis, k);
        WithKey(Insert(b, sorted, axis), axis, k);
        { InsertWithKey(b, sorted, axis, k); }
        WithKey(sorted, axis, k) + t;
        { SortStable(init, axis, k); }
        WithKey(init, axis, k) + t;
        { WithKeyCons(b, [], axis, k); assert [b] + [] == [b]; }
        WithKey(init, axis, k) + WithKey([b], axis, k);
        { WithKeyAppend(init, [b], axis, k); assert init + [b] == s; }
        WithKey(s, axis, k);
      }
    }
  }

  // --------------------------------------------------------------- grouping

  function Abs(r: real): real { if r < 0.0 then -r else r }

  /** `abs(block['y'] - last_y) <= y_threshold`. */
  predicate Near(lastY: real, y: real)
  {
    Abs(y - lastY) <= Threshold
  }

  /** The rows before their horizontal sort: a block joins the current row
      when its height is near the previous block's, and opens a new row
      otherwise. */
  function Chunks(b: seq<Block>): (cs: seq<seq<Block>>)
    ensures |cs| == 0 <==> |b| == 0
    ensures forall i :: 0 <= i < |cs| ==> cs[i] != []
    decreases |b|
  {
    if b == [] then []
    else
      var init := b[..|b| - 1];
      var x := b[|b| - 1];
      var cs := Chunks(init);
      if init == [] then [[x]]
      else if Near(init[|init| - 1].y, x.y) then cs[..|cs| - 1] + [cs[|cs| - 1] + [x]]
      else cs + [[x]]
  }

  /** One more block: it extends the last chunk or opens a new one. */
  lemma ChunksSnoc(b: seq<Block>, x: Block)
    ensures var cs := Chunks(b);
            Chunks(b + [x]) == if b == [] then [[x]]
                               else if Near(b[|b| - 1].y, x.y) then cs[..|cs| - 1] + [cs[|cs| - 1] + [x]]
                               else cs + [[x]]
  {
    assert (b + [x])[..|b|] == b;
  }

  /** A block near the last one joins the last chunk. */
  lemma ChunksJoin(b: seq<Block>, x: Block)
    requires b != [] && Near(b[|b| - 1].y, x.y)
    ensures var cs, ds := Chunks(b), Chunks(b + [x]);
            |ds| == |cs| && ds[..|ds| - 1] == cs[..|cs| - 1] && ds[|ds| - 1] == cs[|cs| - 1] + [x]
  {
    ChunksSnoc(b, x);
  }

  /** The first block, or one far from the last, opens a chunk of its own. */
  lemma ChunksOpen(b: seq<Block>, x: Block)
    requires b == [] || !Near(b[|b| - 1].y, x.y)
    ensures var cs, ds := Chunks(b), Chunks(b + [x]);
            ds == cs + [[x]] && ds[..|ds| - 1] == cs && ds[|ds| - 1] == [x]
  {
    ChunksSnoc(b, x);
  }

  function Flatten(cs: seq<seq<Block>>): seq<Block>
    decreases |cs|
  {
    if cs == [] then [] else Flatten(cs[..|cs| - 1]) + cs[|cs| - 1]
  }

  /** Neighbours within each row are near. */
  predicate Cohesive(cs: seq<seq<Block>>)
  {
    forall i, j :: 0 <= i < |cs| && 0 < j < |cs[i]| ==> Near(cs[i][j - 1].y, cs[i][j].y)
  }

  /** The first block of each row is not near the last block of the row before. */
  predicate Separated(cs: seq<seq<Block>>)
  {
    forall i :: 0 < i < |cs| && cs[i - 1] != [] && cs[i] != [] ==> !Near(cs[i - 1][|cs[i - 1]| - 1].y, cs[i][0].y)
  }

  /** The chunks partition the blocks in order, neighbours within a chunk are
      near, and neighbours across a chunk boundary are not. */
  lemma {:induction false} ChunksPartition(b: seq<Block>)
    ensures Flatten(Chunks(b)) == b
    ensures Cohesive(Chunks(b)) && Separated(Chunks(b))
    decreases |b|
  {
    if b != [] {
      var init, x := b[..|b| - 1], b[|b| - 1];
      assert b == init + [x];
      ChunksPartition(init);
      ChunksSnoc(init, x);
      if init == [] {
        OneChunk(x);
      } else {
        ChunksStep(Chunks(init), init, x);
      }
    }
  }

  /** A single block is a single chunk. */
  lemma OneChunk(x: Block)
    ensures Flatten([[x]]) == [x] && Cohesive([[x]]) && Separated([[x]])
  {
    assert Flatten([[x]]) == Flatten([]) + [x];
  }

  /** The step of the partition proof for a non-empty prefix. */
  lemma ChunksStep(cs: seq<seq<Block>>, init: seq<Block>, x: Block)
    requires init != [] && cs != [] && forall i :: 0 <= i < |cs| ==> cs[i] != []
    requires Flatten(cs) == init && Cohesive(cs) && Separated(cs)
    ensures var ds := if Near(init[|init| - 1].y, x.y) then cs[..|cs| - 1] + [cs[|cs| - 1] + [x]] else cs + [[x]];
            Flatten(ds) == init + [x] && Cohesive(ds) && Separated(ds)
  {
    LastOfFlatten(cs);
    if Near(init[|init| - 1].y, x.y) {
      Extend(cs, x);
    } else {
      Open(cs, x);
    }
  }

  /** The last block of a partition is the last block of its last chunk. */
  lemma LastOfFlatten(cs: seq<seq<Block>>)
    requires cs != [] && cs[|cs| - 1] != []
    ensures Flatten(cs) != [] && Flatten(cs)[|Flatten(cs)| - 1] == cs[|cs| - 1][|cs[|cs| - 1]| - 1]
  {
  }

  /** Adding a near block to the last chunk keeps each chunk's neighbours near. */
  lemma ExtendCohesive(cs: seq<seq<Block>>, x: Block)
    requires cs != [] && cs[|cs| - 1] != [] && Cohesive(cs)
    requires Near(cs[|cs| - 1][|cs[|cs| - 1]| - 1].y, x.y)
    ensures Cohesive(cs[..|cs| - 1] + [cs[|cs| - 1] + [x]])
  {
    var front, last := cs[..|cs| - 1], cs[|cs| - 1];
    var ds: seq<seq<Block>> := front + [last + [x]];
    forall i, j | 0 <= i < |ds| && 0 < j < |ds[i]| ensures Near(ds[i][j - 1].y, ds[i][j].y) {
      if i < |front| {
        assert ds[i] == cs[i];
      } else if j < |last| {
        assert ds[i][j - 1] == last[j - 1] && ds[i][j] == last[j];
      }
    }
  }

  /** Adding a block to the last chunk keeps the chunk boundaries apart. */
  lemma ExtendSeparated(cs: seq<seq<Block>>, x: Block)
    requires cs != [] && forall i :: 0 <= i < |cs| ==> cs[i] != []
    requires Separated(cs)
    ensures Separated(cs[..|cs| - 1] + [cs[|cs| - 1] + [x]])
  {
    var ds: seq<seq<Block>> := cs[..|cs| - 1] + [cs[|cs| - 1] + [x]];
    forall i | 0 < i < |ds| && ds[i - 1] != [] && ds[i] != [] ensures !Near(ds[i - 1][|ds[i - 1]| - 1].y, ds[i][0].y) {
      assert ds[i - 1] == cs[i - 1] && ds[i][0] == cs[i][0];
    }
  }

  /** Adding a near block to the last chunk keeps a good partition good. */
  lemma Extend(cs: seq<seq<Block>>, x: Block)
    requires cs != [] && forall i :: 0 <= i < |cs| ==> cs[i] != []
    requires Cohesive(cs) && Separated(cs)
    requires Near(cs[|cs| - 1][|cs[|cs| - 1]| - 1].y, x.y)
    ensures var ds := cs[..|cs| - 1] + [cs[|cs| - 1] + [x]];
            Flatten(ds) == Flatten(cs) + [x] && Cohesive(ds) && Separated(ds)
  {
    var front, last := cs[..|cs| - 1], cs[|cs| - 1];
    var ds: seq<seq<Block>> := front + [last + [x]];
    assert cs == front + [last];
    assert ds[..|ds| - 1] == front;
    ExtendCohesive(cs, x);
    ExtendSeparated(cs, x);
  }

  /** Opening a chunk with a block not near the last one keeps a good
      partition good. */
  lemma Open(cs: seq<seq<Block>>, x: Block)
    requires cs != [] && cs[|cs| - 1] != []
    requires Cohesive(cs) && Separated(cs)
    requires !Near(cs[|cs| - 1][|cs[|cs| - 1]| - 1].y, x.y)
    ensures var ds := cs + [[x]];
            Flatten(ds) == Flatten(cs) + [x] && Cohesive(ds) && Separated(ds)
  {
    var ds := cs + [[x]];
    assert ds[..|ds| - 1] == cs;
    forall i, j | 0 <= i < |ds| && 0 < j < |ds[i]| ensures Near(ds[i][j - 1].y, ds[i][j].y) {
      assert ds[i] == cs[i];
    }
    forall i | 0 < i < |ds| && ds[i - 1] != [] && ds[i] != [] ensures !Near(ds[i - 1][|ds[i - 1]| - 1].y, ds[i][0].y) {
      assert ds[i - 1] == cs[i - 1];
      if i < |cs| {
        assert ds[i] == cs[i];
      }
    }
  }

  /** Each chunk sorted left to right. */
  function SortRows(cs: seq<seq<Block>>): (rs: seq<seq<Block>>)
    ensures |rs| == |cs|
  {
    seq(|cs|, i requires 0 <= i < |cs| => SortBy(cs[i], Horizontal))
  }

  /** The rows of image_processing.py:67-85. */
  function Rows(blocks: seq<Block>): seq<seq<Block>>
  {
    SortRows(Chunks(blocks))
  }

  /** Each row is ordered left to right and holds the blocks of its chunk. */
  lemma RowsSorted(blocks: seq<Block>)
    ensures |Rows(blocks)| == |Chunks(blocks)|
    ensures forall i :: 0 <= i < |Rows(blocks)| ==>
              SortedBy(Rows(blocks)[i], Horizontal) && multiset(Rows(blocks)[i]) == multiset(Chunks(blocks)[i])
  {
    var cs := Chunks(blocks);
    forall i | 0 <= i < |cs| ensures SortedBy(SortBy(cs[i], Horizontal), Horizontal) && multiset(SortBy(cs[i], Horizontal)) == multiset(cs[i]) {
      SortBySorted(cs[i], Horizontal);
    }
  }

  lemma SortRowsSnoc(cs: seq<seq<Block>>, c: seq<Block>)
    ensures SortRows(cs + [c]) == SortRows(cs) + [SortBy(c, Horizontal)]
  {
  }

  /** The loop state after the first `k > 0` blocks: the open row is the last
      chunk so far and the closed rows are the earlier chunks, each sorted. */
  predicate Grouped(blocks: seq<Block>, k: nat, rows: seq<seq<Block>>, current: seq<Block>)
    requires 0 < k <= |blocks|
  {
    var cs := Chunks(blocks[..k]);
    current == cs[|cs| - 1] && rows == SortRows(cs[..|cs| - 1])
  }

  /** The first block opens the first row. */
  lemma GroupedFirst(blocks: seq<Block>)
    requires blocks != []
    ensures Grouped(blocks, 1, [], [blocks[0]])
  {
    assert blocks[..1] == [] + [blocks[0]];
    ChunksOpen([], blocks[0]);
  }

  /** A block near the one before joins the open row. */
  lemma GroupedJoin(blocks: seq<Block>, k: nat, rows: seq<seq<Block>>, current: seq<Block>)
    requires 0 < k < |blocks| && Grouped(blocks, k, rows, current)
    requires Near(blocks[k - 1].y, blocks[k].y)
    ensures Grouped(blocks, k + 1, rows, current + [blocks[k]])
  {
    assert blocks[..k + 1] == blocks[..k] + [blocks[k]];
    ChunksJoin(blocks[..k], blocks[k]);
  }

  /** A block far from the one before closes the open row, sorted, and opens
      its own. */
  lemma GroupedOpen(blocks: seq<Block>, k: nat, rows: seq<seq<Block>>, current: seq<Block>)
    requires 0 < k < |blocks| && Grouped(blocks, k, rows, current)
    requires !Near(blocks[k - 1].y, blocks[k].y)
    ensures current != []
    ensures Grouped(blocks, k + 1, rows + [SortBy(current, Horizontal)], [blocks[k]])
  {
    var cs := Chunks(blocks[..k]);
    assert blocks[..k + 1] == blocks[..k] + [blocks[k]];
    ChunksOpen(blocks[..k], blocks[k]);
    SortRowsSnoc(cs[..|cs| - 1], current);
    assert cs[..|cs| - 1] + [current] == cs;
  }

  /** Closing the open row after the last block gives the rows. */
  lemma GroupedLast(blocks: seq<Block>, rows: seq<seq<Block>>, current: seq<Block>)
    requires blocks != [] && Grouped(blocks, |blocks|, rows, current)
    ensures current != [] && rows + [SortBy(current, Horizontal)] == Rows(blocks)
  {
    var cs := Chunks(blocks);
    assert blocks[..|blocks|] == blocks;
    SortRowsSnoc(cs[..|cs| - 1], current);
    assert cs[..|cs| - 1] + [current] == cs;
  }

  /** The grouping loop of image_processing.py:67-85 over the sorted blocks. */
  method GroupRows(blocks: seq<Block>) returns (rows: seq<seq<Block>>)
    ensures rows == Rows(blocks)
  {
    rows := [];
    var current: seq<Block> := [];
    var lastY: Option<real> := None;
    for k := 0 to |blocks|
      invariant k == 0 ==> rows == [] && current == [] && lastY == None
      invariant k > 0 ==> lastY == Some(blocks[k - 1].y) && Grouped(blocks, k, rows, current)
    {
      var block := blocks[k];
      if lastY.None? || Abs(block.y - lastY.value) <= Threshold {
        if k == 0 {
          GroupedFirst(blocks);
        } else {
          GroupedJoin(blocks, k, rows, current);
        }
        current := current + [block];
      } else {
        GroupedOpen(blocks, k, rows, current);
        if current != [] {
          rows := rows + [SortBy(current, Horizontal)];
        }
        current := [block];
      }
      lastY := Some(block.y);
    }
    if current != [] {
      GroupedLast(blocks, rows, current);
      rows := rows + [SortBy(current, Horizontal)];
    }
  }

  // ------------------------------------------------------------- formatting

  function Texts(row: seq<Block>): (ts: seq<string>)
    ensures |ts| == |row| && forall i :: 0 <= i < |row| ==> ts[i] == row[i].text
  {
    seq(|row|, i requires 0 <= i < |row| => row[i].text)
  }

  /** `any(text2.lower().endswith(unit) for unit in ['g', 'mg', '%'])`. */
  predicate UnitLike(t: string)
  {
    EndsWith(ToLower(t), "g") || EndsWith(ToLower(t), "mg") || EndsWith(ToLower(t), "%")
  }

  /** The "mg" test adds nothing: a text looks like a unit exactly when its
      last character is 'g', 'G' or '%'. */
  lemma UnitLikeLast(t: string)
    ensures UnitLike(t) <==> t != [] && (t[|t| - 1] == 'g' || t[|t| - 1] == 'G' || t[|t| - 1] == '%')
  {
    if t != [] {
      var l := ToLower(t);
      assert l[|l| - 1] == LowerChar(t[|t| - 1]);
      assert EndsWith(l, "g") <==> l[|l| - 1] == 'g';
      assert EndsWith(l, "%") <==> l[|l| - 1] == '%';
      if EndsWith(l, "mg") {
        assert l[|l| - 2..] == "mg";
        assert l[|l| - 1] == 'g';
      }
    }
  }

  /** One formatted line (image_processing.py:89-99): a two-block row whose
      second text looks like a unit becomes "value: unit", any other row its
      texts joined by spaces. */
  function FormatRow(row: seq<Block>): (line: string)
    ensures |row| == 2 && UnitLike(row[1].text) ==> line == row[0].text + ": " + row[1].text
    ensures !(|row| == 2 && UnitLike(row[1].text)) ==> line == Join(Texts(row), " ")
  {
    if |row| == 2 && UnitLike(row[1].text) then row[0].text + ": " + row[1].text
    else Join(Texts(row), " ")
  }

  /** A row whose texts hold no line break is written on one line. */
  lemma FormatRowSingleLine(row: seq<Block>)
    requires forall i :: 0 <= i < |row| ==> '\n' !in row[i].text
    ensures '\n' !in FormatRow(row)
  {
    if !(|row| == 2 && UnitLike(row[1].text)) {
      JoinExcludes(Texts(row), " ", '\n');
    }
  }

  /** Reading a formatted line back: when no text holds a space, splitting
      the line on spaces gives the row's texts in order, the first of a
      value-and-unit pair carrying the colon the formatter put after it. */
  lemma FormatRowWords(row: seq<Block>)
    requires |row| >= 1
    requires forall i :: 0 <= i < |row| ==> ' ' !in row[i].text
    ensures |row| == 2 && UnitLike(row[1].text) ==>
              Split(FormatRow(row), ' ') == [row[0].text + ":", row[1].text]
    ensures !(|row| == 2 && UnitLike(row[1].text)) ==> Split(FormatRow(row), ' ') == Texts(row)
  {
    if |row| == 2 && UnitLike(row[1].text) {
      var pair := [row[0].text + ":", row[1].text];
      assert Join(pair, " ") == row[0].text + ": " + row[1].text;
      SplitJoin(pair, ' ');
    } else {
      SplitJoin(Texts(row), ' ');
    }
  }

  /** The formatting loop of image_processing.py:88-99. */
  method FormatRows(rows: seq<seq<Block>>) returns (lines: seq<string>)
    ensures |lines| == |rows|
    ensures forall i :: 0 <= i < |rows| ==> lines[i] == FormatRow(rows[i])
  {
    lines := [];
    for k := 0 to |rows|
      invariant |lines| == k
      invariant forall i :: 0 <= i < k ==> lines[i] == FormatRow(rows[i])
    {
      lines := lines + [FormatRow(rows[k])];
    }
  }

  // ---------------------------------------------------------------- the whole

  /** The text laid out from the sorted blocks, before cleaning. */
  function Layout(blocks: seq<Block>): string
  {
    var rows := Rows(blocks);
    Join(seq(|rows|, i requires 0 <= i < |rows| => FormatRow(rows[i])), "\n")
  }

  /** The laid-out text has one line per row when no block text holds a line
      break. */
  lemma LayoutLines(blocks: seq<Block>)
    requires blocks != []
    requires forall b :: b in blocks ==> '\n' !in b.text
    ensures |Split(Layout(blocks), '\n')| == |Rows(blocks)|
  {
    var rows := Rows(blocks);
    var cs := Chunks(blocks);
    var lines := seq(|rows|, i requires 0 <= i < |rows| => FormatRow(rows[i]));
    ChunksPartition(blocks);
    RowsSorted(blocks);
    forall i | 0 <= i < |rows| ensures '\n' !in lines[i] {
      forall j | 0 <= j < |rows[i]| ensures '\n' !in rows[i][j].text {
        assert rows[i][j] in multiset(rows[i]);
        FlattenMember(cs, i, rows[i][j]);
      }
      FormatRowSingleLine(rows[i]);
    }
    SplitJoin(lines, '\n');
  }

  /** A member of a chunk is one of the blocks. */
  lemma {:induction false} FlattenMember(cs: seq<seq<Block>>, i: nat, b: Block)
    requires i < |cs| && b in cs[i]
    ensures b in Flatten(cs)
    decreases |cs|
  {
    if i < |cs| - 1 {
      FlattenMember(cs[..|cs| - 1], i, b);
    }
  }

  /** The blocks of a page, sorted by height (image_processing.py:44-64). */
  function PageBlocks(detections: Option<seq<Detection>>): seq<Block>
  {
    SortBy(Confident(if detections.Some? then detections.value else []), Vertical)
  }

  /** `extract_text_from_image` after preprocessing: `None` when the OCR call
      fails; otherwise the confident blocks sorted by height, grouped, laid
      out one line per row, and cleaned. The result holds no '|', 'O' or 'q',
      and, when no block text holds a line break, one line per row. */
  method ExtractText(ocr: OcrResult) returns (text: Option<string>)
    ensures ocr.OcrFailed? <==> text == None
    ensures ocr.Page? ==> text == Some(TextCleaning.Cleaned(Layout(PageBlocks(ocr.detections))))
    ensures text.Some? ==> '|' !in text.value && 'O' !in text.value && 'q' !in text.value
    ensures ocr.Page? && PageBlocks(ocr.detections) != [] &&
            (forall b :: b in PageBlocks(ocr.detections) ==> '\n' !in b.text) ==>
              |Split(text.value, '\n')| == |Rows(PageBlocks(ocr.detections))|
  {
    if ocr.OcrFailed? {
      return None;
    }
    var blocks := CollectBlocks(ocr.detections);
    blocks := SortBy(blocks, Vertical);
    var rows := GroupRows(blocks);
    var lines := FormatRows(rows);
    assert lines == seq(|rows|, i requires 0 <= i < |rows| => FormatRow(rows[i]));
    var formatted := Join(lines, "\n");
    var cleaned, _ := TextCleaning.CleanNutritionText(Some(formatted));
    if formatted == [] {
      TextCleaning.CleanedEmpty();
    }
    TextCleaning.CleanedExcludes(formatted);
    if blocks != [] && forall b :: b in blocks ==> '\n' !in b.text {
      LayoutLines(blocks);
      TextCleaning.CleanedLineCount(formatted);
    }
    text := cleaned;
  }
}

=== FILE: Opt.dfy ===
/** An optional value: JavaScript's `undefined`/`null` and Python's `None` on the `None` side. */
module Opt {
  datatype Option<+T> = None | Some(value: T)
}

=== FILE: Payload.dfy ===
/**
 * The JSON record the `/analyze-label` endpoint answers with, as the frontend
 * receives it, keeps in its history and hands to its components. Fields a
 * particular answer lacks are `None` (JavaScript `undefined`).
 */
module Payload {
  import opened Opt

  datatype Entry = Entry(
    success: bool,
    analysis: Option<string>,      // the analysis text, on success
    extractedText: Option<string>, // the OCR text, on success
    error: Option<string>,         // the failure message, on failure
    productName: Option<string>,   // a user label; nothing in the app sets it
    timestamp: Option<string>,     // added by the upload handler
    imageUrl: Option<string>)      // added by the upload handler
}

=== FILE: PositionalParser.dfy ===
/**
 * The positional reader of the analysis text in
 * frontend/src/components/Analysis.jsx: the verdict and the confidence come
 * from the first two lines as in the marker-based reader, the explanation is
 * lines 3 to 5, the health impact line 7 and the consumption line 9, whatever
 * those lines hold.
 */
module PositionalParser {
  import opened Opt
  import opened Strings
  import opened Payload
  import ResultParser

  /** What the component shows when it renders the response. */
  datatype Fields = Fields(verdict: string, confidence: string, explanation: string,
                           healthImpact: Option<string>, consumption: Option<string>)

  /** Null, the fixed failure message, a TypeError while extracting, or the fields. */
  datatype View = Nothing | FailureMessage(message: string) | Throws | Shows(fields: Fields)

  const FailureText := "Analysis failed. " + "Please try again " + "with a clearer image."

  /** JavaScript `lines.slice(from, to)` for `0 <= from <= to`: both ends clamp
      to the length. */
  function Slice(lines: seq<string>, from: nat, to: nat): (r: seq<string>)
    requires from <= to
    ensures |lines| <= from ==> r == []
    ensures from < |lines| ==> |r| == (if to < |lines| then to else |lines|) - from
    ensures forall i :: 0 <= i < |r| ==> r[i] == lines[from + i]
  {
    if |lines| <= from then [] else if to < |lines| then lines[from..to] else lines[from..]
  }

  /** The extraction block of Analysis.jsx:21-26. */
  function Parse(text: string): (v: View)
    ensures v.Throws? || v.Shows?
    ensures v.Throws? <==> '\n' !in text
  {
    var sections := Split(text, '\n');
    SplitCount(text, '\n');
    if |sections| < 2 then Throws
    else
      Shows(Fields(ResultParser.StripLabel(sections[0], ResultParser.VerdictLabel),
                   ResultParser.StripLabel(sections[1], ResultParser.ConfidenceLabel),
                   Join(Slice(sections, 3, 6), "\n"),
                   ResultParser.At(sections, 7),
                   ResultParser.At(sections, 9)))
  }

  /** The fields of a text of at least two lines, line by line. */
  lemma ParseLines(text: string, lines: seq<string>)
    requires lines == Split(text, '\n') && |lines| >= 2
    ensures Parse(text) == Shows(Fields(ResultParser.StripLabel(lines[0], ResultParser.VerdictLabel),
                                        ResultParser.StripLabel(lines[1], ResultParser.ConfidenceLabel),
                                        Join(Slice(lines, 3, 6), "\n"),
                                        ResultParser.At(lines, 7), ResultParser.At(lines, 9)))
  {
  }

  /** The component on its `analysisData` prop (`None` when null or
      undefined): null, then the failure message for `success == false`, then
      a TypeError when `analysis` is missing, then the extraction. */
  function Render(data: Option<Entry>): (v: View)
    ensures v.Nothing? <==> data.None?
    ensures v.FailureMessage? <==> data.Some? && !data.value.success
    ensures v.FailureMessage? ==> v.message == FailureText
    ensures v.Throws? <==>
              data.Some? && data.value.success &&
              (data.value.analysis.None? || '\n' !in data.value.analysis.value)
  {
    match data
    case None => Nothing
    case Some(e) =>
      if !e.success then FailureMessage(FailureText)
      else if e.analysis.None? then Throws
      else Parse(e.analysis.value)
  }

  /** The colour choice of Analysis.jsx:30: the exact string "Healthy". */
  predicate IsHealthy(verdict: string)
  {
    verdict == "Healthy"
  }

  /** This check is stricter than the case-insensitive one of the other two
      components: whatever it accepts they accept, but not conversely. */
  lemma StricterThanResultView(verdict: string)
    ensures IsHealthy(verdict) ==> ResultParser.IsHealthy(verdict)
    ensures ResultParser.IsHealthy("HEALTHY") && !IsHealthy("HEALTHY")
  {
    ResultParser.HealthyExamples();
  }
}

=== FILE: ResultParser.dfy ===
/**
 * The marker-based reader of the analysis text in
 * frontend/src/components/AnalysisResult.jsx. The text is split into lines;
 * the verdict and the confidence are the first two lines with their labels
 * removed, the explanation points are the lines that start with '•', and the
 * health impact and the consumption advice are the lines right after the
 * first line that mentions their marker.
 */
module ResultParser {
  import opened Opt
  import opened Strings
  import opened Payload

  /** The `analysis` prop: absent (null or undefined), a bare string, or a
      response record. */
  datatype Prop = Missing | Text(s: string) | Record(entry: Entry)

  /** What the extraction block yields when the component renders. An absent
      line (an index past the end, JavaScript `undefined`) is `None`. */
  datatype Fields = Fields(verdict: string, confidence: string, explanationPoints: seq<string>,
                           healthImpact: Option<string>, recommendedConsumption: Option<string>)

  /** The component returns null, throws a TypeError while extracting, or shows
      the extracted fields. */
  datatype View = Nothing | Throws | Shows(fields: Fields)

  const VerdictLabel := "Verdict:"
  const ConfidenceLabel := "Confidence:"
  const ImpactMarker := "Health Impact:"
  const ConsumptionMarker := "Recommended Consumption:"

  /** `line.replace(tag, '').trim()`: the first occurrence of the tag
      removed, then the result trimmed. */
  function StripLabel(line: string, tag: string): (r: string)
    ensures Trimmed(r)
    ensures !Contains(line, tag) ==> r == Trim(line)
  {
    Trim(ReplaceFirst(line, tag, ""))
  }

  /** A tag, one space and a stripped value give the value back. */
  lemma StripLabelled(tag: string, v: string)
    requires tag != [] && Trimmed(v)
    ensures StripLabel(tag + " " + v, tag) == v
  {
    var line := tag + " " + v;
    assert line == tag + (" " + v);
    StartsWithAppend(tag, " " + v);
    StartsWithContains(line, tag);
    assert ReplaceFirst(line, tag, "") == " " + v;
    TrimPadded(v);
  }

  /** Every line trimmed: the `map` of the extraction, applied first. */
  function TrimAll(lines: seq<string>): (ts: seq<string>)
    ensures |ts| == |lines|
    ensures forall i :: 0 <= i < |ts| ==> ts[i] == Trim(lines[i])
  {
    seq(|lines|, i requires 0 <= i < |lines| => Trim(lines[i]))
  }

  /** The trimmed lines that start with '•', in order. */
  function Pick(trimmed: seq<string>): (ps: seq<string>)
    ensures |ps| <= |trimmed|
    ensures forall i :: 0 <= i < |ps| ==> StartsWith(ps[i], "•") && ps[i] in trimmed
  {
    if trimmed == [] then []
    else (if StartsWith(trimmed[0], "•") then [trimmed[0]] else []) + Pick(trimmed[1..])
  }

  /** `filter(line => line.trim().startsWith('•')).map(point => point.trim())`,
      written as the equal trim-then-filter. */
  function Bullets(lines: seq<string>): (ps: seq<string>)
    ensures |ps| <= |lines|
    ensures forall i :: 0 <= i < |ps| ==> StartsWith(ps[i], "•") && Trimmed(ps[i])
  {
    var ts := TrimAll(lines);
    assert forall t :: t in ts ==> Trimmed(t);
    Pick(ts)
  }

  /** The points are exactly the trimmed lines that start with '•'. */
  lemma BulletsMembers(lines: seq<string>, p: string)
    ensures p in Bullets(lines) <==> exists l :: l in lines && StartsWith(Trim(l), "•") && Trim(l) == p
  {
    var ts := TrimAll(lines);
    PickMembers(ts, p);
    if p in Bullets(lines) {
      var i :| 0 <= i < |ts| && ts[i] == p;
      assert lines[i] in lines;
    }
    if exists l :: l in lines && StartsWith(Trim(l), "•") && Trim(l) == p {
      var l :| l in lines && StartsWith(Trim(l), "•") && Trim(l) == p;
      var i :| 0 <= i < |lines| && lines[i] == l;
      assert ts[i] == p;
    }
  }

  lemma {:induction false} PickMembers(ts: seq<string>, p: string)
    ensures p in Pick(ts) <==> p in ts && StartsWith(p, "•")
  {
    if ts != [] {
      PickMembers(ts[1..], p);
      assert p in ts <==> p == ts[0] || p in ts[1..];
    }
  }

  /** Filtering distributes over concatenation, so the points keep the order
      of their lines. */
  lemma BulletsAppend(a: seq<string>, b: seq<string>)
    ensures Bullets(a + b) == Bullets(a) + Bullets(b)
  {
    assert TrimAll(a + b) == TrimAll(a) + TrimAll(b);
    PickAppend(TrimAll(a), TrimAll(b));
  }

  lemma {:induction false} PickAppend(a: seq<string>, b: seq<string>)
    ensures Pick(a + b) == Pick(a) + Pick(b)
  {
    if a == [] {
      assert a + b == b;
    } else {
      PickAppend(a[1..], b);
      assert (a + b)[1..] == a[1..] + b;
      var head := if StartsWith(a[0], "•") then [a[0]] else [];
      assert Pick(a + b) == head + Pick(a[1..] + b);
      assert head + (Pick(a[1..]) + Pick(b)) == (head + Pick(a[1..])) + Pick(b);
    }
  }

  /** Lines that are already stripped bullets are kept as they are. */
  lemma AllBullets(lines: seq<string>)
    requires forall i :: 0 <= i < |lines| ==> StartsWith(lines[i], "•") && Trimmed(lines[i])
    ensures Bullets(lines) == lines
  {
    forall i | 0 <= i < |lines| { TrimTrimmed(lines[i]); }
    assert TrimAll(lines) == lines;
    PickAll(lines);
  }

  lemma {:induction false} PickAll(ts: seq<string>)
    requires forall i :: 0 <= i < |ts| ==> StartsWith(ts[i], "•")
    ensures Pick(ts) == ts
  {
    if ts != [] {
      PickAll(ts[1..]);
    }
  }

  /** Lines whose trimmed form does not start with '•' contribute nothing. */
  lemma NoBullets(lines: seq<string>)
    requires forall i :: 0 <= i < |lines| ==> !StartsWith(Trim(lines[i]), "•")
    ensures Bullets(lines) == []
  {
    PickNone(TrimAll(lines));
  }

  lemma {:induction false} PickNone(ts: seq<string>)
    requires forall i :: 0 <= i < |ts| ==> !StartsWith(ts[i], "•")
    ensures Pick(ts) == []
  {
    if ts != [] {
      PickNone(ts[1..]);
    }
  }

  /** Points framed by lines that are not points are exactly the middle. */
  lemma BulletsBetween(head: seq<string>, mid: seq<string>, tail: seq<string>)
    requires forall i :: 0 <= i < |head| ==> !StartsWith(Trim(head[i]), "•")
    requires forall i :: 0 <= i < |mid| ==> StartsWith(mid[i], "•") && Trimmed(mid[i])
    requires forall i :: 0 <= i < |tail| ==> !StartsWith(Trim(tail[i]), "•")
    ensures Bullets(head + mid + tail) == mid
  {
    NoBullets(head);
    AllBullets(mid);
    NoBullets(tail);
    BulletsAppend(head, mid);
    BulletsAppend(head + mid, tail);
  }

  /** `findIndex(line => line.includes(marker))`, searching from `from` on. */
  function FindFrom(lines: seq<string>, marker: string, from: nat): (k: int)
    requires from <= |lines|
    ensures k == -1 || from <= k < |lines|
    ensures k >= 0 ==> Contains(lines[k], marker)
    ensures k >= 0 ==> forall j :: from <= j < k ==> !Contains(lines[j], marker)
    ensures k == -1 ==> forall j :: from <= j < |lines| ==> !Contains(lines[j], marker)
    decreases |lines| - from
  {
    if from == |lines| then -1
    else if Contains(lines[from], marker) then from
    else FindFrom(lines, marker, from + 1)
  }

  function FindLine(lines: seq<string>, marker: string): (k: int)
    ensures k == -1 || 0 <= k < |lines|
    ensures k >= 0 ==> Contains(lines[k], marker) && forall j :: 0 <= j < k ==> !Contains(lines[j], marker)
    ensures k == -1 <==> forall j :: 0 <= j < |lines| ==> !Contains(lines[j], marker)
  {
    FindFrom(lines, marker, 0)
  }

  /** JavaScript `lines[i]`: `undefined` past the end. */
  function At(lines: seq<string>, i: int): (r: Option<string>)
    ensures r.Some? <==> 0 <= i < |lines|
  {
    if 0 <= i < |lines| then Some(lines[i]) else None
  }

  /** `index !== -1 ? lines[index + 1] : ''` for the first line mentioning the marker. */
  function LineAfter(lines: seq<string>, marker: string): (r: Option<string>)
    ensures FindLine(lines, marker) == -1 ==> r == Some("")
    ensures FindLine(lines, marker) >= 0 ==> r == At(lines, FindLine(lines, marker) + 1)
  {
    var k := FindLine(lines, marker);
    if k != -1 then At(lines, k + 1) else Some("")
  }

  /** The extraction block of AnalysisResult.jsx:24-40 on a non-empty text. */
  function Parse(text: string): (v: View)
    ensures v != Nothing
    ensures v.Throws? <==> '\n' !in text
  {
    var sections := Split(text, '\n');
    SplitCount(text, '\n');
    if |sections| < 2 then Throws
    else
      Shows(Fields(StripLabel(sections[0], VerdictLabel),
                   StripLabel(sections[1], ConfidenceLabel),
                   Bullets(sections),
                   LineAfter(sections, ImpactMarker),
                   LineAfter(sections, ConsumptionMarker)))
  }

  /** The fields of a text of at least two lines, line by line. */
  lemma ParseLines(text: string, lines: seq<string>)
    requires lines == Split(text, '\n') && |lines| >= 2
    ensures Parse(text) == Shows(Fields(StripLabel(lines[0], VerdictLabel), StripLabel(lines[1], ConfidenceLabel),
                                        Bullets(lines), LineAfter(lines, ImpactMarker),
                                        LineAfter(lines, ConsumptionMarker)))
  {
  }

  /** A text whose first line is a verdict line shows that verdict. */
  lemma VerdictLine(text: string, verdict: string, rest: string)
    requires Trimmed(verdict) && '\n' !in verdict
    requires text == VerdictLabel + " " + verdict + "\n" + rest
    ensures Parse(text).Shows? && Parse(text).fields.verdict == verdict
  {
    var first := VerdictLabel + " " + verdict;
    assert '\n' !in first by {
      assert '\n' !in VerdictLabel;
    }
    assert text == first + ['\n'] + rest;
    SplitFirstLine(first, rest, '\n');
    ParseLines(text, Split(text, '\n'));
    StripLabelled(VerdictLabel, verdict);
  }

  /** `analysis.analysis` when both it and `analysis` are truthy: only a
      record carries the field, and only a non-empty string is truthy. */
  function InnerText(p: Prop): (t: Option<string>)
    ensures t.Some? <==> p.Record? && p.entry.analysis.Some? && p.entry.analysis.value != []
  {
    match p
    case Record(e) => if e.analysis.Some? && e.analysis.value != [] then e.analysis else None
    case _ => None
  }

  /** The component: null for a falsy prop or text, a TypeError for a
      one-line text, the fields otherwise. */
  function Render(p: Prop): (v: View)
    ensures v.Nothing? <==> InnerText(p).None?
    ensures v.Throws? <==> InnerText(p).Some? && '\n' !in InnerText(p).value
    ensures v.Shows? ==> v == Parse(InnerText(p).value)
  {
    match InnerText(p)
    case None => Nothing
    case Some(t) => Parse(t)
  }

  /** The colour and icon choice of AnalysisResult.jsx:47 and 58. */
  predicate IsHealthy(verdict: string)
  {
    ToLower(verdict) == "healthy"
  }

  /** The check ignores case but nothing else. */
  lemma HealthyExamples()
    ensures IsHealthy("healthy") && IsHealthy("Healthy") && IsHealthy("HEALTHY")
    ensures !IsHealthy("Unhealthy") && !IsHealthy(" healthy") && !IsHealthy("")
  {
    assert ToLower("Healthy") == "healthy";
    assert ToLower("HEALTHY") == "healthy";
    assert ToLower("healthy") == "healthy";
    assert |ToLower("Unhealthy")| == 9;
    assert |ToLower(" healthy")| == 8;
  }

  /** For every verdict: it counts as healthy exactly when it spells
      "healthy" with each letter in either case. */
  lemma HealthyLetters(verdict: string)
    ensures IsHealthy(verdict) <==>
              |verdict| == 7 && forall i :: 0 <= i < 7 ==> verdict[i] == "healthy"[i] || verdict[i] == "HEALTHY"[i]
  {
    var low, up := "healthy", "HEALTHY";
    if |verdict| == 7 {
      var l := ToLower(verdict);
      forall i | 0 <= i < 7
        ensures l[i] == low[i] <==> verdict[i] == low[i] || verdict[i] == up[i]
      {
        assert low[i] as int == up[i] as int + 32;
      }
      if forall i :: 0 <= i < 7 ==> verdict[i] == low[i] || verdict[i] == up[i] {
        assert l == low;
      }
    }
  }
}

=== FILE: RoundTrip.dfy ===
/**
 * What the two frontend readers make of the texts the backend produces: the
 * ten-line layout of a successful analysis, and the two eight-line fallback
 * texts. The producer is AnalysisText, the readers ResultParser
 * (frontend/src/components/AnalysisResult.jsx) and PositionalParser
 * (frontend/src/components/Analysis.jsx).
 */
module RoundTrip {
  import opened Opt
  import opened Strings
  import opened AnalysisText
  import ResultParser
  import PositionalParser

  /** An explanation line the marker-based reader gets back unchanged: a
      stripped single line that starts with '•' and mentions neither marker. */
  predicate PointLine(p: string)
  {
    StartsWith(p, "•") && Trimmed(p) && '\n' !in p &&
    !Contains(p, ImpactMarker) && !Contains(p, ConsumptionMarker)
  }

  /** An impact or consumption line that is not mistaken for a point. */
  predicate ClosingLine(s: string)
  {
    '\n' !in s && !StartsWith(Trim(s), "•")
  }

  /** A template line: a non-empty stripped line that does not start with
      '•' and holds neither the 'I' of "Health Impact:" nor the 'R' of
      "Recommended Consumption:". Stated by characters so that the facts
      about the concrete template lines stay cheap to check. */
  predicate Plain(l: string)
  {
    l != [] && Trimmed(l) && l[0] != '•' && 'I' !in l && 'R' !in l
  }

  /** A stripped line whose first character is not '•' is not a point. */
  lemma NotPoint(s: string)
    requires s != [] && Trimmed(s) && s[0] != '•'
    ensures !StartsWith(Trim(s), "•")
  {
    TrimTrimmed(s);
    StartsWithOne(s, '•');
  }

  lemma VerdictPlain(top: Classification)
    ensures Plain(VerdictLine(top))
  {
    var t := top.verdict.Title();
    TrimmedConcat("Verdict: ", t);
    assert 'I' !in t && 'R' !in t;
  }

  lemma ConfidencePlain(top: Classification)
    ensures Plain(ConfidenceLine(top))
  {
    var p := PercentText(top.percent);
    TrimmedConcat("Confidence: ", p);
    assert 'I' !in p && 'R' !in p;
  }

  /** The verdict and confidence lines, "Explanation:" and the impact marker
      line are plain; the consumption marker line is stripped and starts with
      'R'. */
  lemma TemplatePlain(top: Classification)
    ensures Plain(VerdictLine(top)) && Plain(ConfidenceLine(top)) && Plain("Explanation:")
    ensures ImpactMarker != [] && Trimmed(ImpactMarker) && ImpactMarker[0] != '•' && 'R' !in ImpactMarker
    ensures ConsumptionMarker != [] && Trimmed(ConsumptionMarker) && ConsumptionMarker[0] == 'R'
  {
    VerdictPlain(top);
    ConfidencePlain(top);
  }

  /** The template part of a ten-line layout, by characters: three plain
      lines above the explanation, and two marker lines, the first holding an
      'I' but no 'R' and the second an 'R', neither starting with '•'. */
  predicate Frame(head: seq<string>, m1: string, m2: string)
  {
    && |head| == 3 && (forall i :: 0 <= i < 3 ==> Plain(head[i]))
    && 'I' in m1 && 'R' !in m1 && 'R' in m2
    && m1 != [] && Trimmed(m1) && m1[0] != '•' && m2 != [] && Trimmed(m2) && m2[0] != '•'
  }

  /** The points of a ten-line layout with such a frame are its three
      middle lines. */
  lemma {:induction false} TenBullets(head: seq<string>, three: seq<string>, m1: string, impact: string,
                                      m2: string, consumption: string)
    requires Frame(head, m1, m2)
    requires forall i :: 0 <= i < |three| ==> StartsWith(three[i], "•") && Trimmed(three[i])
    requires !StartsWith(Trim(impact), "•") && !StartsWith(Trim(consumption), "•")
    ensures ResultParser.Bullets(head + three + [m1, impact, m2, consumption]) == three
  {
    var tail := [m1, impact, m2, consumption];
    forall i | 0 <= i < 3 ensures !StartsWith(Trim(head[i]), "•") { NotPoint(head[i]); }
    NotPoint(m1);
    NotPoint(m2);
    ResultParser.BulletsBetween(head, three, tail);
  }

  /** In a ten-line layout with such a frame, the first line that mentions
      `m1` is line 6 and the first that mentions `m2` is line 8, when the
      explanation lines mention neither and the impact line not `m2`. */
  lemma {:induction false} TenMarkers(head: seq<string>, three: seq<string>, m1: string, impact: string,
                                      m2: string, consumption: string)
    requires Frame(head, m1, m2) && |three| == 3
    requires forall i :: 0 <= i < 3 ==> !Contains(three[i], m1) && !Contains(three[i], m2)
    requires !Contains(impact, m2)
    ensures ResultParser.LineAfter(head + three + [m1, impact, m2, consumption], m1) == Some(impact)
    ensures ResultParser.LineAfter(head + three + [m1, impact, m2, consumption], m2) == Some(consumption)
  {
    var lines := head + three + [m1, impact, m2, consumption];
    forall i | 0 <= i < 3 ensures !Contains(head[i], m1) && !Contains(head[i], m2) {
      MissingCharBlocks(head[i], m1, 'I');
      MissingCharBlocks(head[i], m2, 'R');
    }
    MissingCharBlocks(m1, m2, 'R');
    assert StartsWith(m1, m1) && StartsWith(m2, m2);
    StartsWithContains(m1, m1);
    StartsWithContains(m2, m2);
    assert lines[6] == m1 && lines[7] == impact && lines[8] == m2 && lines[9] == consumption;
    assert forall j :: 0 <= j < 6 ==> !Contains(lines[j], m1);
    assert ResultParser.FindLine(lines, m1) == 6;
    assert forall j :: 0 <= j < 8 ==> !Contains(lines[j], m2);
    assert ResultParser.FindLine(lines, m2) == 8;
  }

  /** The two readers' markers are the producer's, and the facts about
      them the readers' searches depend on. */
  lemma MarkerFacts()
    ensures ResultParser.ImpactMarker == ImpactMarker && ResultParser.ConsumptionMarker == ConsumptionMarker
    ensures 'I' in ImpactMarker && 'R' !in ImpactMarker && 'R' in ConsumptionMarker
    ensures ImpactMarker != [] && Trimmed(ImpactMarker) && ImpactMarker[0] != '•'
    ensures ConsumptionMarker != [] && Trimmed(ConsumptionMarker) && ConsumptionMarker[0] != '•'
  {
    assert ImpactMarker[7] == 'I' && ConsumptionMarker[0] == 'R';
  }

  /** The first two template lines are a label, a space and a stripped value. */
  predicate Labelled(head: seq<string>, verdict: string, percent: string)
  {
    && |head| == 3
    && head[0] == ResultParser.VerdictLabel + " " + verdict && Trimmed(verdict)
    && head[1] == ResultParser.ConfidenceLabel + " " + percent && Trimmed(percent)
  }

  /** The producer's template lines meet both. */
  lemma LayoutTemplate(top: Classification)
    ensures Frame([VerdictLine(top), ConfidenceLine(top), "Explanation:"], ImpactMarker, ConsumptionMarker)
    ensures Labelled([VerdictLine(top), ConfidenceLine(top), "Explanation:"], top.verdict.Title(), PercentText(top.percent))
  {
    TemplatePlain(top);
    MarkerFacts();
  }

  lemma TemplateLabels(head: seq<string>, verdict: string, percent: string)
    requires Labelled(head, verdict, percent)
    ensures ResultParser.StripLabel(head[0], ResultParser.VerdictLabel) == verdict
    ensures ResultParser.StripLabel(head[1], ResultParser.ConfidenceLabel) == percent
  {
    ResultParser.StripLabelled(ResultParser.VerdictLabel, verdict);
    ResultParser.StripLabelled(ResultParser.ConfidenceLabel, percent);
  }

  /** The marker-based reader on the ten lines, stated over the lines alone. */
  lemma {:induction false} ReadTen(text: string, head: seq<string>, three: seq<string>, m1: string, impact: string,
                                   m2: string, consumption: string, verdict: string, percent: string)
    requires Split(text, '\n') == head + three + [m1, impact, m2, consumption]
    requires Frame(head, m1, m2) && Labelled(head, verdict, percent)
    requires m1 == ResultParser.ImpactMarker && m2 == ResultParser.ConsumptionMarker
    requires |three| == 3 && forall i :: 0 <= i < 3 ==> StartsWith(three[i], "•") && Trimmed(three[i])
    requires forall i :: 0 <= i < 3 ==> !Contains(three[i], m1) && !Contains(three[i], m2)
    requires !StartsWith(Trim(impact), "•") && !StartsWith(Trim(consumption), "•") && !Contains(impact, m2)
    ensures ResultParser.Parse(text)
         == ResultParser.Shows(ResultParser.Fields(verdict, percent, three, Some(impact), Some(consumption)))
  {
    var lines := Split(text, '\n');
    assert lines[0] == head[0] && lines[1] == head[1];
    ResultParser.ParseLines(text, lines);
    TenBullets(head, three, m1, impact, m2, consumption);
    TenMarkers(head, three, m1, impact, m2, consumption);
    TemplateLabels(head, verdict, percent);
  }

  /** The marker-based reader on a text whose lines are a ten-line layout:
      the verdict's title, the percentage, the three explanation lines as
      points, and the impact and consumption lines, provided the explanation
      lines are points that mention no marker, the impact and consumption
      lines are not points, and the impact line does not mention the
      consumption marker. */
  lemma ReadLayout(text: string, top: Classification, three: seq<string>, impact: string, consumption: string)
    requires Split(text, '\n') == LayoutLines(top, three, impact, consumption)
    requires |three| == 3 && forall i :: 0 <= i < 3 ==> PointLine(three[i])
    requires ClosingLine(impact) && ClosingLine(consumption) && !Contains(impact, ConsumptionMarker)
    ensures ResultParser.Parse(text)
         == ResultParser.Shows(ResultParser.Fields(top.verdict.Title(), PercentText(top.percent), three,
                                                   Some(impact), Some(consumption)))
  {
    var head := [VerdictLine(top), ConfidenceLine(top), "Explanation:"];
    LayoutTemplate(top);
    MarkerFacts();
    assert LayoutLines(top, three, impact, consumption) == head + three + [ImpactMarker, impact, ConsumptionMarker, consumption];
    ReadTen(text, head, three, ImpactMarker, impact, ConsumptionMarker, consumption,
            top.verdict.Title(), PercentText(top.percent));
  }

  /** The positional reader on the ten lines: whatever lines 3 to 5, 7 and 9
      hold. */
  lemma {:induction false} PositionalTen(text: string, head: seq<string>, three: seq<string>, m1: string,
                                         impact: string, m2: string, consumption: string,
                                         verdict: string, percent: string)
    requires Split(text, '\n') == head + three + [m1, impact, m2, consumption]
    requires Labelled(head, verdict, percent) && |three| == 3
    ensures PositionalParser.Parse(text)
         == PositionalParser.Shows(PositionalParser.Fields(verdict, percent, Join(three, "\n"),
                                                           Some(impact), Some(consumption)))
  {
    var lines := Split(text, '\n');
    assert lines[0] == head[0] && lines[1] == head[1];
    assert PositionalParser.Slice(lines, 3, 6) == three;
    assert lines[7] == impact && lines[9] == consumption;
    PositionalParser.ParseLines(text, lines);
    TemplateLabels(head, verdict, percent);
  }

  /** The positional reader on a ten-line layout gets back the verdict's
      title, the percentage, the explanation lines joined, the impact and the
      consumption, whatever those lines hold. */
  lemma PositionalLayout(text: string, top: Classification, three: seq<string>, impact: string, consumption: string)
    requires Split(text, '\n') == LayoutLines(top, three, impact, consumption) && |three| == 3
    ensures PositionalParser.Parse(text)
         == PositionalParser.Shows(PositionalParser.Fields(top.verdict.Title(), PercentText(top.percent),
                                                           Join(three, "\n"), Some(impact), Some(consumption)))
  {
    var head := [VerdictLine(top), ConfidenceLine(top), "Explanation:"];
    LayoutTemplate(top);
    assert LayoutLines(top, three, impact, consumption) == head + three + [ImpactMarker, impact, ConsumptionMarker, consumption];
    PositionalTen(text, head, three, ImpactMarker, impact, ConsumptionMarker, consumption,
                  top.verdict.Title(), PercentText(top.percent));
  }

  /** On a layout both readers can read back, they agree: the same verdict,
      confidence, impact and consumption, and the positional explanation is
      the marker-based reader's points joined by line breaks. */
  lemma ReadersAgree(text: string, top: Classification, three: seq<string>, impact: string, consumption: string)
    requires Split(text, '\n') == LayoutLines(top, three, impact, consumption)
    requires |three| == 3 && forall i :: 0 <= i < 3 ==> PointLine(three[i])
    requires ClosingLine(impact) && ClosingLine(consumption) && !Contains(impact, ConsumptionMarker)
    ensures ResultParser.Parse(text).Shows? && PositionalParser.Parse(text).Shows?
    ensures var r, p := ResultParser.Parse(text).fields, PositionalParser.Parse(text).fields;
      && r.verdict == p.verdict && r.confidence == p.confidence
      && Join(r.explanationPoints, "\n") == p.explanation
      && r.healthImpact == p.healthImpact && r.recommendedConsumption == p.consumption
  {
    ReadLayout(text, top, three, impact, consumption);
    PositionalLayout(text, top, three, impact, consumption);
  }

  /** A text starting with "• " starts with '•'. */
  lemma BulletStart(p: string)
    requires StartsWith(p, "• ")
    ensures StartsWith(p, "•")
  {
    assert p[0] == "• "[0] == '•';
    StartsWithOne(p, '•');
  }

  /** The analysis text of a successful attempt, read by the marker-based
      reader: the final verdict's title and percentage, the three explanation
      lines, the impact and the consumption. This needs what the model
      replied not to get in the way: no explanation line mentioning a
      marker, impact and consumption lines that are not points, and an
      impact line that does not mention the consumption marker. */
  lemma SuccessRead(first: Classification, generated: string, reply: Option<string>, final: Option<Classification>)
    requires var three := ExplanationLines(first.verdict, generated);
      forall i :: 0 <= i < 3 ==> !Contains(three[i], ImpactMarker) && !Contains(three[i], ConsumptionMarker)
    requires var c := ConclusionOf(first, reply, final);
      !StartsWith(Trim(c.impact), "•") && !StartsWith(Trim(c.consumption), "•") &&
      !Contains(c.impact, ConsumptionMarker)
    ensures var c, three := ConclusionOf(first, reply, final), ExplanationLines(first.verdict, generated);
      ResultParser.Parse(SuccessText(first, generated, reply, final))
        == ResultParser.Shows(ResultParser.Fields(c.classification.verdict.Title(),
                                                  PercentText(c.classification.percent),
                                                  three, Some(c.impact), Some(c.consumption)))
  {
    var c, three := ConclusionOf(first, reply, final), ExplanationLines(first.verdict, generated);
    SuccessShape(first, generated, reply, final);
    ExplanationShape(first.verdict, generated);
    forall i | 0 <= i < 3 ensures PointLine(three[i]) {
      BulletStart(three[i]);
    }
    ReadLayout(SuccessText(first, generated, reply, final), c.classification, three, c.impact, c.consumption);
  }

  /** The same text read by the positional reader, with no condition. */
  lemma SuccessPositional(first: Classification, generated: string, reply: Option<string>,
                          final: Option<Classification>)
    ensures var c, three := ConclusionOf(first, reply, final), ExplanationLines(first.verdict, generated);
      PositionalParser.Parse(SuccessText(first, generated, reply, final))
        == PositionalParser.Shows(PositionalParser.Fields(c.classification.verdict.Title(),
                                                          PercentText(c.classification.percent),
                                                          Join(three, "\n"), Some(c.impact), Some(c.consumption)))
  {
    var c, three := ConclusionOf(first, reply, final), ExplanationLines(first.verdict, generated);
    SuccessShape(first, generated, reply, final);
    PositionalLayout(SuccessText(first, generated, reply, final), c.classification, three, c.impact, c.consumption);
  }

  // ------------------------------------------------------------ fallbacks

  /** The eight lines of a fallback text, by characters: three plain lines,
      three points without an 'I' or an 'R', a line starting with the impact
      marker and holding no 'R', and a line starting with the consumption
      marker, all stripped single lines. */
  predicate FallbackFrame(lines: seq<string>, m1: string, m2: string)
  {
    && |lines| == 8
    && (forall i :: 0 <= i < 8 ==> '\n' !in lines[i])
    && (forall i :: 0 <= i < 3 ==> Plain(lines[i]))
    && (forall i :: 3 <= i < 6 ==> PlainPoint(lines[i]))
    && StartsWith(lines[6], m1) && 'R' !in lines[6] && Trimmed(lines[6])
    && StartsWith(lines[7], m2) && Trimmed(lines[7])
    && 'I' in m1 && 'R' in m2 && m1 != [] && m1[0] != '•' && m2 != [] && m2[0] != '•'
  }

  /** A fallback explanation line. */
  predicate PlainPoint(p: string)
  {
    p != [] && p[0] == '•' && Trimmed(p) && Clear(p)
  }

  /** No line break, no 'I' and no 'R', in one pass over the characters. */
  predicate Clear(s: string)
  {
    forall i :: 0 <= i < |s| ==> s[i] != 'I' && s[i] != 'R' && s[i] != '\n'
  }

  lemma ClearConcat(a: string, b: string)
    requires Clear(a) && Clear(b)
    ensures Clear(a + b) && '\n' !in a + b && 'I' !in a + b && 'R' !in a + b
  {
  }

  lemma PointPieces(a: string, b: string)
    requires a != [] && b != [] && a[0] == '•' && Solid(b[|b| - 1]) && Clear(a) && Clear(b)
    ensures PlainPoint(a + b)
  {
    TrimmedConcat(a, b);
    ClearConcat(a, b);
  }

  lemma UnablePoint0() ensures PlainPoint("• Could not process " + "the ingredients")
  { PointPieces("• Could not process ", "the ingredients"); }

  lemma UnablePoint1() ensures PlainPoint("• Please try with " + "a clearer image")
  { PointPieces("• Please try with ", "a clearer image"); }

  lemma UnablePoint2() ensures PlainPoint("• Ensure text " + "is readable")
  { PointPieces("• Ensure text ", "is readable"); }

  lemma FailedPoint0() ensures PlainPoint("• Analysis " + "unavailable")
  { PointPieces("• Analysis ", "unavailable"); }

  lemma FailedPoint1() ensures PlainPoint("• Please try again " + "with clearer text")
  { PointPieces("• Please try again ", "with clearer text"); }

  lemma FailedPoint2() ensures PlainPoint("• Make sure " + "ingredients are visible")
  { PointPieces("• Make sure ", "ingredients are visible"); }

  lemma UnablePointsPlain()
    ensures forall i :: 0 <= i < 3 ==> PlainPoint(UnablePoints[i])
  {
    UnablePoint0();
    UnablePoint1();
    UnablePoint2();
  }

  lemma FailedPointsPlain()
    ensures forall i :: 0 <= i < 3 ==> PlainPoint(FailedPoints[i])
  {
    FailedPoint0();
    FailedPoint1();
    FailedPoint2();
  }

  lemma ImpactClosing()
    ensures StartsWith(FallbackClosing[0], ImpactMarker) && Trimmed(FallbackClosing[0])
    ensures '\n' !in FallbackClosing[0] && 'R' !in FallbackClosing[0]
  {
    MarkerFacts();
    assert 'R' !in " Unable to determine" && '\n' !in " Unable to determine" && '\n' !in ImpactMarker;
    StartsWithAppend(ImpactMarker, " Unable to determine");
    TrimmedConcat(ImpactMarker, " Unable to determine");
  }

  lemma ConsumptionClosing()
    ensures StartsWith(FallbackClosing[1], ConsumptionMarker) && Trimmed(FallbackClosing[1])
    ensures '\n' !in FallbackClosing[1]
  {
    var rest := " Consult with " + "healthcare provider";
    assert FallbackClosing[1] == ConsumptionMarker + rest;
    assert '\n' !in ConsumptionMarker && '\n' !in rest;
    StartsWithAppend(ConsumptionMarker, rest);
    MarkerFacts();
    TrimmedConcat(ConsumptionMarker, rest);
  }

  lemma FallbackHeadPlain(verdict: string)
    requires verdict != [] && Trimmed(verdict) && Clear(verdict)
    ensures forall i :: 0 <= i < 3 ==> Plain(FallbackHead(verdict)[i]) && '\n' !in FallbackHead(verdict)[i]
    ensures Labelled(FallbackHead(verdict), verdict, "N/A")
  {
    assert Clear("Verdict: ") && Clear("Confidence: N/A") && Clear("Explanation:");
    ClearConcat("Verdict: ", verdict);
    TrimmedConcat("Verdict: ", verdict);
    assert FallbackHead(verdict)[0] == ResultParser.VerdictLabel + " " + verdict;
    assert FallbackHead(verdict)[1] == ResultParser.ConfidenceLabel + " " + "N/A";
  }

  lemma FallbackLines(verdict: string, points: seq<string>)
    requires verdict != [] && Trimmed(verdict) && Clear(verdict)
    requires |points| == 3 && forall i :: 0 <= i < 3 ==> PlainPoint(points[i])
    ensures FallbackFrame(FallbackHead(verdict) + points + FallbackClosing, ImpactMarker, ConsumptionMarker)
    ensures Labelled(FallbackHead(verdict), verdict, "N/A")
  {
    MarkerFacts();
    FallbackHeadPlain(verdict);
    ImpactClosing();
    ConsumptionClosing();
    var lines := FallbackHead(verdict) + points + FallbackClosing;
    assert lines[6] == FallbackClosing[0] && lines[7] == FallbackClosing[1];
    forall i | 0 <= i < 8 ensures '\n' !in lines[i] {
      if 3 <= i < 6 { assert lines[i] == points[i - 3]; }
    }
  }

  lemma {:induction false} EightBullets(lines: seq<string>, m1: string, m2: string)
    requires FallbackFrame(lines, m1, m2)
    ensures ResultParser.Bullets(lines) == lines[3..6]
  {
    assert lines == lines[..3] + lines[3..6] + lines[6..];
    forall i | 0 <= i < 8 && i != 3 && i != 4 && i != 5 ensures !StartsWith(Trim(lines[i]), "•") {
      NotPoint(lines[i]);
    }
    forall i | 0 <= i < 3 ensures StartsWith(lines[3..6][i], "•") && Trimmed(lines[3..6][i]) {
      StartsWithOne(lines[3 + i], '•');
    }
    ResultParser.BulletsBetween(lines[..3], lines[3..6], lines[6..]);
  }

  lemma {:induction false} EightMarkers(lines: seq<string>, k1: string, k2: string)
    requires FallbackFrame(lines, k1, k2)
    ensures ResultParser.LineAfter(lines, k1) == Some(lines[7])
    ensures ResultParser.LineAfter(lines, k2) == None
  {
    forall i | 0 <= i < 6 ensures !Contains(lines[i], k1) {
      MissingCharBlocks(lines[i], k1, 'I');
    }
    forall i | 0 <= i < 7 ensures !Contains(lines[i], k2) {
      MissingCharBlocks(lines[i], k2, 'R');
    }
    StartsWithContains(lines[6], k1);
    StartsWithContains(lines[7], k2);
    assert ResultParser.FindLine(lines, k1) == 6;
    assert ResultParser.FindLine(lines, k2) == 7;
  }

  /** The marker-based reader on the eight lines of a fallback text: the
      verdict, the confidence, the three points, the consumption line as the
      line after the impact marker, and nothing (`undefined`) after the
      consumption marker, which is the last line. */
  lemma EightRead(text: string, lines: seq<string>, verdict: string, percent: string)
    requires Split(text, '\n') == lines
    requires FallbackFrame(lines, ResultParser.ImpactMarker, ResultParser.ConsumptionMarker)
    requires Labelled(lines[..3], verdict, percent)
    ensures ResultParser.Parse(text)
         == ResultParser.Shows(ResultParser.Fields(verdict, percent, lines[3..6], Some(lines[7]), None))
  {
    ResultParser.ParseLines(text, lines);
    TemplateLabels(lines[..3], verdict, percent);
    EightBullets(lines, ResultParser.ImpactMarker, ResultParser.ConsumptionMarker);
    EightMarkers(lines, ResultParser.ImpactMarker, ResultParser.ConsumptionMarker);
  }

  /** The positional reader on the same eight lines: lines 3 to 5 joined,
      the consumption line as the health impact, and no consumption. */
  lemma {:induction false} EightPositional(text: string, lines: seq<string>, verdict: string, percent: string)
    requires Split(text, '\n') == lines && |lines| == 8 && Labelled(lines[..3], verdict, percent)
    ensures PositionalParser.Parse(text)
         == PositionalParser.Shows(PositionalParser.Fields(verdict, percent, Join(lines[3..6], "\n"),
                                                           Some(lines[7]), None))
  {
    PositionalParser.ParseLines(text, lines);
    TemplateLabels(lines[..3], verdict, percent);
    assert PositionalParser.Slice(lines, 3, 6) == lines[3..6];
  }

  /** The "Unable to analyze" text, read by both components. */
  lemma UnableRead()
    ensures ResultParser.Parse(UnableText())
         == ResultParser.Shows(ResultParser.Fields("Unable to analyze", "N/A", UnablePoints,
                                                   Some(FallbackClosing[1]), None))
    ensures PositionalParser.Parse(UnableText())
         == PositionalParser.Shows(PositionalParser.Fields("Unable to analyze", "N/A", Join(UnablePoints, "\n"),
                                                           Some(FallbackClosing[1]), None))
  {
    UnablePointsPlain();
    assert Clear("Unable to analyze");
    FallbackLines("Unable to analyze", UnablePoints);
    SplitJoin(UnableLines, '\n');
    MarkerFacts();
    assert UnableLines[..3] == FallbackHead("Unable to analyze") && UnableLines[3..6] == UnablePoints;
    EightRead(UnableText(), UnableLines, "Unable to analyze", "N/A");
    EightPositional(UnableText(), UnableLines, "Unable to analyze", "N/A");
  }

  /** The "Analysis failed" text, read by both components. */
  lemma FailedRead()
    ensures ResultParser.Parse(FailedText())
         == ResultParser.Shows(ResultParser.Fields("Analysis failed", "N/A", FailedPoints,
                                                   Some(FallbackClosing[1]), None))
    ensures PositionalParser.Parse(FailedText())
         == PositionalParser.Shows(PositionalParser.Fields("Analysis failed", "N/A", Join(FailedPoints, "\n"),
                                                           Some(FallbackClosing[1]), None))
  {
    FailedPointsPlain();
    assert Clear("Analysis failed");
    FallbackLines("Analysis failed", FailedPoints);
    SplitJoin(FailedLines, '\n');
    MarkerFacts();
    assert FailedLines[..3] == FallbackHead("Analysis failed") && FailedLines[3..6] == FailedPoints;
    EightRead(FailedText(), FailedLines, "Analysis failed", "N/A");
    EightPositional(FailedText(), FailedLines, "Analysis failed", "N/A");
  }

  /** Whatever the three attempts answered, both components show the text
      the retry loop returns: it never makes them throw. */
  lemma OutcomeReadable(attempts: seq<Attempt>)
    requires |attempts| == MaxAttempts
    ensures ResultParser.Parse(Outcome(attempts)).Shows?
    ensures PositionalParser.Parse(Outcome(attempts)).Shows?
  {
    OutcomeCases(attempts);
    if Completes(attempts[0]) {
      DecidedReadable(attempts[0]);
    } else if Completes(attempts[1]) {
      DecidedReadable(attempts[1]);
    } else if Completes(attempts[2]) {
      DecidedReadable(attempts[2]);
    } else if Raises(attempts[2]) {
      UnableRead();
    } else {
      FailedRead();
    }
  }

  /** The text of an attempt that completes reads back in both components. */
  lemma DecidedReadable(a: Attempt)
    requires Completes(a)
    ensures ResultParser.Parse(DecidedText(a)).Shows?
    ensures PositionalParser.Parse(DecidedText(a)).Shows?
  {
    SuccessPositional(a.first, a.generated.value, a.reply.text, a.final);
  }

  /** The same holds of the intended conclusion step. */
  lemma IntendedOutcomeReadable(attempts: seq<Attempt>)
    requires |attempts| == MaxAttempts
    ensures ResultParser.Parse(IntendedOutcome(attempts)).Shows?
    ensures PositionalParser.Parse(IntendedOutcome(attempts)).Shows?
  {
    OutcomeReadable(IntendedAttempts(attempts));
  }

  /** What the user sees when the first attempt's conclusion request raises
      and the two retries fail: as written, the verdict "Analysis failed";
      as intended, the first verdict with the default impact line. */
  lemma ConclusionRaiseShown(first: Classification, generated: string, final: Option<Classification>)
    ensures var attempts := [Classified(first, Some(generated), PostRaised, final), Failed, Failed];
      var asWritten, intended := PositionalParser.Parse(Outcome(attempts)), PositionalParser.Parse(IntendedOutcome(attempts));
      && asWritten.Shows? && asWritten.fields.verdict == "Analysis failed"
      && intended.Shows? && intended.fields.verdict == first.verdict.Title()
      && intended.fields.healthImpact == Some(DefaultImpact)
  {
    ConclusionRaiseDiscrepancy(first, generated, final);
    FailedRead();
    SuccessPositional(first, generated, None, final);
  }
}

=== FILE: Seqs.dfy ===
/** Filtering and mapping a sequence, the two halves of a Python list
    comprehension `[f(x) for x in xs if p(x)]`, with the facts the text
    modules need about them. */
module Seqs {

  /** The elements of `xs` that satisfy `p`, in their order. */
  function Filter<T>(xs: seq<T>, p: T -> bool): (ys: seq<T>)
    ensures |ys| <= |xs|
    ensures forall i :: 0 <= i < |ys| ==> p(ys[i]) && ys[i] in xs
  {
    if xs == [] then []
    else (if p(xs[0]) then [xs[0]] else []) + Filter(xs[1..], p)
  }

  /** An element survives the filter exactly when it is in the input and
      satisfies the predicate. */
  lemma {:induction false} FilterMembers<T>(xs: seq<T>, p: T -> bool, y: T)
    ensures y in Filter(xs, p) <==> y in xs && p(y)
  {
    if xs != [] {
      FilterMembers(xs[1..], p, y);
      assert xs == [xs[0]] + xs[1..];
    }
  }

  /** Filtering two runs one after the other filters each in turn: the order
      of the input is kept. */
  lemma {:induction false} FilterAppend<T>(a: seq<T>, b: seq<T>, p: T -> bool)
    ensures Filter(a + b, p) == Filter(a, p) + Filter(b, p)
  {
    if a == [] {
      assert a + b == b;
    } else {
      FilterAppend(a[1..], b, p);
      assert (a + b)[1..] == a[1..] + b;
      var head := if p(a[0]) then [a[0]] else [];
      assert Filter(a + b, p) == head + Filter(a[1..] + b, p);
      assert head + (Filter(a[1..], p) + Filter(b, p)) == (head + Filter(a[1..], p)) + Filter(b, p);
    }
  }

  /** An element of a sequence sits at some index of it. */
  lemma MemberAt<T>(xs: seq<T>, x: T) returns (j: nat)
    requires x in xs
    ensures j < |xs| && xs[j] == x
  {
    j :| 0 <= j < |xs| && xs[j] == x;
  }

  /** `f` applied to every element of `xs`. */
  function Map<T, U>(xs: seq<T>, f: T -> U): (ys: seq<U>)
    ensures |ys| == |xs|
    ensures forall i :: 0 <= i < |xs| ==> ys[i] == f(xs[i])
  {
    seq(|xs|, i requires 0 <= i < |xs| => f(xs[i]))
  }

  lemma MapMembers<T, U>(xs: seq<T>, f: T -> U, y: U)
    ensures y in Map(xs, f) <==> exists i :: 0 <= i < |xs| && y == f(xs[i])
  {
    if y in Map(xs, f) {
      var i :| 0 <= i < |xs| && Map(xs, f)[i] == y;
    }
  }

  lemma MapAppend<T, U>(a: seq<T>, b: seq<T>, f: T -> U)
    ensures Map(a + b, f) == Map(a, f) + Map(b, f)
  {
  }
}

=== FILE: Strings.dfy ===
/**
 * The string primitives that the backend (Python) and the frontend (JavaScript)
 * both lean on: splitting on a delimiter and joining, stripping, prefix and
 * substring search, first-occurrence and global replacement, ASCII lower-casing
 * and decimal rendering. Each is defined once, recursively, with the contract
 * that says what it computes; the lemmas at the end are the algebra the rest of
 * the model uses (split/join round trips, line counts, replacement facts).
 */
module Strings {

  /** The whitespace both Python's `str.strip()`/`str.split()` and JavaScript's
      `String.prototype.trim` remove, restricted to ASCII. */
  const Whitespace: set<char> := {' ', '\t', '\n', '\r', '\U{B}', '\U{C}'}

  predicate Solid(c: char) { c !in Whitespace }

  // ---------------------------------------------------------------- stripping

  /** The index of the first character at or after `i` that is not in `cs`. */
  function SkipFrom(s: string, cs: set<char>, i: nat): (n: nat)
    requires i <= |s|
    ensures i <= n <= |s|
    ensures forall k :: i <= k < n ==> s[k] in cs
    ensures n == |s| || s[n] !in cs
    decreases |s| - i
  {
    if i < |s| && s[i] in cs then SkipFrom(s, cs, i + 1) else i
  }

  /** Python `s.lstrip(cs)`: drops the longest prefix of characters from `cs`. */
  function LStrip(s: string, cs: set<char>): (r: string)
    ensures |r| <= |s| && r == s[|s| - |r|..]
    ensures forall i :: 0 <= i < |s| - |r| ==> s[i] in cs
    ensures r == [] || r[0] !in cs
  {
    s[SkipFrom(s, cs, 0)..]
  }

  /** The index just past the last character before `j` that is not in `cs`. */
  function KeepTo(s: string, cs: set<char>, j: nat): (n: nat)
    requires j <= |s|
    ensures n <= j
    ensures forall k :: n <= k < j ==> s[k] in cs
    ensures n == 0 || s[n - 1] !in cs
  {
    if j > 0 && s[j - 1] in cs then KeepTo(s, cs, j - 1) else j
  }

  /** Python `s.rstrip(cs)`: drops the longest suffix of characters from `cs`. */
  function RStrip(s: string, cs: set<char>): (r: string)
    ensures |r| <= |s| && r == s[..|r|]
    ensures forall i :: |r| <= i < |s| ==> s[i] in cs
    ensures r == [] || r[|r| - 1] !in cs
  {
    s[..KeepTo(s, cs, |s|)]
  }

  /** Python `s.strip()` and JavaScript `s.trim()`. */
  function Trim(s: string): (r: string)
    ensures |r| <= |s|
    ensures r == [] || (Solid(r[0]) && Solid(r[|r| - 1]))
    ensures exists i, j ::
              && 0 <= i <= j <= |s| && r == s[i..j]
              && (forall k :: 0 <= k < i ==> s[k] in Whitespace)
              && (forall k :: j <= k < |s| ==> s[k] in Whitespace)
  {
    StripBoth(s, Whitespace);
    RStrip(LStrip(s, Whitespace), Whitespace)
  }

  /** Stripping both ends keeps a slice of the text, with only characters of
      `cs` cut off either side. */
  lemma StripBoth(s: string, cs: set<char>)
    ensures exists i, j ::
              && 0 <= i <= j <= |s| && RStrip(LStrip(s, cs), cs) == s[i..j]
              && (forall k :: 0 <= k < i ==> s[k] in cs)
              && (forall k :: j <= k < |s| ==> s[k] in cs)
  {
    var left := LStrip(s, cs);
    var i := |s| - |left|;
    var r := RStrip(left, cs);
    assert r == s[i..i + |r|];
    forall k | i + |r| <= k < |s| ensures s[k] in cs {
      assert s[k] == left[k - i];
    }
  }

  predicate Trimmed(s: string) { s == [] || (Solid(s[0]) && Solid(s[|s| - 1])) }

  /** Stripped-ness depends only on the two ends. */
  lemma TrimmedConcat(a: string, b: string)
    requires a != [] && b != [] && Solid(a[0]) && Solid(b[|b| - 1])
    ensures Trimmed(a + b)
  {
    assert (a + b)[|a + b| - 1] == b[|b| - 1];
  }

  lemma TrimTrimmed(s: string)
    requires Trimmed(s)
    ensures Trim(s) == s
  {
  }

  /** Stripping takes a piece of the text, so it adds no character. */
  lemma TrimWithout(s: string, c: char)
    ensures c !in s ==> c !in Trim(s)
  {
  }

  /** So does stripping a set of characters from the left. */
  lemma LStripWithout(s: string, cs: set<char>, c: char)
    ensures c !in s ==> c !in LStrip(s, cs)
  {
    if c in LStrip(s, cs) {
      var r := LStrip(s, cs);
      var i :| 0 <= i < |r| && r[i] == c;
      assert s[|s| - |r| + i] == c;
    }
  }

  /** A stripped text behind one space strips back to itself. */
  lemma TrimPadded(v: string)
    requires Trimmed(v)
    ensures Trim(" " + v) == v
  {
    var s := " " + v;
    assert SkipFrom(s, Whitespace, 0) == 1;
    assert LStrip(s, Whitespace) == v;
    if v != [] {
      assert KeepTo(v, Whitespace, |v|) == |v|;
    }
  }

  // ------------------------------------------------------- prefixes, searching

  predicate StartsWith(s: string, p: string) { |p| <= |s| && s[..|p|] == p }

  lemma StartsWithAppend(p: string, x: string)
    ensures StartsWith(p + x, p)
  {
    assert (p + x)[..|p|] == p;
  }

  /** A one-character prefix is the first character. */
  lemma StartsWithOne(s: string, c: char)
    ensures StartsWith(s, [c]) <==> |s| > 0 && s[0] == c
  {
    if |s| > 0 && s[0] == c {
      assert s[..1] == [c];
    }
  }

  predicate EndsWith(s: string, p: string) { |p| <= |s| && s[|s| - |p|..] == p }

  predicate OccursAt(s: string, p: string, i: int)
  {
    0 <= i && i + |p| <= |s| && s[i..i + |p|] == p
  }

  /** The index of the first occurrence of `p` in `s`, or -1: JavaScript
      `indexOf`, which `includes` and `replace` are built on. */
  function IndexOf(s: string, p: string): (k: int)
    ensures -1 <= k
    ensures k >= 0 ==> OccursAt(s, p, k)
    ensures k >= 0 ==> forall j :: 0 <= j < k ==> !OccursAt(s, p, j)
    ensures k < 0 ==> forall j :: !OccursAt(s, p, j)
    decreases |s|
  {
    if |s| < |p| then -1
    else if s[..|p|] == p then 0
    else
      var k := IndexOf(s[1..], p);
      forall j | j > 0 ensures OccursAt(s, p, j) <==> OccursAt(s[1..], p, j - 1) {
        OccursShift(s, p, j);
      }
      if k < 0 then -1 else k + 1
  }

  lemma OccursShift(s: string, p: string, j: int)
    requires |s| > 0 && j > 0
    ensures OccursAt(s, p, j) <==> OccursAt(s[1..], p, j - 1)
  {
    if j + |p| <= |s| {
      assert s[j..j + |p|] == s[1..][j - 1..j - 1 + |p|];
    }
  }

  /** JavaScript `s.includes(p)` and Python `p in s`. */
  predicate Contains(s: string, p: string) { IndexOf(s, p) >= 0 }

  /** A string that lacks one of the characters of `p` cannot contain `p`. */
  lemma MissingCharBlocks(s: string, p: string, c: char)
    requires c in p && c !in s
    ensures !Contains(s, p)
  {
  }

  lemma StartsWithContains(s: string, p: string)
    requires StartsWith(s, p)
    ensures IndexOf(s, p) == 0
  {
    assert OccursAt(s, p, 0);
  }

  // --------------------------------------------------------------- replacing

  /** JavaScript `s.replace(p, r)` with a string pattern: the first occurrence only. */
  function ReplaceFirst(s: string, p: string, r: string): (t: string)
    ensures !Contains(s, p) ==> t == s
    ensures Contains(s, p) ==> |t| == |s| - |p| + |r|
    ensures Contains(s, p) ==> t == s[..IndexOf(s, p)] + r + s[IndexOf(s, p) + |p|..]
  {
    var k := IndexOf(s, p);
    if k < 0 then s else s[..k] + r + s[k + |p|..]
  }

  /** Python `s.replace(old, new)`: every non-overlapping occurrence, scanning
      left to right. */
  function ReplaceAll(s: string, pat: string, rep: string): (t: string)
    requires pat != []
    ensures |s| < |pat| ==> t == s
    decreases |s|
  {
    if |s| < |pat| then s
    else if s[..|pat|] == pat then rep + ReplaceAll(s[|pat|..], pat, rep)
    else [s[0]] + ReplaceAll(s[1..], pat, rep)
  }

  /** `ReplaceAll` in terms of the first occurrence: a text without the
      pattern comes back unchanged; otherwise the text before the first
      occurrence is kept, the occurrence becomes the replacement, and the
      scan goes on after it. */
  lemma ReplaceAllFirst(s: string, pat: string, rep: string)
    requires pat != []
    ensures !Contains(s, pat) ==> ReplaceAll(s, pat, rep) == s
    ensures var k := IndexOf(s, pat);
            k >= 0 ==> ReplaceAll(s, pat, rep) == s[..k] + rep + ReplaceAll(s[k + |pat|..], pat, rep)
  {
    var k := IndexOf(s, pat);
    if k >= 0 {
      ReplaceAllAt(s, pat, rep, k);
    } else {
      ReplaceAllAbsent(s, pat, rep);
    }
  }

  /** The scan keeps every character before the first occurrence at `k`. */
  lemma {:induction false} ReplaceAllAt(s: string, pat: string, rep: string, k: nat)
    requires pat != [] && OccursAt(s, pat, k)
    requires forall j :: 0 <= j < k ==> !OccursAt(s, pat, j)
    ensures ReplaceAll(s, pat, rep) == s[..k] + rep + ReplaceAll(s[k + |pat|..], pat, rep)
    decreases k
  {
    if k == 0 {
      assert s[..|pat|] == pat;
      assert s[..0] + rep == rep;
    } else {
      assert ReplaceAll(s, pat, rep) == [s[0]] + ReplaceAll(s[1..], pat, rep) by {
        assert !OccursAt(s, pat, 0);
      }
      assert ReplaceAll(s[1..], pat, rep) ==
               s[1..][..k - 1] + rep + ReplaceAll(s[k + |pat|..], pat, rep) by {
        FirstInTail(s, pat, k);
        ReplaceAllAt(s[1..], pat, rep, k - 1);
        DropAfterHead(s, k + |pat|);
      }
      ConsSplice(s, rep, k - 1, ReplaceAll(s[1..], pat, rep), ReplaceAll(s[k + |pat|..], pat, rep));
    }
  }

  /** A first occurrence past the start is the first occurrence of the tail,
      one place earlier. */
  lemma FirstInTail(s: string, pat: string, k: nat)
    requires k > 0 && OccursAt(s, pat, k)
    requires forall j :: 0 <= j < k ==> !OccursAt(s, pat, j)
    ensures OccursAt(s[1..], pat, k - 1)
    ensures forall j :: 0 <= j < k - 1 ==> !OccursAt(s[1..], pat, j)
  {
    OccursShift(s, pat, k);
    forall j | 0 <= j < k - 1 ensures !OccursAt(s[1..], pat, j) {
      OccursShift(s, pat, j + 1);
    }
  }

  /** Dropping from the tail is dropping one more from the text. */
  lemma DropAfterHead(s: string, i: nat)
    requires 0 < i <= |s|
    ensures s[1..][i - 1..] == s[i..]
  {
  }

  /** Putting the first character back in front of a spliced tail. */
  lemma ConsSplice(s: string, rep: string, k: nat, u: string, r: string)
    requires k < |s| && u == s[1..][..k] + rep + r
    ensures [s[0]] + u == s[..k + 1] + rep + r
  {
    assert s[..k + 1] == [s[0]] + s[1..][..k];
  }

  /** Without an occurrence anywhere, the scan copies the text. */
  lemma {:induction false} ReplaceAllAbsent(s: string, pat: string, rep: string)
    requires pat != [] && forall j :: !OccursAt(s, pat, j)
    ensures ReplaceAll(s, pat, rep) == s
    decreases |s|
  {
    if |s| >= |pat| {
      assert !OccursAt(s, pat, 0);
      forall j ensures !OccursAt(s[1..], pat, j) {
        if j >= 0 {
          OccursShift(s, pat, j + 1);
        }
      }
      ReplaceAllAbsent(s[1..], pat, rep);
      assert s == [s[0]] + s[1..];
    }
  }

  /** A character missing from the text and from the replacement stays missing;
      replacing a one-character pattern removes that character for good. */
  lemma {:induction false} ReplaceAllExcludes(s: string, pat: string, rep: string, c: char)
    requires pat != []
    requires c !in rep
    requires c !in s || pat == [c]
    ensures c !in ReplaceAll(s, pat, rep)
    decreases |s|
  {
    if |s| < |pat| {
    } else if s[..|pat|] == pat {
      if c !in s { assert s == s[..|pat|] + s[|pat|..]; }
      ReplaceAllExcludes(s[|pat|..], pat, rep, c);
    } else {
      if pat == [c] { assert s[0] != c; }
      if c !in s { assert s == [s[0]] + s[1..]; }
      ReplaceAllExcludes(s[1..], pat, rep, c);
    }
  }

  /** Replacing a pattern by itself changes nothing. */
  lemma {:induction false} ReplaceAllSelf(s: string, p: string)
    requires p != []
    ensures ReplaceAll(s, p, p) == s
    decreases |s|
  {
    if |s| < |p| {
    } else if s[..|p|] == p {
      ReplaceAllSelf(s[|p|..], p);
      assert s == s[..|p|] + s[|p|..];
    } else {
      ReplaceAllSelf(s[1..], p);
      assert s == [s[0]] + s[1..];
    }
  }

  /** A pattern whose first character does not occur is never replaced. */
  lemma {:induction false} ReplaceAllUnmatched(s: string, pat: string, rep: string)
    requires pat != [] && pat[0] !in s
    ensures ReplaceAll(s, pat, rep) == s
    decreases |s|
  {
    if |s| < |pat| {
    } else {
      assert s[0] != pat[0];
      assert s[..|pat|][0] == s[0];
      ReplaceAllUnmatched(s[1..], pat, rep);
      assert s == [s[0]] + s[1..];
    }
  }

  /** Two strings holding as many `c`s as two others, glued, still do. */
  lemma CountConcat(a: string, b: string, x: string, y: string, c: char)
    requires multiset(a)[c] == multiset(b)[c] && multiset(x)[c] == multiset(y)[c]
    ensures multiset(a + x)[c] == multiset(b + y)[c]
  {
    assert multiset(a + x) == multiset(a) + multiset(x);
    assert multiset(b + y) == multiset(b) + multiset(y);
  }

  /** Replacing when neither pattern nor replacement holds `c` keeps the number of `c`s. */
  lemma {:induction false} ReplaceAllKeepsCount(s: string, pat: string, rep: string, c: char)
    requires pat != [] && c !in pat && c !in rep
    ensures multiset(ReplaceAll(s, pat, rep))[c] == multiset(s)[c]
    decreases |s|
  {
    if |s| < |pat| {
    } else if s[..|pat|] == pat {
      var rest := s[|pat|..];
      var t := ReplaceAll(rest, pat, rep);
      assert ReplaceAll(s, pat, rep) == rep + t;
      assert s == pat + rest;
      ReplaceAllKeepsCount(rest, pat, rep, c);
      assert multiset(rep)[c] == multiset(pat)[c] by {
        assert c !in multiset(rep) && c !in multiset(pat);
      }
      CountConcat(rep, pat, t, rest, c);
    } else {
      var rest := s[1..];
      var t := ReplaceAll(rest, pat, rep);
      assert ReplaceAll(s, pat, rep) == [s[0]] + t;
      assert s == [s[0]] + rest;
      ReplaceAllKeepsCount(rest, pat, rep, c);
      CountConcat([s[0]], [s[0]], t, rest, c);
    }
  }

  // --------------------------------------------------------- split and join

  /** Python `s.split(d)` and JavaScript `s.split(d)` for a one-character
      delimiter: the empty string gives one empty piece. */
  function Split(s: string, d: char): (r: seq<string>)
    ensures |r| >= 1
    ensures forall i :: 0 <= i < |r| ==> d !in r[i]
    decreases |s|
  {
    if s == [] then [[]]
    else
      var rest := Split(s[1..], d);
      if s[0] == d then [[]] + rest else [[s[0]] + rest[0]] + rest[1..]
  }

  /** Python `sep.join(parts)` and JavaScript `parts.join(sep)`. */
  function Join(parts: seq<string>, sep: string): string
  {
    if |parts| == 0 then []
    else if |parts| == 1 then parts[0]
    else parts[0] + sep + Join(parts[1..], sep)
  }

  lemma {:induction false} SplitUndelimited(a: string, d: char)
    requires d !in a
    ensures Split(a, d) == [a]
    decreases |a|
  {
    if a != [] {
      SplitUndelimited(a[1..], d);
      assert a == [a[0]] + a[1..];
    }
  }

  lemma {:induction false} SplitFirstLine(a: string, b: string, d: char)
    requires d !in a
    ensures Split(a + [d] + b, d) == [a] + Split(b, d)
    decreases |a|
  {
    if a == [] {
      assert (a + [d] + b)[1..] == b;
    } else {
      SplitFirstLine(a[1..], b, d);
      assert (a + [d] + b)[1..] == a[1..] + [d] + b;
      assert a == [a[0]] + a[1..];
    }
  }

  /** A delimiter between two texts separates their pieces. */
  lemma {:induction false} SplitAround(a: string, b: string, d: char)
    ensures Split(a + [d] + b, d) == Split(a, d) + Split(b, d)
    decreases |a|
  {
    if a != [] {
      SplitAround(a[1..], b, d);
      assert (a + [d] + b)[1..] == a[1..] + [d] + b;
    }
  }

  /** Splitting a joined text splits off the first part's pieces. */
  lemma SplitJoinFirst(p: string, rest: seq<string>, d: char)
    requires |rest| >= 1
    ensures Split(Join([p] + rest, [d]), d) == Split(p, d) + Split(Join(rest, [d]), d)
  {
    assert ([p] + rest)[1..] == rest;
    SplitAround(p, Join(rest, [d]), d);
  }

  /** Splitting what was joined on the delimiter gives the pieces back. */
  lemma {:induction false} SplitJoin(lines: seq<string>, d: char)
    requires |lines| >= 1
    requires forall i :: 0 <= i < |lines| ==> d !in lines[i]
    ensures Split(Join(lines, [d]), d) == lines
    decreases |lines|
  {
    if |lines| == 1 {
      SplitUndelimited(lines[0], d);
    } else {
      SplitFirstLine(lines[0], Join(lines[1..], [d]), d);
      SplitJoin(lines[1..], d);
      assert lines == [lines[0]] + lines[1..];
    }
  }

  /** Joining the pieces of a split on the delimiter gives the text back. */
  lemma {:induction false} JoinSplit(s: string, d: char)
    ensures Join(Split(s, d), [d]) == s
    decreases |s|
  {
    if s != [] {
      var rest := Split(s[1..], d);
      JoinSplit(s[1..], d);
      if s[0] == d {
        assert Split(s, d) == [[]] + rest;
        assert ([[]] + rest)[1..] == rest;
      } else {
        var r := Split(s, d);
        assert r == [[s[0]] + rest[0]] + rest[1..];
        if |rest| == 1 {
          assert Join(r, [d]) == [s[0]] + rest[0];
        } else {
          assert r[1..] == rest[1..];
          assert Join(r, [d]) == [s[0]] + (rest[0] + [d] + Join(rest[1..], [d]));
        }
        assert s == [s[0]] + s[1..];
      }
    }
  }

  /** The number of pieces is one more than the number of delimiters. */
  lemma {:induction false} SplitCount(s: string, d: char)
    ensures |Split(s, d)| == multiset(s)[d] + 1
    decreases |s|
  {
    if s != [] {
      SplitCount(s[1..], d);
      assert s == [s[0]] + s[1..];
      assert multiset(s) == multiset([s[0]]) + multiset(s[1..]);
    }
  }

  lemma {:induction false} JoinAppend(x: seq<string>, y: seq<string>, sep: string)
    requires |x| >= 1 && |y| >= 1
    ensures Join(x + y, sep) == Join(x, sep) + sep + Join(y, sep)
    decreases |x|
  {
    if |x| == 1 {
      assert (x + y)[1..] == y;
    } else {
      JoinAppend(x[1..], y, sep);
      assert (x + y)[1..] == x[1..] + y;
    }
  }

  /** Joining a joined group in place is joining its pieces in place. */
  lemma JoinFlatten(head: seq<string>, mid: seq<string>, tail: seq<string>, sep: string)
    requires |head| >= 1 && |mid| >= 1 && |tail| >= 1
    ensures Join(head + [Join(mid, sep)] + tail, sep) == Join(head + mid + tail, sep)
  {
    var e := Join(mid, sep);
    JoinAppend(head, [e], sep);
    JoinAppend(head + [e], tail, sep);
    JoinAppend(head, mid, sep);
    JoinAppend(head + mid, tail, sep);
  }

  /** A joined text holds no delimiter that its pieces and separator lack. */
  lemma {:induction false} JoinExcludes(parts: seq<string>, sep: string, c: char)
    requires c !in sep
    requires forall i :: 0 <= i < |parts| ==> c !in parts[i]
    ensures c !in Join(parts, sep)
    decreases |parts|
  {
    if |parts| > 1 {
      JoinExcludes(parts[1..], sep, c);
    }
  }

  // ------------------------------------------------------ case and numbers

  /** One character of JavaScript `toLowerCase` / Python `lower`, ASCII only. */
  function LowerChar(c: char): char
  {
    if 'A' <= c <= 'Z' then (c as int + 32) as char else c
  }

  function ToLower(s: string): (r: string)
    ensures |r| == |s|
    ensures forall i :: 0 <= i < |s| && 'A' <= s[i] <= 'Z' ==> r[i] == (s[i] as int + 32) as char
    ensures forall i :: 0 <= i < |s| && !('A' <= s[i] <= 'Z') ==> r[i] == s[i]
  {
    seq(|s|, i requires 0 <= i < |s| => LowerChar(s[i]))
  }

  /** The decimal rendering of a natural number, most significant digit first. */
  function Decimal(n: nat): (r: string)
    ensures |r| > 0
    ensures forall i :: 0 <= i < |r| ==> '0' <= r[i] <= '9'
    decreases n
  {
    var last := [(48 + n % 10) as char];
    if n < 10 then last else Decimal(n / 10) + last
  }
}

=== FILE: TextCleaning.dfy ===
/**
 * `clean_nutrition_text` of backend/utils/text_cleaning.py (repeated in
 * backend/reference.py): every line's whitespace collapsed to single spaces,
 * then an ordered table of OCR corrections applied one after the other, each
 * replacing every occurrence, and a count of nutrition keywords that only
 * decides whether a warning is logged.
 */
module TextCleaning {
  import opened Opt
  import opened Strings

  // ------------------------------------------------------------------ words

  /** A word of Python's `str.split()`: a non-empty run of non-whitespace. */
  predicate Word(w: string)
  {
    w != [] && forall k :: 0 <= k < |w| ==> Solid(w[k])
  }

  /** The end of the run of non-whitespace characters that starts at `i`. */
  function RunFrom(s: string, i: nat): (n: nat)
    requires i <= |s|
    ensures i <= n <= |s|
    ensures forall k :: i <= k < n ==> Solid(s[k])
    ensures n == |s| || !Solid(s[n])
    decreases |s| - i
  {
    if i == |s| || !Solid(s[i]) then i else RunFrom(s, i + 1)
  }

  /** `line.split()`: the maximal runs of non-whitespace characters, in order. */
  function Words(s: string): (ws: seq<string>)
    ensures forall i :: 0 <= i < |ws| ==> Word(ws[i])
    decreases |s|
  {
    if s == [] then []
    else if !Solid(s[0]) then Words(s[1..])
    else
      var j := RunFrom(s, 0);
      [s[..j]] + Words(s[j..])
  }

  /** `' '.join(line.split())`: the collapsed line has exactly the words of
      the line, in order. */
  function Collapse(line: string): (c: string)
    ensures Words(c) == Words(line)
  {
    var ws := Words(line);
    WordsJoin(ws);
    Join(ws, " ")
  }

  /** A pair of neighbouring characters in which a space stands next to a
      non-whitespace character only. */
  predicate Neighbours(a: char, b: char)
  {
    (a == ' ' ==> Solid(b)) && (b == ' ' ==> Solid(a))
  }

  /** Text whose only whitespace is line breaks and single spaces that sit
      between two non-whitespace characters, ends aside. */
  predicate Spaced(s: string)
  {
    (forall i :: 0 <= i < |s| ==> Solid(s[i]) || s[i] == ' ' || s[i] == '\n') &&
    (forall i :: 0 < i < |s| ==> Neighbours(s[i - 1], s[i]))
  }

  /** Spaced text that neither starts nor ends with a space: no line of it has
      leading, trailing or repeated whitespace. */
  predicate TidyText(s: string)
  {
    Spaced(s) && (s == [] || (s[0] != ' ' && s[|s| - 1] != ' '))
  }

  /** A tidy line: tidy text without a line break. */
  predicate Tidy(s: string)
  {
    TidyText(s) && '\n' !in s
  }

  lemma SpacedSuffix(s: string, k: nat)
    requires Spaced(s) && k <= |s|
    ensures Spaced(s[k..])
  {
    var t := s[k..];
    assert forall i :: 0 <= i < |t| ==> t[i] == s[k + i];
    forall i | 0 < i < |t| ensures Neighbours(t[i - 1], t[i]) {
      assert t[i - 1] == s[k + i - 1];
    }
  }

  /** Two spaced texts glued at a fitting seam are spaced. */
  lemma SpacedConcat(a: string, b: string)
    requires Spaced(a) && Spaced(b)
    requires a != [] && b != [] ==> Neighbours(a[|a| - 1], b[0])
    ensures Spaced(a + b)
  {
    var s := a + b;
    forall i | 0 <= i < |s| ensures Solid(s[i]) || s[i] == ' ' || s[i] == '\n' {
      if i < |a| { assert s[i] == a[i]; } else { assert s[i] == b[i - |a|]; }
    }
    forall i | 0 < i < |s| ensures Neighbours(s[i - 1], s[i]) {
      if i < |a| {
        assert s[i - 1] == a[i - 1] && s[i] == a[i];
      } else if i == |a| {
        assert s[i - 1] == a[|a| - 1] && s[i] == b[0];
      } else {
        assert s[i - 1] == b[i - 1 - |a|] && s[i] == b[i - |a|];
      }
    }
  }

  /** Words joined by single spaces form a tidy line that starts and ends with
      non-whitespace. */
  lemma {:induction false} JoinedWordsTidy(ws: seq<string>)
    requires forall i :: 0 <= i < |ws| ==> Word(ws[i])
    ensures Tidy(Join(ws, " "))
    ensures ws != [] ==> Join(ws, " ") != [] && Solid(Join(ws, " ")[0]) && Solid(Join(ws, " ")[|Join(ws, " ")| - 1])
  {
    if |ws| > 1 {
      JoinedWordsTidy(ws[1..]);
      var w := ws[0];
      var rest := Join(ws[1..], " ");
      var s := Join(ws, " ");
      assert s == w + (" " + rest);
      assert Spaced(w) by {
        forall i | 0 < i < |w| ensures Neighbours(w[i - 1], w[i]) { }
      }
      assert Spaced(" ");
      SpacedConcat(" ", rest);
      SpacedConcat(w, " " + rest);
      assert s[|s| - 1] == rest[|rest| - 1];
      assert '\n' !in w;
    } else if |ws| == 1 {
      assert Join(ws, " ") == ws[0];
      var w := ws[0];
      forall i | 0 < i < |w| ensures Neighbours(w[i - 1], w[i]) { }
    }
  }

  /** A collapsed line is tidy. */
  lemma CollapseTidy(line: string)
    ensures Tidy(Collapse(line))
  {
    JoinedWordsTidy(Words(line));
  }

  /** The run that starts at `i` ends at the first whitespace. */
  lemma {:induction false} RunFromAt(s: string, i: nat, n: nat)
    requires i <= n <= |s| && (forall k :: i <= k < n ==> Solid(s[k])) && (n == |s| || !Solid(s[n]))
    ensures RunFrom(s, i) == n
    decreases n - i
  {
    if i < n {
      RunFromAt(s, i + 1, n);
    }
  }

  lemma {:induction false} WordsSolidRun(w: string, rest: string)
    requires Word(w) && (rest == [] || !Solid(rest[0]))
    ensures Words(w + rest) == [w] + Words(rest)
  {
    var s := w + rest;
    assert s[0] == w[0];
    assert forall k :: 0 <= k < |w| ==> s[k] == w[k];
    assert |w| < |s| ==> s[|w|] == rest[0];
    RunFromAt(s, 0, |w|);
    assert s[..|w|] == w && s[|w|..] == rest;
  }

  /** Splitting words joined by single spaces gives the words back. */
  lemma {:induction false} WordsJoin(ws: seq<string>)
    requires forall i :: 0 <= i < |ws| ==> Word(ws[i])
    ensures Words(Join(ws, " ")) == ws
  {
    if ws == [] {
    } else if |ws| == 1 {
      assert Join(ws, " ") == ws[0] + [];
      WordsSolidRun(ws[0], []);
    } else {
      var rest := Join(ws[1..], " ");
      assert Join(ws, " ") == ws[0] + (" " + rest);
      WordsSolidRun(ws[0], " " + rest);
      assert (" " + rest)[1..] == rest;
      WordsJoin(ws[1..]);
      assert ws == [ws[0]] + ws[1..];
    }
  }

  /** Collapsing twice is collapsing once. */
  lemma CollapseIdempotent(line: string)
    ensures Collapse(Collapse(line)) == Collapse(line)
  {
    WordsJoin(Words(line));
  }

  // --------------------------------------------------------- line normalising

  /** Every line collapsed: the comprehension of text_cleaning.py:9. */
  function CollapseAll(lines: seq<string>): (cs: seq<string>)
    ensures |cs| == |lines|
    ensures forall i :: 0 <= i < |cs| ==> cs[i] == Collapse(lines[i])
  {
    seq(|lines|, i requires 0 <= i < |lines| => Collapse(lines[i]))
  }

  /** text_cleaning.py:9-10: the lines, collapsed, joined again. Reading the
      result line by line gives the text's lines back, in order, each one
      collapsed. */
  function Normalize(text: string): (r: string)
    ensures Split(r, '\n') == CollapseAll(Split(text, '\n'))
  {
    var cs := CollapseAll(Split(text, '\n'));
    CollapseAllTidy(Split(text, '\n'));
    SplitJoin(cs, '\n');
    Join(cs, "\n")
  }

  /** Every collapsed line is tidy. */
  lemma CollapseAllTidy(lines: seq<string>)
    ensures forall i :: 0 <= i < |lines| ==> Tidy(CollapseAll(lines)[i])
  {
    forall i | 0 <= i < |lines| ensures Tidy(CollapseAll(lines)[i]) {
      CollapseTidy(lines[i]);
    }
  }

  /** Normalising keeps the lines, in order, each one collapsed and tidy. */
  lemma NormalizeLines(text: string)
    ensures Split(Normalize(text), '\n') == CollapseAll(Split(text, '\n'))
    ensures forall i :: 0 <= i < |Split(text, '\n')| ==> Tidy(Split(Normalize(text), '\n')[i])
  {
    var cs := CollapseAll(Split(text, '\n'));
    forall i | 0 <= i < |cs| ensures '\n' !in cs[i] && Tidy(cs[i]) {
      CollapseTidy(Split(text, '\n')[i]);
    }
    SplitJoin(cs, '\n');
  }

  /** Tidy lines joined by line breaks give tidy text. */
  lemma {:induction false} LinesJoinTidy(lines: seq<string>)
    requires forall i :: 0 <= i < |lines| ==> Tidy(lines[i])
    ensures TidyText(Join(lines, "\n"))
  {
    if |lines| > 1 {
      LinesJoinTidy(lines[1..]);
      var l := lines[0];
      var rest := Join(lines[1..], "\n");
      assert Join(lines, "\n") == l + ("\n" + rest);
      assert Spaced("\n");
      SpacedConcat("\n", rest);
      SpacedConcat(l, "\n" + rest);
      assert ("\n" + rest)[|"\n" + rest| - 1] != ' ';
    } else if |lines| == 1 {
      assert Join(lines, "\n") == lines[0];
    }
  }

  /** Normalised text is tidy. */
  lemma NormalizeTidy(text: string)
    ensures TidyText(Normalize(text))
  {
    var cs := CollapseAll(Split(text, '\n'));
    forall i | 0 <= i < |cs| ensures Tidy(cs[i]) {
      CollapseTidy(Split(text, '\n')[i]);
    }
    LinesJoinTidy(cs);
  }

  // ------------------------------------------------------------ corrections

  /** A replacement value that cannot spoil tidy text: non-empty, spaced, and
      starting and ending with a non-whitespace character. */
  predicate Fit(rep: string)
  {
    rep != [] && Solid(rep[0]) && Solid(rep[|rep| - 1]) && Spaced(rep)
  }

  /** Replacing every occurrence by a fitting value keeps text spaced; the
      result is empty only for empty text, and its ends come from the text's
      ends or from the value's. */
  lemma {:induction false} ReplaceAllSpaced(s: string, pat: string, rep: string)
    requires pat != [] && Fit(rep) && Spaced(s)
    ensures Spaced(ReplaceAll(s, pat, rep))
    ensures ReplaceAll(s, pat, rep) == [] <==> s == []
    ensures s != [] ==> var t := ReplaceAll(s, pat, rep);
              (t[0] == s[0] || t[0] == rep[0]) && (t[|t| - 1] == s[|s| - 1] || t[|t| - 1] == rep[|rep| - 1])
    decreases |s|
  {
    var t := ReplaceAll(s, pat, rep);
    if |s| < |pat| {
    } else if s[..|pat|] == pat {
      var rest := s[|pat|..];
      SpacedSuffix(s, |pat|);
      ReplaceAllSpaced(rest, pat, rep);
      var r := ReplaceAll(rest, pat, rep);
      assert t == rep + r;
      SpacedConcat(rep, r);
      if r != [] {
        assert t[|t| - 1] == r[|r| - 1];
        assert rest[|rest| - 1] == s[|s| - 1];
      }
    } else {
      var rest := s[1..];
      SpacedSuffix(s, 1);
      ReplaceAllSpaced(rest, pat, rep);
      var r := ReplaceAll(rest, pat, rep);
      assert t == [s[0]] + r;
      assert Spaced([s[0]]);
      if r != [] {
        assert Neighbours(s[0], s[1]);
        assert t[|t| - 1] == r[|r| - 1];
        assert rest[|rest| - 1] == s[|s| - 1];
      }
      SpacedConcat([s[0]], r);
    }
  }

  /** A correction table: rows of (pattern, value), applied in order. */
  type Table = seq<(string, string)>

  /** Every pattern is non-empty, so that `str.replace` is a replacement. */
  predicate Patterns(rows: Table)
  {
    forall i :: 0 <= i < |rows| ==> rows[i].0 != []
  }

  /** The rows applied one after another, each to the previous result, as the
      `for` loop of text_cleaning.py:37-38 does. */
  function ApplyRows(s: string, rows: Table): string
    requires Patterns(rows)
    decreases |rows|
  {
    if rows == [] then s
    else
      var last := rows[|rows| - 1];
      ReplaceAll(ApplyRows(s, rows[..|rows| - 1]), last.0, last.1)
  }

  /** Applying a table in two parts is applying it whole. */
  lemma {:induction false} ApplyRowsSplit(s: string, a: Table, b: Table)
    requires Patterns(a) && Patterns(b)
    ensures Patterns(a + b)
    ensures ApplyRows(s, a + b) == ApplyRows(ApplyRows(s, a), b)
    decreases |b|
  {
    if b == [] {
      assert a + b == a;
    } else {
      var b' := b[..|b| - 1];
      ApplyRowsSplit(s, a, b');
      assert (a + b)[..|a + b| - 1] == a + b';
    }
  }

  /** A character in no pattern and no value keeps its number of occurrences. */
  lemma {:induction false} ApplyRowsKeepsCount(s: string, rows: Table, c: char)
    requires Patterns(rows)
    requires forall i :: 0 <= i < |rows| ==> c !in rows[i].0 && c !in rows[i].1
    ensures multiset(ApplyRows(s, rows))[c] == multiset(s)[c]
    decreases |rows|
  {
    if rows != [] {
      var last := rows[|rows| - 1];
      ApplyRowsKeepsCount(s, rows[..|rows| - 1], c);
      ReplaceAllKeepsCount(ApplyRows(s, rows[..|rows| - 1]), last.0, last.1, c);
    }
  }

  /** A character missing from the text and from every value stays missing. */
  lemma {:induction false} ApplyRowsExcludes(s: string, rows: Table, c: char)
    requires Patterns(rows) && c !in s
    requires forall i :: 0 <= i < |rows| ==> c !in rows[i].1
    ensures c !in ApplyRows(s, rows)
    decreases |rows|
  {
    if rows != [] {
      var last := rows[|rows| - 1];
      ApplyRowsExcludes(s, rows[..|rows| - 1], c);
      ReplaceAllExcludes(ApplyRows(s, rows[..|rows| - 1]), last.0, last.1, c);
    }
  }

  /** Once row `k` replaces the one-character pattern `c`, no later row whose
      value lacks `c` brings it back. */
  lemma RowRemoves(s: string, rows: Table, k: nat, c: char)
    requires Patterns(rows) && k < |rows| && rows[k].0 == [c]
    requires forall i :: k <= i < |rows| ==> c !in rows[i].1
    ensures c !in ApplyRows(s, rows)
  {
    var a, b := rows[..k + 1], rows[k + 1..];
    assert rows == a + b;
    ApplyRowsSplit(s, a, b);
    assert a[..k] == rows[..k];
    ReplaceAllExcludes(ApplyRows(s, rows[..k]), [c], rows[k].1, c);
    ApplyRowsExcludes(ApplyRows(s, a), b, c);
  }

  /** Values that fit keep tidy text tidy. */
  lemma {:induction false} ApplyRowsTidy(s: string, rows: Table)
    requires Patterns(rows) && TidyText(s)
    requires forall i :: 0 <= i < |rows| ==> Fit(rows[i].1)
    ensures TidyText(ApplyRows(s, rows))
    decreases |rows|
  {
    if rows != [] {
      var last := rows[|rows| - 1];
      var before := ApplyRows(s, rows[..|rows| - 1]);
      ApplyRowsTidy(s, rows[..|rows| - 1]);
      ReplaceAllSpaced(before, last.0, last.1);
    }
  }

  /** A row whose value is its pattern changes nothing. */
  lemma IdentityRow(s: string, rows: Table, k: nat)
    requires Patterns(rows) && k < |rows| && rows[k].0 == rows[k].1
    ensures ApplyRows(s, rows[..k + 1]) == ApplyRows(s, rows[..k])
  {
    assert rows[..k + 1][..k] == rows[..k];
    ReplaceAllSelf(ApplyRows(s, rows[..k]), rows[k].0);
  }

  // ------------------------------------------------- the table of corrections

  /** text_cleaning.py:14-22: stray symbols and misread units. */
  const UnitRows: Table := [
    ("|", "1"), ("O", "0"), ("g.", "g"), ("rng", "mg"), ("mq", "mg"), ("q", "g"), ("%o", "%"),
    ("qg", "g"), ("mgl", "mg")]

  /** text_cleaning.py:23-28: label words and their misreadings. */
  const LabelRows: Table := [
    ("Protein", "Protein"), ("Proteln", "Protein"),
    ("Serving Size", "Serving Size"), ("Servina Size", "Serving Size"),
    ("Calories", "Calories"), ("Calorles", "Calories")]

  /** text_cleaning.py:29-34: nutrient names and their misreadings. */
  const NutrientRows: Table := [
    ("Total Fat", "Total Fat"), ("Cholesterol", "Cholesterol"),
    ("Sodium", "Sodium"), ("Sodlum", "Sodium"),
    ("Carbohydrate", "Carbohydrate"), ("Carbohvdrate", "Carbohydrate")]

  /** The `replacements` dictionary in its insertion order, the order in which
      `items()` yields it. */
  const Corrections: Table := UnitRows + LabelRows + NutrientRows

  /** Non-empty printable ASCII without spaces. */
  predicate Visible(v: string)
  {
    v != [] && forall i :: 0 <= i < |v| ==> '!' <= v[i] <= '~'
  }

  /** Printable ASCII, spaces included, so no line break. */
  predicate Printable(v: string)
  {
    forall i :: 0 <= i < |v| ==> ' ' <= v[i] <= '~'
  }

  /** A value free of the characters the first and sixth rows remove, and of
      line breaks. */
  predicate Settled(v: string)
  {
    forall i :: 0 <= i < |v| ==> v[i] != '|' && v[i] != 'O' && v[i] != 'q' && v[i] != '\n'
  }

  /** Non-empty printable patterns. */
  predicate PrintablePatterns(rows: Table)
  {
    forall i :: 0 <= i < |rows| ==> rows[i].0 != [] && Printable(rows[i].0)
  }

  predicate SettledValues(rows: Table)
  {
    forall i :: 0 <= i < |rows| ==> Settled(rows[i].1)
  }

  predicate FitValues(rows: Table)
  {
    forall i :: 0 <= i < |rows| ==> Fit(rows[i].1)
  }

  /** What the proofs need of a table: printable patterns, settled values that fit. */
  predicate WellFormed(rows: Table)
  {
    PrintablePatterns(rows) && SettledValues(rows) && FitValues(rows)
  }

  lemma VisibleFit(v: string)
    requires Visible(v)
    ensures Fit(v)
  {
  }

  lemma PhraseFit(a: string, b: string)
    requires Visible(a) && Visible(b)
    ensures Fit(a + " " + b)
  {
    VisibleFit(a);
    VisibleFit(b);
    SpacedConcat(a, " ");
    SpacedConcat(a + " ", b);
    assert (a + " " + b)[|a + " " + b| - 1] == b[|b| - 1];
  }

  // The facts about the tables' literals below are proved for parameters that
  // the caller fixes to those literals (`SettledUnits`, `SettledLabels`,
  // `PrintableWords`, `SettledWords`): with the literals written directly in
  // one goal, the verifier reasons about all their characters at once, which
  // costs it more than linearly in their total length.
  lemma UnitPatterns()
    ensures PrintablePatterns(UnitRows)
  {
  }

  lemma UnitSettled()
    ensures SettledValues(UnitRows)
  {
    SettledUnits("1", "0", "g", "mg", "%");
  }

  lemma SettledUnits(a: string, b: string, c: string, d: string, e: string)
    requires a == "1" && b == "0" && c == "g" && d == "mg" && e == "%"
    ensures Settled(a) && Settled(b) && Settled(c) && Settled(d) && Settled(e)
  {
  }

  lemma UnitValues()
    ensures FitValues(UnitRows)
  {
    VisibleFit("1");
    VisibleFit("0");
    VisibleFit("g");
    VisibleFit("mg");
    VisibleFit("%");
  }

  lemma UnitRowsWellFormed()
    ensures WellFormed(UnitRows)
  {
    UnitPatterns();
    UnitSettled();
    UnitValues();
  }

  lemma LabelPatterns()
    ensures PrintablePatterns(LabelRows)
  {
  }

  lemma LabelSettled()
    ensures SettledValues(LabelRows)
  {
    SettledLabels("Protein", "Serving Size", "Calories");
  }

  lemma SettledLabels(a: string, b: string, c: string)
    requires a == "Protein" && b == "Serving Size" && c == "Calories"
    ensures Settled(a) && Settled(b) && Settled(c)
  {
  }

  lemma LabelValues()
    ensures FitValues(LabelRows)
  {
    VisibleFit("Protein");
    PhraseFit("Serving", "Size");
    assert "Serving" + " " + "Size" == "Serving Size";
    VisibleFit("Calories");
  }

  lemma NutrientPatterns()
    ensures PrintablePatterns(NutrientRows)
  {
    PrintableWords("Total Fat", "Cholesterol", "Sodium", "Sodlum", "Carbohydrate", "Carbohvdrate");
  }

  lemma PrintableWords(a: string, b: string, c: string, d: string, e: string, f: string)
    requires a == "Total Fat" && b == "Cholesterol" && c == "Sodium"
    requires d == "Sodlum" && e == "Carbohydrate" && f == "Carbohvdrate"
    ensures a != [] && b != [] && c != [] && d != [] && e != [] && f != []
    ensures Printable(a) && Printable(b) && Printable(c) && Printable(d) && Printable(e) && Printable(f)
  {
  }

  lemma NutrientSettled()
    ensures SettledValues(NutrientRows)
  {
    SettledWords("Total Fat", "Cholesterol", "Sodium", "Carbohydrate");
  }

  lemma SettledWords(a: string, b: string, c: string, d: string)
    requires a == "Total Fat" && b == "Cholesterol" && c == "Sodium" && d == "Carbohydrate"
    ensures Settled(a) && Settled(b) && Settled(c) && Settled(d)
  {
  }

  lemma NutrientValues()
    ensures FitValues(NutrientRows)
  {
    PhraseFit("Total", "Fat");
    assert "Total" + " " + "Fat" == "Total Fat";
    VisibleFit("Cholesterol");
    VisibleFit("Sodium");
    VisibleFit("Carbohydrate");
  }

  lemma WellFormedConcat(a: Table, b: Table)
    requires WellFormed(a) && WellFormed(b)
    ensures WellFormed(a + b)
  {
    forall i | 0 <= i < |a + b| ensures (a + b)[i] == if i < |a| then a[i] else b[i - |a|] { }
  }

  /** The table is well formed, has 21 rows, and its first, second, sixth and
      eighth patterns are "|", "O", "q" and "qg". */
  lemma CorrectionsWellFormed()
    ensures WellFormed(Corrections) && Patterns(Corrections)
    ensures |Corrections| == 21
    ensures Corrections[0].0 == "|" && Corrections[1].0 == "O"
    ensures Corrections[5].0 == "q" && Corrections[7] == ("qg", "g")
  {
    UnitRowsWellFormed();
    LabelPatterns();
    LabelSettled();
    LabelValues();
    NutrientPatterns();
    NutrientSettled();
    NutrientValues();
    WellFormedConcat(UnitRows, LabelRows);
    WellFormedConcat(UnitRows + LabelRows, NutrientRows);
  }

  // ------------------------------------------------------------- cleaning

  /** The normalised text with every correction applied, in table order. */
  function Cleaned(text: string): string
  {
    CorrectionsWellFormed();
    ApplyRows(Normalize(text), Corrections)
  }

  /** text_cleaning.py:41-44. */
  const Keywords: seq<string> := ["serving size", "calories", "total fat", "cholesterol",
                                  "sodium", "carbohydrate", "protein", "sugar", "fiber"]

  /** The warning threshold of text_cleaning.py:48. */
  const MinKeywords := 4

  /** How many of `kws`, lower-cased, occur in `lower`. */
  function Found(lower: string, kws: seq<string>): (n: nat)
    ensures n <= |kws|
    ensures n == 0 <==> forall i :: 0 <= i < |kws| ==> !Contains(lower, ToLower(kws[i]))
    ensures n == |kws| <==> forall i :: 0 <= i < |kws| ==> Contains(lower, ToLower(kws[i]))
    decreases |kws|
  {
    if kws == [] then 0
    else
      var init := kws[..|kws| - 1];
      assert forall i :: 0 <= i < |init| ==> init[i] == kws[i];
      Found(lower, init) + (if Contains(lower, ToLower(kws[|kws| - 1])) then 1 else 0)
  }

  /** The positions of `kws` whose keyword, lower-cased, occurs in `lower`. */
  function Hits(lower: string, kws: seq<string>): set<int>
  {
    set i | 0 <= i < |kws| && Contains(lower, ToLower(kws[i]))
  }

  /** `Found` counts the positions of `kws` whose keyword, lower-cased, occurs
      in `lower`. */
  lemma {:induction false} FoundCounts(lower: string, kws: seq<string>)
    ensures Found(lower, kws) == |Hits(lower, kws)|
    decreases |kws|
  {
    if kws == [] {
      assert Hits(lower, kws) == {};
    } else {
      var n := |kws| - 1;
      var init := kws[..n];
      FoundCounts(lower, init);
      var all, before := Hits(lower, kws), Hits(lower, init);
      var hit := Contains(lower, ToLower(kws[n]));
      forall i ensures i in all <==> i in before || (i == n && hit) {
        if 0 <= i < n {
          assert init[i] == kws[i];
        }
      }
      OneMore(all, before, n, hit);
    }
  }

  /** A set that adds at most `n` to a set without it. */
  lemma OneMore(all: set<int>, before: set<int>, n: int, hit: bool)
    requires forall i :: i in all <==> i in before || (i == n && hit)
    requires n !in before
    ensures |all| == |before| + (if hit then 1 else 0)
  {
    var grown := if hit then before + {n} else before;
    forall i ensures i in all <==> i in grown {
    }
    assert all == grown;
  }

  /** `found_keywords` of text_cleaning.py:45: the keywords that occur in the
      lower-cased text. */
  function KeywordCount(text: string): (n: nat)
    ensures n <= |Keywords|
  {
    Found(ToLower(text), Keywords)
  }

  /** The count is the number of nutrition keywords the text mentions, in
      any letter case. */
  lemma KeywordCountCounts(text: string)
    ensures KeywordCount(text) == |Hits(ToLower(text), Keywords)|
  {
    FoundCounts(ToLower(text), Keywords);
  }

  /** The `for` loop of text_cleaning.py:37-38: `text` reassigned once per
      row, in table order. */
  method Correct(s: string, rows: Table) returns (t: string)
    requires Patterns(rows)
    ensures t == ApplyRows(s, rows)
  {
    t := s;
    for k := 0 to |rows|
      invariant t == ApplyRows(s, rows[..k])
    {
      assert rows[..k + 1][..k] == rows[..k];
      t := ReplaceAll(t, rows[k].0, rows[k].1);
    }
    assert rows[..|rows|] == rows;
  }

  /** `clean_nutrition_text`: `None` or the empty string comes back as it is,
      with no warning; any other text is normalised and corrected row by row,
      and the warning is logged when fewer than four keywords occur in the
      result, which does not depend on the count. */
  method CleanNutritionText(text: Option<string>) returns (result: Option<string>, warned: bool)
    ensures text.None? || text.value == [] ==> result == text && !warned
    ensures text.Some? && text.value != [] ==> result == Some(Cleaned(text.value))
    ensures text.Some? && text.value != [] ==> (warned <==> KeywordCount(Cleaned(text.value)) < MinKeywords)
  {
    if text.None? || text.value == [] {
      return text, false;
    }
    CorrectionsWellFormed();
    var t := Correct(Normalize(text.value), Corrections);
    warned := KeywordCount(t) < MinKeywords;
    result := Some(t);
  }

  // ------------------------------------------------- what cleaning keeps

  /** The rows leave empty text empty. */
  lemma {:induction false} ApplyRowsEmpty(rows: Table)
    requires Patterns(rows)
    ensures ApplyRows([], rows) == []
    decreases |rows|
  {
    if rows != [] {
      ApplyRowsEmpty(rows[..|rows| - 1]);
    }
  }

  /** Cleaning the empty text gives the empty text, so the falsy-input guard
      changes nothing for "". */
  lemma CleanedEmpty()
    ensures Cleaned([]) == []
  {
    CorrectionsWellFormed();
    assert Split([], '\n') == [[]];
    assert Words([]) == [];
    assert CollapseAll([[]]) == [[]];
    ApplyRowsEmpty(Corrections);
  }

  /** Cleaning keeps the number of lines: normalising keeps them, and no
      pattern or value holds a line break. */
  lemma CleanedLineCount(text: string)
    ensures |Split(Cleaned(text), '\n')| == |Split(text, '\n')|
  {
    CorrectionsWellFormed();
    NormalizeLines(text);
    var n := Normalize(text);
    forall i | 0 <= i < |Corrections|
      ensures '\n' !in Corrections[i].0 && '\n' !in Corrections[i].1
    {
      var pat := Corrections[i].0;
      assert forall j :: 0 <= j < |pat| ==> ' ' <= pat[j] <= '~';
    }
    ApplyRowsKeepsCount(n, Corrections, '\n');
    SplitCount(n, '\n');
    SplitCount(Cleaned(text), '\n');
  }

  /** Every line of the result has no leading, trailing or repeated whitespace. */
  lemma CleanedTidy(text: string)
    ensures TidyText(Cleaned(text))
  {
    CorrectionsWellFormed();
    NormalizeTidy(text);
    ApplyRowsTidy(Normalize(text), Corrections);
  }

  /** The result holds no '|', 'O' or 'q': their rows replace each of them and
      no value brings one back. */
  lemma CleanedExcludes(text: string)
    ensures '|' !in Cleaned(text) && 'O' !in Cleaned(text) && 'q' !in Cleaned(text)
  {
    CorrectionsWellFormed();
    var n := Normalize(text);
    RowRemoves(n, Corrections, 0, '|');
    RowRemoves(n, Corrections, 1, 'O');
    RowRemoves(n, Corrections, 5, 'q');
  }

  /** The "qg" row never matches: the "q" row before it has removed every 'q'. */
  lemma QgRowDead(s: string)
    ensures Patterns(Corrections[..8]) && Patterns(Corrections[..7])
    ensures ApplyRows(s, Corrections[..8]) == ApplyRows(s, Corrections[..7])
  {
    CorrectionsWellFormed();
    var before := Corrections[..7];
    assert Corrections[..8][..7] == before;
    RowRemoves(s, before, 5, 'q');
    ReplaceAllUnmatched(ApplyRows(s, before), "qg", "g");
  }

  /** The rows whose value is their own pattern, lines 23, 25, 27, 29, 30, 31
      and 33, change nothing. */
  lemma IdentityRowsInert(s: string, k: nat)
    requires k in [9, 11, 13, 15, 16, 17, 19]
    ensures Patterns(Corrections[..k + 1])
    ensures ApplyRows(s, Corrections[..k + 1]) == ApplyRows(s, Corrections[..k])
  {
    CorrectionsWellFormed();
    IdentityRow(s, Corrections, k);
  }
}
